=== FILE: README.md ===
# Admin console core, modelled in Dafny

This project models the logic of a small Next.js admin console for a health
service: system users, roles, patients (demographics and additional data),
services, document types and the store's own settings. Most of the console
is markup and network calls. What is modelled is the logic around them:

- the table pagination window and its buttons, and the table's child slots;
- the HTTP error classifier `handleHttpRequestError`;
- `removeQueryParams` and the sidebar's "active" predicates;
- the list-request URL builders of the service classes and list pages;
- the router-query edits of the list pages (go to page, search, clear
  search, filter, clear filter) and the rules that decide when they fetch;
- the cascading province → municipality → baranggay selector;
- the create/edit form controllers: mode-dependent labels and redirects,
  hydration of stored records into form values and option lists,
  `handleValueChange`, the mapping of a 400 reply's validation errors onto
  error slots, multipart bodies, and the submit flow;
- the two static tables, `FileTypes` and `ServiceCategories`.

Each core source file has its own module under `src/`. Shared pieces have
their own modules too: `Wrappers`, `Text` (decimal printing and substring
search), `Query` (the router query map), `Http` (requests, query strings,
form data), `Select` (`{ value, label }` options), `Forms` (form values and
error slots) and `Address` (the cascading selector).

How the model is set up:

- A page or form whose state is held by setters becomes a `class`. Its
  fields are that state. Each handler is a method with a `modifies` clause,
  and its `ensures` gives the new state in terms of the old one.
- Network replies are method parameters of type `Result<reply, HttpError>`.
- Requests the page sends are appended to a `requests` field.
- Every `router.push` is appended to `navigations`, and every toast to
  `notices`.
- The geographic lookups are functions held in a `Gazetteer` value.

## Model

| member | source | states |
|---|---|---|
| Tables.WindowFacts | src/components/shared/tables/index.tsx:34-46 | the page window holds at most 4 pages, from `page` upward, each with page ≤ p ≤ totalNumberOfPages. It ends at min(page+3, total) and is empty exactly when page > totalNumberOfPages. The older copy at src/components/tables/index.tsx:37-49 is the same. |
| Tables.PagesToDisplay | src/components/shared/tables/index.tsx:34-46 | the `for`/`push` loop returns exactly the window: the consecutive pages from `page` to the clamped last page |
| Tables.ButtonsShown | src/components/shared/tables/index.tsx:31-32 | Previous is shown iff page ≠ 1 and goes to page−1. Next is shown iff page ≠ totalNumberOfPages and goes to page+1. Numbered buttons are shown iff the window has more than one page, and exactly the one equal to `page` is active. The older copy is the same (src/components/tables/index.tsx:34-35, 65, 72, 82). |
| Tables.ButtonsSplit | src/components/shared/tables/index.tsx:62-85 | by position: Previous (to page−1) first when the page is not 1, then one numbered button per window page when the window is longer than one, active exactly on the current page, then Next (to page+1) last when the page is not the total; nothing else |
| Tables.ButtonsOffered | src/components/shared/tables/index.tsx:62 | which of Previous, the numbered buttons and Next appear (the three iff conditions) |
| Tables.ButtonTargetsInRange | src/components/shared/tables/index.tsx:60-87 | when 1 ≤ page ≤ totalNumberOfPages, every button goes to a page in 1..totalNumberOfPages |
| Tables.EmptyListOffersNext | src/components/shared/tables/index.tsx:79 | with no pages at all (page 1 of 0) the component still offers Next, to page 2 |
| Tables.IntendedButtonsInRange | src/components/shared/tables/index.tsx:62-85 | with the intended comparisons (Previous only above page 1, Next only below the last page), no button ever goes below page 1, and Next and the numbered buttons never go past the total |
| Tables.LastOfKind | src/components/shared/tables/index.tsx:102-110 | the result is the last child of the given kind, or none when there is no such child |
| Tables.CollectSlots | src/components/shared/tables/index.tsx:102-110 | the `forEach` leaves each slot holding the last child of its type |
| Tables.Table | src/components/shared/tables/index.tsx:92-243 | renders nothing unless `children` is a non-empty array. While loading, the placeholder table replaces the data table, and the header and pagination stay. |
| Tables.Renders | src/components/shared/tables/index.tsx:98 | `Table` renders only an array of children, and only a non-empty one: no children or a single child renders nothing |
| Tables.LegacyTable | src/components/tables/index.tsx:95-137 | the older `Table`: nothing unless `children` is a non-empty array. While loading only the spinner is shown, with no header, body or pagination; otherwise all three slots. |
| ErrorHandling.HandleHttpRequestError | src/utils/error-handling.ts:11-44 | exactly one outcome per error. ERR_NETWORK gives the disconnect notice and no callback. 400 gives the bad-request callback with the body's validationErrors and message. 401 gives the unauthorised callback. Any other status gives the generic notice. No response and another code gives nothing. A non-Axios error gives its callback. An absent callback is a no-op. |
| ErrorHandling.WithoutCallbacksOnlyNotices | src/utils/error-handling.ts:17-43 | a caller that passes no callbacks only ever gets a notice or nothing |
| ErrorHandling.OutcomeIndependence | src/utils/error-handling.ts:19-22 | a network failure's outcome does not depend on the response or the callbacks; a non-Axios error's outcome depends only on its callback |
| Utils.LineEnd | src/utils/utils.ts:3 | the position where the regular expression's `.*` stops: the first line terminator after the `?`, or the end |
| Utils.RemoveQueryParams | src/utils/utils.ts:1-9 | never longer than its input; replaces the first match of `\?.*` by nothing |
| Utils.NoQueryUnchanged | src/utils/utils.ts:3 | input without `?` comes back unchanged |
| Utils.SingleLineStripsQuery | src/utils/utils.ts:3 | for one-line input the result is the text before the first `?`. It is a prefix of the input, holds no `?`, and is either the whole input or followed in it by `?`. |
| Utils.SingleLineIdempotent | src/utils/utils.ts:3 | on one-line input, applying the function twice equals applying it once |
| Utils.StripsAppendedQuery | src/utils/utils.ts:3 | a path without `?` followed by `?` and a one-line query comes back as the path |
| Utils.StopsAtLineBreak | src/utils/utils.ts:3 | across lines only the rest of the first line is removed, so the result need not be a prefix of the input |
| Accordion.IsParentActive | src/layouts/dashboard-layout/_components/accordion.tsx:23 | holds iff the root path occurs as a substring of the current pathname |
| Accordion.IsChildActive | src/layouts/dashboard-layout/_components/accordion.tsx:24-26 | holds iff the link without its query occurs in the pathname without its query |
| Accordion.ChildActiveIgnoresLinkQuery | src/layouts/dashboard-layout/_components/accordion.tsx:25 | a query string on a sub-link (such as `?page=1&limit=10`) never changes whether it is active |
| Accordion.CurrentPathActive | src/layouts/dashboard-layout/_components/accordion.tsx:24-26 | a link to the current pathname is always active |
| Accordion.RenderSubLink | src/layouts/dashboard-layout/_components/accordion.tsx:48-49 | the item's `active` class and the link's `text-primary` class come from the same predicate, so they always agree |
| Accordion.CollapseClass | src/layouts/dashboard-layout/_components/accordion.tsx:43 | the panel gets `show active` exactly when the parent is active |
| Constants.FileTypesShape | src/constants/file-types.constants.ts:8-32 | the table has 18 entries; the entry at position i has id i+1; every extension starts with `.` |
| Constants.FileTypeById | src/constants/file-types.constants.ts:8-32 | a lookup by id finds the unique entry with that id, present exactly for ids 1..18 |
| Constants.FileTypeOptions | src/components/dashboard/settings/document-types/document-types-form.tsx:97-106 | all file types as `{value: id, label: name}`, in table order |
| Constants.FileTypeOptionsDistinct | src/constants/file-types.constants.ts:9-31 | option values are pairwise distinct |
| Constants.ServiceCategoriesShape | src/constants/service.constant.ts:1-22 | exactly five categories, with ids 1..5 in declaration order and pairwise distinct names |
| Constants.CategoryOptions | src/components/dashboard/services/service-form.tsx:83-96 | the categories as `{value: id, label: name}`, in declaration order |
| Constants.CategoryLookupUnique | src/constants/service.constant.ts:3-19 | option values are distinct, so a find by value for id i+1 returns the i-th option |
| Query.ParsePrinted | src/pages/dashboard/users/system-users/list.tsx:95-98 | `Number` of a printed integer (the page pushed by `goToPage` and read back by the effect) is that integer |
| Query.GoToPageQuery | src/pages/dashboard/users/system-users/list.tsx:235-240 | the page key reads back as the requested page, and every other query key keeps its entry |
| Query.SetKeys | src/pages/dashboard/users/system-users/list.tsx:244-251 | `{...router.query, ...m}` holds each entry of `m`, and every other key keeps its entry |
| Query.ClearKeysQuery | src/pages/dashboard/users/system-users/list.tsx:264-267 | page is 1, the listed keys are absent, and every other key keeps its entry |
| Query.NormaliseList | src/pages/dashboard/users/system-users/list.tsx:75-83 | a truthy single string gives a one-element list, and an absent or empty value gives []. A non-empty array is kept as it is (an empty one gives []). |
| Query.NormaliseReadBack | src/pages/dashboard/users/system-users/list.tsx:75-83 | a list of non-empty values written under `role` and read back by the router normalises to the same list, for one value as for several |
| Http.QueryStringRoles | src/services/user.service.tsx:75-78 | appending `&` and the `&`-joined `role=` texts equals appending one `role` pair per role, in order |
| Http.QueryRoundTrip | src/services/user.service.tsx:63-78 | splitting a built query string at `&` and at each first `=` gives back the pairs it was built from, whenever no key holds `=` or `&` and no value holds `&` |
| Http.AmpersandSplitsValue | src/services/user.service.tsx:65-73 | a search value containing `&key2=value2` reaches the backend as two pairs, because nothing is encoded |
| Listing.RoleOptions | src/pages/dashboard/users/system-users/list.tsx:164-175 | one option per stored role, in reply order, with value the role's key and label its name |
| Listing.SearchArg | src/pages/dashboard/users/system-users/list.tsx:55-73 | a search key's value passes on when truthy, and otherwise becomes `''` (truthiness is preserved both ways) |
| Listing.FetchFailureNotices | src/pages/dashboard/users/system-users/list.tsx:157-161 | a failed list fetch shows at most one notice: the disconnect notice on a network failure, and a notice exactly when the handler's outcome is one |
| Listing.DeleteFailureNotices | src/pages/dashboard/users/system-users/list.tsx:225-232 | a failed delete shows at most one notice. A 400 shows the server's message; a network failure shows the disconnect notice. A 401 or a non-Axios error shows nothing. |
| Listing.SearchPairs | src/services/user.service.tsx:65-73 | the search pairs are the truthy fields in order; never more pairs than fields |
| Listing.SearchPairsMembers | src/services/user.service.tsx:65-73 | every truthy field contributes its pair, and every pair comes from a truthy field |
| Listing.ListParams | src/services/user.service.tsx:63-78 | a request's pairs start with page then limit, followed by the search pairs, then the role pairs |
| Listing.AppendFieldsPairs | src/services/user.service.tsx:65-73 | the chain of `if (value) url += '&key=value'` adds exactly the search pairs to the URL |
| Listing.AppendRolesPairs | src/services/user.service.tsx:75-78 | the role append adds exactly one `role` pair per role |
| Listing.BuiltUrlIsListUrl | src/pages/dashboard/users/system-users/list.tsx:130-147 | every step-by-step builder yields `/<entity>?` followed by its list pairs, joined by `&` |
| Listing.AppendIfTruthy | src/services/user.service.tsx:65-67 | one conditional append, as the builders write it |
| Listing.ListUrlReadBack | src/services/user.service.tsx:63-78 | when no search value or role holds `&`, a list URL's query string parses back to exactly its page, limit, search and role pairs |
| Listing.RolesArgument | src/pages/dashboard/users/system-users/list.tsx:217-223 | the refetch after a delete gets the `filterRole` state as a list. It throws (no request) exactly when the state is a non-empty single string. Otherwise it agrees with the query normaliser. |
| Listing.FilterRoundTrip | src/pages/dashboard/users/system-users/list.tsx:84-89 | roles a filter writes into the query and reads back select exactly the options that were selected |
| Listing.KeepNothing | src/pages/dashboard/users/system-users/list.tsx:90-92 | an empty role list selects no option |
| UserService.UserListBuilt | src/services/user.service.tsx:58-85 | building from `/user?page=..&limit=..` gives the user-list URL of the pairs |
| UserService.GetUserList | src/services/user.service.tsx:58-85 | the request is a GET of `/user?page&limit`. Then come firstName, lastName and email when non-empty, in that order, then one `role` pair per role. Missing fields count as `''` and a missing role list as []. |
| UserService.EmptySearchIsBase | src/services/user.service.tsx:61-63 | with empty search fields and no roles the URL is exactly `/user?page=..&limit=..` |
| UserService.DeleteUserRequest | src/services/user.service.tsx:103 | the delete goes to `/user/` followed by the decimal id |
| UserService.DeleteUser | src/services/user.service.tsx:99-107 | sends that delete and returns the backend's status unchanged; a failed request propagates |
| PatientService.PatientListBuilt | src/services/patient.service.tsx:19-44 | building from `/patient?page=..&limit=..` gives the patient-list URL of the pairs |
| PatientService.GetPatientList | src/services/patient.service.tsx:19-44 | a GET of `/patient?page&limit`, then firstName, lastName and controlNo when non-empty, in that order. Missing fields count as `''`. No role pair is sent. |
| PatientService.NoFilterPairs | src/services/patient.service.tsx:20-35 | no pair of the service's request is a `role` pair |
| PatientService.PatientEndpointsDistinct | src/services/patient.service.tsx:54-70 | the demographics and additional-data reads never coincide, and each determines the patient id |
| PatientService.GetDemographics | src/services/patient.service.tsx:50-58 | reads `/patient/{id}/demographics` |
| PatientService.GetAdditionalData | src/services/patient.service.tsx:64-74 | reads `/patient/{id}/additional-data` |
| PatientService.DeletePatient | src/services/patient.service.tsx:76-82 | deletes `/patient/{id}`; reports status true whenever the request does not throw, and propagates a failure |
| RoleService.GetRoleList | src/services/role.service.tsx:21-35 | a GET of `/role?page&limit`, then `&keyword=` only for a truthy keyword. An absent (`null`) or empty keyword gives the bare base URL. |
| RoleService.RolePath | src/services/role.service.tsx:44 | a role's path is `/role/` followed by its decimal id |
| RoleService.RolePathInjective | src/services/role.service.tsx:44-85 | different roles have different paths |
| RoleService.GetRole | src/services/role.service.tsx:40-48 | reads the role's path |
| RoleService.CreateRole | src/services/role.service.tsx:53-60 | posts the name to `/role` |
| RoleService.UpdateRole | src/services/role.service.tsx:65-76 | a PATCH of the role's path whose body holds only the name |
| RoleService.DeleteRole | src/services/role.service.tsx:81-89 | deletes the role's path and returns the backend's status unchanged |
| SystemUsersList.SearchEncodedQuery | src/pages/dashboard/users/system-users/list.tsx:244-252 | the encoded search query holds page 1, the three drafts and the selected role values, and keeps every other key |
| SystemUsersList.SearchQuery | src/pages/dashboard/users/system-users/list.tsx:253-256 | the object search query holds page 1 and the three drafts, and keeps every other key |
| SystemUsersList.FilterQuery | src/pages/dashboard/users/system-users/list.tsx:277-281 | the filter query holds page 1 and the selected role values, and keeps every other key |
| SystemUsersList.ClearFilterQuery | src/pages/dashboard/users/system-users/list.tsx:288-291 | clearing the filter deletes `role` only; page and every other key are kept |
| SystemUsersList.BuildRequestUrl | src/pages/dashboard/users/system-users/list.tsx:130-147 | the page's own builder gives the same URL as the user-list URL of `UserService` |
| SystemUsersList.QueryListRequest | src/pages/dashboard/users/system-users/list.tsx:95-103 | the effect's request is a GET without a body |
| SystemUsersList.SystemUsersListPage.constructor | src/pages/dashboard/users/system-users/list.tsx:20-44 | the drafts start from the query (default `''`), the filter from `role`, loading, with the initial pagination |
| SystemUsersList.SystemUsersListPage.FetchRoles | src/pages/dashboard/users/system-users/list.tsx:164-175 | requests `/role?page=1&limit=1000` and sets the role options from the reply; a failure changes nothing |
| SystemUsersList.SystemUsersListPage.FetchSystemUsers | src/pages/dashboard/users/system-users/list.tsx:120-162 | sends the user-list request and stores the pagination and rows of a reply. A failure shows the handler's notice and keeps the rows. A role argument that throws sends nothing. |
| SystemUsersList.SystemUsersListPage.ReadSearchDrafts | src/pages/dashboard/users/system-users/list.tsx:55-73 | each truthy search key becomes its draft; the others keep theirs |
| SystemUsersList.SystemUsersListPage.ReadRoleFilter | src/pages/dashboard/users/system-users/list.tsx:75-93 | the selection is the options named by the normalised `role`, in option order, or [] when that list is empty; the filter takes a non-empty list |
| SystemUsersList.SystemUsersListPage.FetchForQuery | src/pages/dashboard/users/system-users/list.tsx:95-105 | the list is fetched iff both page and limit are present, and only then is loading cleared |
| SystemUsersList.SystemUsersListPage.OnQueryChange | src/pages/dashboard/users/system-users/list.tsx:49-108 | nothing at all happens while the role options are empty. Otherwise the drafts and the filter are read, and the list is fetched iff page and limit are present. |
| SystemUsersList.SystemUsersListPage.SendDeleteRequest | src/pages/dashboard/users/system-users/list.tsx:212-233 | deletes `/user/{id}`. On success it shows the notice and refetches with the current pagination page/limit, search drafts and filter. On failure it shows the delete's failure notices and does not refetch. The rows and pagination become the refetch reply's when the refetch is sent (the filter does not throw) and succeeds, and are kept otherwise. |
| SystemUsersList.SystemUsersListPage.GoToPage | src/pages/dashboard/users/system-users/list.tsx:235-240 | pushes the current query with only the page changed |
| SystemUsersList.SystemUsersListPage.HandleOnSearch | src/pages/dashboard/users/system-users/list.tsx:242-257 | pushes two navigations in order: the encoded search query, then the object search query |
| SystemUsersList.SystemUsersListPage.HandleOnClearSearch | src/pages/dashboard/users/system-users/list.tsx:259-273 | empties the drafts and pushes the query with firstName, lastName and email deleted and page 1 |
| SystemUsersList.SystemUsersListPage.HandleOnFilter | src/pages/dashboard/users/system-users/list.tsx:275-283 | pushes the filter query |
| SystemUsersList.SystemUsersListPage.HandleOnClearFilter | src/pages/dashboard/users/system-users/list.tsx:285-293 | empties the selection and pushes the query without `role`, page unchanged |
| PatientsList.SearchEncodedQuery | src/pages/dashboard/patients/list.tsx:246-254 | the encoded search query holds page 1, the three drafts and the selected role values, and keeps every other key |
| PatientsList.SearchQuery | src/pages/dashboard/patients/list.tsx:255-258 | the object search query holds page 1 and firstName, lastName and controlNo, and keeps every other key |
| PatientsList.BuildRequestUrl | src/pages/dashboard/patients/list.tsx:132-149 | `/patient?page&limit`, then the non-empty firstName, lastName and controlNo in order, then the role pairs |
| PatientsList.QueryListRequest | src/pages/dashboard/patients/list.tsx:95-103 | the effect's request is a GET without a body |
| PatientsList.PatientsListPage.constructor | src/pages/dashboard/patients/list.tsx:18-44 | the drafts start from the query (default `''`), the filter from `role`, loading, with the initial pagination |
| PatientsList.PatientsListPage.FetchRoles | src/pages/dashboard/patients/list.tsx:166-177 | requests `/role?page=1&limit=1000` and sets the role options; a failure changes nothing |
| PatientsList.PatientsListPage.FetchPatients | src/pages/dashboard/patients/list.tsx:122-164 | sends the patient-list request and stores a reply's pagination and rows; a failure shows the handler's notice |
| PatientsList.PatientsListPage.ReadSearchDrafts | src/pages/dashboard/patients/list.tsx:55-73 | each truthy search key becomes its draft; the others keep theirs |
| PatientsList.PatientsListPage.ReadRoleFilter | src/pages/dashboard/patients/list.tsx:75-93 | the role query normaliser and selection behave as on the users page |
| PatientsList.PatientsListPage.FetchForQuery | src/pages/dashboard/patients/list.tsx:95-107 | the list is fetched iff page and limit are present, and loading is cleared only on that path |
| PatientsList.PatientsListPage.OnQueryChange | src/pages/dashboard/patients/list.tsx:49-110 | nothing happens while the role options are empty. Otherwise the drafts and the filter are read, and the list is fetched iff page and limit are present. |
| PatientsList.PatientsListPage.SendDeleteRequest | src/pages/dashboard/patients/list.tsx:214-235 | the delete goes to `/user/{id}` (not a patient endpoint) with the user notice. On success it refetches the current page with the drafts and the filter. The rows and pagination become the refetch reply's when the refetch is sent (the filter does not throw) and succeeds, and are kept otherwise. |
| PatientsList.PatientsListPage.GoToPage | src/pages/dashboard/patients/list.tsx:237-242 | pushes the current query with only the page changed |
| PatientsList.PatientsListPage.HandleOnSearch | src/pages/dashboard/patients/list.tsx:244-259 | pushes the encoded search query, then the object search query |
| PatientsList.PatientsListPage.HandleOnClearSearch | src/pages/dashboard/patients/list.tsx:261-275 | empties the drafts and pushes the query with firstName, lastName and controlNo deleted and page 1 |
| ServicesList.ServiceListBuilt | src/pages/dashboard/services/_list.tsx:98-106 | building from `/service?page=..&limit=..` gives the service-list URL |
| ServicesList.BuildRequestUrl | src/pages/dashboard/services/_list.tsx:95-106 | `/service?page&limit`, then `&name=` if truthy, then a single `&category=` if truthy |
| ServicesList.CategoryArgument | src/pages/dashboard/services/_list.tsx:96-176 | the refetch's category is the filter state. A missing state defaults to `[]`, which is truthy and prints empty. |
| ServicesList.MatchingCategories | src/pages/dashboard/services/_list.tsx:63-65 | the selected options are exactly those whose value `_.includes` finds in the query value (a substring test on a string); never more than the options |
| ServicesList.ArraySelectsNothing | src/pages/dashboard/services/_list.tsx:64 | a repeated `category` key (an array) selects no option, since a number is never strictly equal to a string |
| ServicesList.MatchingNone | src/pages/dashboard/services/_list.tsx:63-65 | a value that includes no option's value selects nothing |
| ServicesList.MatchingExactlyOne | src/pages/dashboard/services/_list.tsx:63-65 | a value that includes exactly one option's value selects exactly that option |
| ServicesList.OneDigitContains | src/constants/service.constant.ts:3-19 | one one-digit id text contains another iff they are equal |
| ServicesList.CategoryFilterRoundTrip | src/pages/dashboard/services/_list.tsx:224-233 | a filter for category i, pushed as its id and read back by the effect, selects exactly that category's option |
| ServicesList.FilterValue | src/pages/dashboard/services/_list.tsx:230 | the filter pushes the picked option's id. A selection that is not an option pushes an empty value. A null selection throws before anything is pushed. |
| ServicesList.CategoryLabel | src/pages/dashboard/services/_list.tsx:332-338 | a row shows the label of the option whose value equals `+service.category`, and nothing when the text is not a number or no option matches |
| ServicesList.CategoryLabelOfId | src/pages/dashboard/services/_list.tsx:332-338 | a row whose category is the id of service category i shows that category's name |
| ServicesList.SearchEncodedQuery | src/pages/dashboard/services/_list.tsx:197-205 | page 1 and the name; the category only when the filter is truthy (otherwise the query's own category stays); other keys kept |
| ServicesList.SearchQuery | src/pages/dashboard/services/_list.tsx:206-209 | page 1, the name and the filter category always (`''` when absent); other keys kept |
| ServicesList.ServicesListPage.constructor | src/pages/dashboard/services/_list.tsx:20-42 | the name draft from the query, the filter from `category`, an empty selection, loading |
| ServicesList.ServicesListPage.FetchCategories | src/pages/dashboard/services/_list.tsx:123-130 | the options are the service categories as `{value: id, label: name}` |
| ServicesList.ServicesListPage.FetchServices | src/pages/dashboard/services/_list.tsx:95-121 | sends the service-list request and stores a reply's pagination and rows; a failure shows the handler's notice |
| ServicesList.ServicesListPage.ReadQuery | src/pages/dashboard/services/_list.tsx:53-70 | a truthy name becomes the draft. A truthy category becomes the filter and selects the options it includes. Otherwise the selection becomes `''` and the filter stays. |
| ServicesList.ServicesListPage.FetchForQuery | src/pages/dashboard/services/_list.tsx:72-80 | the list is fetched iff page and limit are present, and only then is loading cleared |
| ServicesList.ServicesListPage.OnQueryChange | src/pages/dashboard/services/_list.tsx:47-83 | nothing happens while the category options are empty; otherwise the query is read and the list fetched iff page and limit are present |
| ServicesList.ServicesListPage.SendDeleteRequest | src/pages/dashboard/services/_list.tsx:167-186 | deletes `/service/{id}`. On success it shows the notice and refetches with the current pagination, name draft and filter. On failure it shows the delete's failure notices. The rows and pagination become the refetch reply's when the refetch succeeds, and are kept otherwise. |
| ServicesList.ServicesListPage.GoToPage | src/pages/dashboard/services/_list.tsx:188-193 | pushes the current query with only the page changed |
| ServicesList.ServicesListPage.HandleOnSearch | src/pages/dashboard/services/_list.tsx:195-210 | pushes the encoded search query, then the object search query |
| ServicesList.ServicesListPage.HandleOnClearSearch | src/pages/dashboard/services/_list.tsx:212-222 | empties the name draft and pushes page 1 without `name`, other keys kept |
| ServicesList.ServicesListPage.HandleOnChange | src/pages/dashboard/services/_list.tsx:224-243 | the filter modal's selection becomes the picked option, or `null` when cleared |
| ServicesList.ServicesListPage.HandleOnFilter | src/pages/dashboard/services/_list.tsx:224-233 | pushes page 1 and the selection's value as `category`; with a null selection nothing is pushed |
| ServicesList.ServicesListPage.HandleOnClearFilter | src/pages/dashboard/services/_list.tsx:235-243 | the selection becomes `null` and the query is pushed without `category`, the page unchanged |
| DocumentTypesList.Badges | src/pages/dashboard/settings/document-types/_list.tsx:241-253 | at most one badge per stored id, each the name of a file type (see `UnknownIdSkipped` and `KnownIdShown` for which ids show one) |
| DocumentTypesList.NamedFileType | src/pages/dashboard/settings/document-types/_list.tsx:242-244 | an id text names a file type exactly when `+id` is a number from 1 to 18, and then the file type with that id |
| DocumentTypesList.BadgesAppend | src/pages/dashboard/settings/document-types/_list.tsx:241-253 | the badges of two runs of ids are the badges of the first followed by those of the second |
| DocumentTypesList.UnknownIdSkipped | src/pages/dashboard/settings/document-types/_list.tsx:245-247 | an id naming no file type renders nothing, wherever it stands in the row |
| DocumentTypesList.KnownIdShown | src/pages/dashboard/settings/document-types/_list.tsx:245-250 | an id naming a file type shows exactly that file type's name, in its place |
| DocumentTypesList.BadgesOfIds | src/pages/dashboard/settings/document-types/_list.tsx:241-253 | a row holding the printed ids of known file types shows exactly their names, in the same order |
| DocumentTypesList.IdTexts | src/pages/dashboard/settings/document-types/_list.tsx:243 | the printed ids, position by position |
| DocumentTypesList.DocumentTypeListBuilt | src/pages/dashboard/settings/document-types/_list.tsx:63-67 | building from `/document-type?page=..&limit=..` gives the document-type list URL |
| DocumentTypesList.BuildRequestUrl | src/pages/dashboard/settings/document-types/_list.tsx:60-67 | `/document-type?page&limit`, then `&name=` when non-empty |
| DocumentTypesList.SearchQuery | src/pages/dashboard/settings/document-types/_list.tsx:147-155 | page 1 and the name draft; other keys kept |
| DocumentTypesList.DocumentTypesListPage.constructor | src/pages/dashboard/settings/document-types/_list.tsx:15-33 | the name draft from the query, loading, the initial pagination |
| DocumentTypesList.DocumentTypesListPage.FetchDocumentTypes | src/pages/dashboard/settings/document-types/_list.tsx:60-81 | sends the list request and stores a reply's pagination and rows; a failure shows the handler's notice |
| DocumentTypesList.DocumentTypesListPage.OnQueryChange | src/pages/dashboard/settings/document-types/_list.tsx:38-58 | a truthy name becomes the draft. The list is fetched, and loading cleared, iff page and limit are present. There is no option gate. |
| DocumentTypesList.DocumentTypesListPage.SendDeleteRequest | src/pages/dashboard/settings/document-types/_list.tsx:118-136 | deletes `/document-type/{id}`. On success it shows the notice (worded for services) and refetches with the current page, limit and name. On failure it shows the delete's failure notices. The rows and pagination become the refetch reply's when the refetch succeeds, and are kept otherwise. |
| DocumentTypesList.DocumentTypesListPage.GoToPage | src/pages/dashboard/settings/document-types/_list.tsx:138-143 | pushes the current query with only the page changed |
| DocumentTypesList.DocumentTypesListPage.HandleOnSearch | src/pages/dashboard/settings/document-types/_list.tsx:145-157 | pushes the encoded search query, then the object search query |
| DocumentTypesList.DocumentTypesListPage.HandleOnClearSearch | src/pages/dashboard/settings/document-types/_list.tsx:159-169 | empties the draft and pushes page 1 without `name`, other keys kept |
| RolesList.RolesListText | src/pages/dashboard/users/roles/list.tsx:46 | the URL the page writes always carries `&keyword=`, even when the keyword is empty |
| RolesList.SearchQuery | src/pages/dashboard/users/roles/list.tsx:60-75 | keyword (empty when clearing) and page 1 set, other keys kept |
| RolesList.RolesListPage.constructor | src/pages/dashboard/users/roles/list.tsx:14-23 | the keyword draft from the query (default `''`), the initial pagination |
| RolesList.RolesListPage.FetchRoles | src/pages/dashboard/users/roles/list.tsx:44-59 | sends the role-list request with the keyword pair and stores a reply; a failure shows the handler's notice |
| RolesList.RolesListPage.OnQueryChange | src/pages/dashboard/users/roles/list.tsx:25-42 | a truthy keyword becomes the draft. Roles are fetched iff page and limit are present, using the draft held BEFORE this pass rather than the query value just read. |
| RolesList.RolesListPage.HandleOnSearch | src/pages/dashboard/users/roles/list.tsx:61-67 | pushes the keyword draft and page 1, other keys kept |
| RolesList.RolesListPage.HandleOnClearSearch | src/pages/dashboard/users/roles/list.tsx:69-76 | empties the draft and pushes keyword `''` (the key is kept) and page 1 |
| RolesList.RolesListPage.GoToPage | src/pages/dashboard/users/roles/list.tsx:78-83 | pushes the current query with only the page changed |
| RolesList.RolesListPage.SendDeleteRequest | src/pages/dashboard/users/roles/list.tsx:85-98 | deletes the role. On success it shows the notice and refetches with the pagination page/limit and the current keyword. On failure it shows the delete's failure notices. The rows and pagination become the refetch reply's when the refetch succeeds, and are kept otherwise. |
| Address.ProvinceOptions | src/components/dashboard/patients/additional-data-form.tsx:50-53 | one option per province, in table order, with the province id as value and its name as caption |
| Address.MunicipalityOptions | src/components/dashboard/patients/additional-data-form.tsx:149-154 | one option per municipality of the province, in table order, with the municipality id as value |
| Address.BaranggayOptions | src/components/dashboard/patients/additional-data-form.tsx:162-168 | one option per baranggay of the municipality within the province, in table order, with the baranggay id as value |
| Address.SelectedValue | src/components/dashboard/patients/additional-data-form.tsx:130-132 | what a submit sends for a select: the selected value, or `''` when nothing is selected |
| Address.AddressSelector.constructor | src/components/dashboard/patients/additional-data-form.tsx:38-43 | nothing is selected, no list has options, and the selects are cascaded |
| Address.AddressSelector.LoadProvinceOptions | src/components/dashboard/patients/additional-data-form.tsx:50-54 | every province is offered |
| Address.AddressSelector.OnProvinceChange | src/components/dashboard/patients/additional-data-form.tsx:147-158 | the province is set. The municipality list holds exactly that province's municipalities, and both lower selects are emptied. The selects end up cascaded. |
| Address.AddressSelector.OnMunicipalityChange | src/components/dashboard/patients/additional-data-form.tsx:160-171 | the municipality is set. With a province selected, the baranggay list holds exactly its baranggays and the baranggay is emptied. Without a province (where the source would throw) nothing else changes. Cascading is preserved. |
| Address.AddressSelector.OnBaranggayChange | src/pages/dashboard/settings/health-service-details/index.tsx:318 | only the baranggay changes; cascading is preserved |
| Address.AddressSelector.Hydrate | src/components/dashboard/patients/additional-data-form.tsx:63-105 | each stored level is selected and its child list loaded; a missing level keeps the old selection. The values a submit then reads are the stored ids. From an empty selector, a stored address whose levels nest yields cascaded selects. |
| StoreSettings.TextEntries | src/pages/dashboard/settings/health-service-details/index.tsx:137-145 | the eight text entries, in append order. They exist iff all three selects are set; the source throws when reading `.value` of an empty select. |
| StoreSettings.UpdateFormAsWritten | src/pages/dashboard/settings/health-service-details/index.tsx:137-149 | the form as written: it is built only when the logo is not `null`, because `logo.path` of `null` throws |
| StoreSettings.UpdateForm | src/pages/dashboard/settings/health-service-details/index.tsx:137-149 | the form with the logo guarded: it exists iff the texts do. The first eight entries are the texts; a logo entry follows exactly when a file was chosen. |
| StoreSettings.AsWrittenAgrees | src/pages/dashboard/settings/health-service-details/index.tsx:147 | the written and the guarded form agree on every draft whose logo is not `null` |
| StoreSettings.NullLogoBlocksUpdate | src/pages/dashboard/settings/health-service-details/index.tsx:147 | with all selects set and a `null` logo, the form as written cannot be built, while the guarded form can and carries no logo |
| StoreSettings.UpdateFormReadBack | src/pages/dashboard/settings/health-service-details/index.tsx:137-149 | reading the sent form back by key gives each text and each select value of the draft, and the chosen logo file or no logo |
| StoreSettings.NoLogo | src/pages/dashboard/settings/health-service-details/index.tsx:147-149 | a form without a logo entry reads back no logo |
| StoreSettings.TextKeys | src/pages/dashboard/settings/health-service-details/index.tsx:138-145 | the eight entries are, in order, name, contactNo, email, address1, address2, province, municipality and baranggay, each carrying the draft's value |
| StoreSettings.StoreSettingsPage.constructor | src/pages/dashboard/settings/health-service-details/index.tsx:17-36 | empty texts and selects, a `null` logo, cleared errors, and loading |
| StoreSettings.StoreSettingsPage.Draft | src/pages/dashboard/settings/health-service-details/index.tsx:137-149 | an update reads the page's five texts and logo and the selector's province, municipality and baranggay |
| StoreSettings.StoreSettingsPage.FetchStoreData | src/pages/dashboard/settings/health-service-details/index.tsx:56-123 | sends `GET /store`. A stored record restores the logo preview (only when a file name is stored), the texts, and each stored address level. A stored province loads its municipalities, and a stored municipality loads its baranggays, using the stored ids; a missing level keeps its option list. From an empty selector the selects end up cascaded. A `null` store changes nothing. The province list is not touched. |
| StoreSettings.StoreSettingsPage.GetData | src/pages/dashboard/settings/health-service-details/index.tsx:38-51 | fetches the store. A returned store restores the logo, the texts and each stored address level as `FetchStoreData` does. It also loads the municipality list of a stored province and the baranggay list of a stored municipality, and from an empty selector it leaves the selects cascaded. Without a stored record these stay as they were, and so does the option list of a missing level. On success every province is offered and loading stops; a failed fetch leaves both as they were. |
| StoreSettings.StoreSettingsPage.ResetErrors | src/pages/dashboard/settings/health-service-details/index.tsx:125-129 | the name, contact number and email errors are cleared |
| StoreSettings.StoreSettingsPage.BuildUpdateForm | src/pages/dashboard/settings/health-service-details/index.tsx:137-149 | the form appended field by field equals `UpdateFormAsWritten` of the page's draft: nothing when a select is empty or the logo is `null`, since reading `.value` or `.path` of `null` throws |
| StoreSettings.StoreSettingsPage.HandleUpdateFailure | src/pages/dashboard/settings/health-service-details/index.tsx:171-179 | a 400 reply sets the name, email and contact number errors to the server's messages or `null`. Any other error leaves them. The handler's notice is shown. |
| StoreSettings.StoreSettingsPage.SendUpdate | src/pages/dashboard/settings/health-service-details/index.tsx:151-181 | sends `PATCH /store` with the form. Status true clears the errors, shows the notice, reloads the page and stops loading. Status false changes nothing but loading. A failed request goes to the handler; loading stays on only when the handler throws. |
| StoreSettings.StoreSettingsPage.HandleUpdateStore | src/pages/dashboard/settings/health-service-details/index.tsx:134-182 | when building the form throws (an empty select or a `null` logo) nothing is sent, nothing else changes and loading stops. Otherwise exactly the `UpdateFormAsWritten` of the draft is sent, with the outcome `SendUpdate` states: status true clears the errors, notifies and reloads; status false changes only loading; a failure goes to the handler. |
| StoreSettings.StoreSettingsPage.UpdateWithoutLogo | src/pages/dashboard/settings/health-service-details/index.tsx:147 | with a complete address and a `null` logo the page sends no request and shows no notice, and loading stops, although the corrected `UpdateForm` exists for that draft |
| StoreSettings.StoreSettingsPage.OnProvinceChange | src/pages/dashboard/settings/health-service-details/index.tsx:184-195 | the province is set, the municipality list is that province's, the lower selects are emptied, and the other lists are kept |
| StoreSettings.StoreSettingsPage.OnMunicipalityChange | src/pages/dashboard/settings/health-service-details/index.tsx:197-208 | the municipality is set and the province kept. With a province, the baranggay list is exactly its baranggays and the baranggay is emptied. The municipality list is kept. |
| StoreSettings.StoreSettingsPage.OnBaranggayChange | src/pages/dashboard/settings/health-service-details/index.tsx:318 | only the baranggay changes |
| AdditionalDataForm.AdditionalDataFormState.constructor | src/components/dashboard/patients/additional-data-form.tsx:26-44 | every text is empty, nothing is selected, there are no options and no patient |
| AdditionalDataForm.AdditionalDataFormState.CurrentPayload | src/components/dashboard/patients/additional-data-form.tsx:122-134 | the payload carries the texts as they are and each select's value, or `''` when nothing is selected |
| AdditionalDataForm.AdditionalDataFormState.SetUpAdditionalData | src/components/dashboard/patients/additional-data-form.tsx:46-115 | without a patient nothing changes. With one, every province is offered and each text is restored (`''` when missing). The payload then sends the stored province, municipality and baranggay ids, or keeps the earlier ones when none is stored. From an empty selector, a nested stored address gives cascaded selects. The postal code is never restored. |
| AdditionalDataForm.AdditionalDataFormState.OnSuccess | src/components/dashboard/patients/additional-data-form.tsx:135-138 | one success notice, then a push to the patient's additional-data page (`null` in the path without a patient) |
| AdditionalDataForm.AdditionalDataFormState.OnError | src/components/dashboard/patients/additional-data-form.tsx:139-143 | exactly the handler's failure notices for the error |
| AdditionalDataForm.AdditionalDataFormState.Submit | src/components/dashboard/patients/additional-data-form.tsx:120-145 | the current payload is handed over. A reply with status true or false shows the success notice and leaves for the additional-data page: the owning page calls `onError` with a plain error, which the handler ignores, and then `onSuccess`. A failed request shows the handler's notices and does not navigate. |
| AdditionalDataForm.AdditionalDataFormState.OnProvinceChange | src/components/dashboard/patients/additional-data-form.tsx:147-158 | the province is set, its municipalities are offered, and the payload then sends the province's value with empty municipality and baranggay |
| AdditionalDataForm.AdditionalDataFormState.OnMunicipalityChange | src/components/dashboard/patients/additional-data-form.tsx:160-171 | the municipality is set and the province kept. With a province, its baranggays are offered and the baranggay is emptied. Cascading is preserved. |
| DemographicsForm.OptionalIdText | src/components/dashboard/patients/demographics-form.tsx:75 | `${_patient?.id}` prints the id, or `undefined` without a patient |
| DemographicsForm.LabelsAsWritten | src/components/dashboard/patients/demographics-form.tsx:58-79 | as written: an edit form gets the create labels and a create form gets the update labels |
| DemographicsForm.Labels | src/components/dashboard/patients/demographics-form.tsx:58-79 | as intended: create labels and the create link in create mode; update labels and a breadcrumb to the patient's page in edit mode |
| DemographicsForm.LabelsSwapped | src/components/dashboard/patients/demographics-form.tsx:59 | in each mode the labels as written are the intended labels of the other mode, and never the intended labels of the mode itself |
| DemographicsForm.Hydrated | src/components/dashboard/patients/demographics-form.tsx:85-106 | the seven values are set. The photo is a preview of the fetched file, or `null` when no file name is stored; each text is the stored one or `''`. Every other key is kept. |
| DemographicsForm.HydratedPayload | src/components/dashboard/patients/demographics-form.tsx:94-106 | a hydrated form submits exactly the seven keys, each text being the stored one or `''` |
| DemographicsForm.DemographicsFormState.constructor | src/components/dashboard/patients/demographics-form.tsx:43-56 | the seven values are empty, there are no errors, no patient, and it is not loading |
| DemographicsForm.DemographicsFormState.Properties | src/components/dashboard/patients/demographics-form.tsx:58-79 | the labels as written, which are the intended labels of the other mode: an edit form shows the Create button |
| DemographicsForm.DemographicsFormState.SetUpDemographicsData | src/components/dashboard/patients/demographics-form.tsx:81-116 | a patient replaces the values with `Hydrated`; no patient changes nothing |
| DemographicsForm.DemographicsFormState.HandleValueChange | src/components/dashboard/patients/demographics-form.tsx:179-187 | exactly one value is replaced, as `WithValue` states |
| DemographicsForm.DemographicsFormState.ResetErrors | src/components/dashboard/patients/demographics-form.tsx:189-194 | the errors are emptied |
| DemographicsForm.DemographicsFormState.Submit | src/components/dashboard/patients/demographics-form.tsx:121-177 | the seven values are handed over. A called success callback shows the notice and leads to the additional-data page of the id it receives; the errors are never cleared. A 400 reply replaces the errors with exactly the six keys other than middleName. Other failures show the handler's notice. Loading ends in every case. |
| DocumentTypesForm.DocumentTypeFormProperties | src/components/dashboard/settings/document-types/document-types-form.tsx:43-71 | create shows "created!" and leads back to the list. Edit shows "updated!" and leads to the document type's own page, which its breadcrumb also links; a missing id prints as `null`. |
| DocumentTypesForm.IdTextMatches | src/components/dashboard/settings/document-types/document-types-form.tsx:118-121 | an option is kept iff its id, printed as decimal text, is among the stored ids. A stored number never matches, since the comparison is strict. Option order is stated by `IdTextMatchesAppend` and `IdTextMatchesOne`. |
| DocumentTypesForm.IdTextMatchesAppend | src/components/dashboard/settings/document-types/document-types-form.tsx:118-121 | the filter distributes over concatenated options: the matches from the first part come first, in their order, and are followed by those from the second. |
| DocumentTypesForm.IdTextMatchesOne | src/components/dashboard/settings/document-types/document-types-form.tsx:118-121 | a single option is kept exactly when its id text is stored. Together with `IdTextMatchesAppend`, this makes the result the options filtered in table order. |
| DocumentTypesForm.HydratedFileTypes | src/components/dashboard/settings/document-types/document-types-form.tsx:118-125 | the restored selection holds exactly the file-type options whose id text is stored |
| DocumentTypesForm.StoredTexts | src/components/dashboard/settings/document-types/document-types-form.tsx:120 | one decimal text per id, in order |
| DocumentTypesForm.StoredTextsMember | src/components/dashboard/settings/document-types/document-types-form.tsx:120 | an id's text is among the stored texts iff the id is among the ids |
| DocumentTypesForm.IdTextMatchesAsKeep | src/components/dashboard/settings/document-types/document-types-form.tsx:118-121 | matching on id texts selects the same options as keeping by value whenever both admit the same options |
| DocumentTypesForm.IdTextMatchesKeep | src/components/dashboard/settings/document-types/document-types-form.tsx:118-121 | ids stored as texts select exactly what keeping those ids selects |
| DocumentTypesForm.HydrationIgnoresOrder | src/components/dashboard/settings/document-types/document-types-form.tsx:118-125 | two stored lists with the same members restore the same selection, whatever their order or repetitions |
| DocumentTypesForm.HydratedValue | src/components/dashboard/settings/document-types/document-types-form.tsx:118-125 | a file type's id is among the restored values iff its id text is stored |
| DocumentTypesForm.NumericIdsHydrateNothing | src/components/dashboard/settings/document-types/document-types-form.tsx:118-121 | a stored list made only of numbers restores no selection |
| DocumentTypesForm.SubmitRoundTrip | src/components/dashboard/settings/document-types/document-types-form.tsx:145-148 | a selection of file types, submitted as ids and stored as texts, is restored with exactly the same members |
| DocumentTypesForm.HydrationStable | src/components/dashboard/settings/document-types/document-types-form.tsx:118-148 | a restored selection that is submitted unchanged and restored again is the same sequence |
| DocumentTypesForm.Selected | src/components/dashboard/settings/document-types/document-types-form.tsx:143 | the options held under `fileTypes`, or none when the field holds no selection |
| DocumentTypesForm.WithDocumentType | src/components/dashboard/settings/document-types/document-types-form.tsx:126-133 | a stored document type sets the name (`''` when missing) and the selection `HydratedFileTypes`. Every other value is kept. |
| DocumentTypesForm.DocumentTypesFormState.constructor | src/components/dashboard/settings/document-types/document-types-form.tsx:33-41 | an empty name and selection, no errors, no options, not loading |
| DocumentTypesForm.DocumentTypesFormState.Properties | src/components/dashboard/settings/document-types/document-types-form.tsx:43-71 | on the current name: create leads to the list with "is created!", edit to the document type's page with "is updated!" |
| DocumentTypesForm.DocumentTypesFormState.Payload | src/components/dashboard/settings/document-types/document-types-form.tsx:145-148 | the name and the ids of the selected file types, in selection order |
| DocumentTypesForm.DocumentTypesFormState.FetchSupportedFileTypes | src/components/dashboard/settings/document-types/document-types-form.tsx:97-106 | every file type is offered, in table order |
| DocumentTypesForm.DocumentTypesFormState.HandleValueChange | src/components/dashboard/settings/document-types/document-types-form.tsx:176-184 | exactly one value is replaced, as `WithValue` states |
| DocumentTypesForm.DocumentTypesFormState.FetchDocumentType | src/components/dashboard/settings/document-types/document-types-form.tsx:111-135 | sends `GET /document-type/{id}`. A stored document type gives `WithDocumentType` of the values; otherwise nothing changes. |
| DocumentTypesForm.DocumentTypesFormState.GetData | src/components/dashboard/settings/document-types/document-types-form.tsx:77-92 | the document type is fetched iff in edit mode, with a truthy id, and once options exist. The values become `WithDocumentType` exactly when that fetch returns a document type, and are kept otherwise. The form stays loading iff the fetch fails. |
| DocumentTypesForm.DocumentTypesFormState.ResetErrors | src/components/dashboard/settings/document-types/document-types-form.tsx:169-174 | the errors are emptied |
| DocumentTypesForm.DocumentTypesFormState.Submit | src/components/dashboard/settings/document-types/document-types-form.tsx:140-167 | the payload is handed over. On success the errors are emptied, the notice is shown and the form leaves for its success redirect. A 400 reply overwrites the name and fileTypes errors and keeps the others. Other failures show the handler's notice without navigating. |
| LegacyDocumentTypesForm.LegacyDocumentTypesFormState.constructor | src/pages/dashboard/settings/document-types/_components/document-types-form.tsx:21-27 | an empty name and selection, a cleared name error, a `null` file-type error, and loading |
| LegacyDocumentTypesForm.LegacyDocumentTypesFormState.Properties | src/pages/dashboard/settings/document-types/_components/document-types-form.tsx:29-56 | on the name state: create leads to the list with "is created!", edit to the document type's page with "is updated!" |
| LegacyDocumentTypesForm.LegacyDocumentTypesFormState.Renders | src/pages/dashboard/settings/document-types/_components/document-types-form.tsx:134-140 | nothing is rendered while loading, nor in edit mode while no file type is selected |
| LegacyDocumentTypesForm.LegacyDocumentTypesFormState.Payload | src/pages/dashboard/settings/document-types/_components/document-types-form.tsx:112-115 | the name and the ids of the selected file types, in selection order |
| LegacyDocumentTypesForm.LegacyDocumentTypesFormState.FetchDocumentType | src/pages/dashboard/settings/document-types/_components/document-types-form.tsx:86-104 | sends `GET /document-type/{id}`. A stored document type restores the name (`''` when missing) and the selection `HydratedFileTypes`; otherwise both are kept. |
| LegacyDocumentTypesForm.LegacyDocumentTypesFormState.GetData | src/pages/dashboard/settings/document-types/_components/document-types-form.tsx:57-70 | in edit mode with a truthy id the document type is fetched first. A returned one restores the name and the selection `HydratedFileTypes`; otherwise both are kept. Unless that fetch fails, every file type is then offered and loading stops. An edit whose stored ids are all numbers never renders. |
| LegacyDocumentTypesForm.LegacyDocumentTypesFormState.ResetErrors | src/pages/dashboard/settings/document-types/_components/document-types-form.tsx:130-132 | the name error is cleared, and nothing else |
| LegacyDocumentTypesForm.LegacyDocumentTypesFormState.Submit | src/pages/dashboard/settings/document-types/_components/document-types-form.tsx:109-128 | the payload is handed over. On success the name error is cleared while the file-type error is kept; the notice is shown and the form leaves for its redirect. A 400 reply sets both errors; other failures show the handler's notice. |
| ServiceForm.ServiceFormProperties | src/components/dashboard/services/service-form.tsx:52-81 | both modes lead back to the list. Create shows "service is created!" and links the create page. Edit shows "service is updated!" and its breadcrumb links the service's page, with a missing id printed as `null`. |
| ServiceForm.CategoryFor | src/components/dashboard/services/service-form.tsx:138-140 | an option is found iff the stored category is a number that some option carries; the option found carries exactly that number. A category stored as text never matches. |
| ServiceForm.CategoryRoundTrip | src/components/dashboard/services/service-form.tsx:138-166 | a category stored as id `i + 1` hydrates the `i`-th category option, and a submit sends back `i + 1` |
| ServiceForm.WithService | src/components/dashboard/services/service-form.tsx:129-151 | a stored service sets the logo (a preview, or `null` when no file name is stored), name, price and description (`''` when missing), and the category option `CategoryFor` finds. Every other value is kept. |
| ServiceForm.ServiceFormState.constructor | src/components/dashboard/services/service-form.tsx:37-50 | the values are empty, there are no options and no errors, and it is not loading |
| ServiceForm.ServiceFormState.Properties | src/components/dashboard/services/service-form.tsx:52-81 | on the current name: both modes lead to the list, with "service is created!" or "service is updated!" |
| ServiceForm.ServiceFormState.Payload | src/components/dashboard/services/service-form.tsx:161-169 | logo, name, description and price as held, and the category is a number iff an option is picked |
| ServiceForm.ServiceFormState.FetchCategories | src/components/dashboard/services/service-form.tsx:83-96 | every category is offered, in table order |
| ServiceForm.ServiceFormState.HandleValueChange | src/components/dashboard/services/service-form.tsx:199-207 | exactly one value is replaced, as `WithValue` states |
| ServiceForm.ServiceFormState.FetchServiceData | src/components/dashboard/services/service-form.tsx:122-153 | sends `GET /service/{id}`. A stored service gives `WithService` of the values, with the options current at call time; otherwise nothing changes. |
| ServiceForm.ServiceFormState.GetData | src/components/dashboard/services/service-form.tsx:98-117 | the service is fetched iff in edit mode, with a truthy id, and once options exist. The values become `WithService` exactly when that fetch returns a service, and are kept otherwise. The form stays loading iff the fetch fails. |
| ServiceForm.ServiceFormState.Submit | src/components/dashboard/services/service-form.tsx:158-190 | the payload is handed over. On success the errors are emptied, the notice is shown and the form leaves for the list. A 400 reply replaces the errors with exactly the five keys, each the server's message or `null`. Other failures show the handler's notice without navigating. |
| LegacyServiceForm.BadRequestErrors | src/pages/dashboard/services/_components/service-form.tsx:138-144 | each of the five errors is the server's message for its key, or `null` |
| LegacyServiceForm.LegacyServiceFormState.constructor | src/pages/dashboard/services/_components/service-form.tsx:21-35 | no logo, empty texts, no options, no category, the category error `null` and the others empty, and loading |
| LegacyServiceForm.LegacyServiceFormState.Properties | src/pages/dashboard/services/_components/service-form.tsx:37-64 | on the name state: both modes lead to the list, with "service is created!" or "service is updated!" |
| LegacyServiceForm.LegacyServiceFormState.Renders | src/pages/dashboard/services/_components/service-form.tsx:157-163 | nothing is rendered while loading, nor in edit mode while no category is chosen |
| LegacyServiceForm.LegacyServiceFormState.Payload | src/pages/dashboard/services/_components/service-form.tsx:125-131 | the four values as held, and the chosen category's value or `''` |
| LegacyServiceForm.LegacyServiceFormState.FetchServiceData | src/pages/dashboard/services/_components/service-form.tsx:95-117 | sends `GET /service/{id}`. A stored logo name gives a preview; an empty one keeps the logo. Name, price and description are restored (`''` when missing). The category is looked up among the options held at call time. Otherwise nothing changes. |
| LegacyServiceForm.LegacyServiceFormState.GetData | src/pages/dashboard/services/_components/service-form.tsx:65-78 | in edit mode with a truthy id the service is fetched first. A returned service restores logo, texts and a category looked up among the options of the pass before; otherwise all five are kept. Unless that fetch fails, the options are then loaded and loading stops. On a first pass with no options, an edit finds no category. |
| LegacyServiceForm.LegacyServiceFormState.ResetErrors | src/pages/dashboard/services/_components/service-form.tsx:149-155 | all five errors are emptied |
| LegacyServiceForm.LegacyServiceFormState.Submit | src/pages/dashboard/services/_components/service-form.tsx:122-147 | the payload is handed over. On success the errors are emptied, the notice is shown and the form leaves for the list. A 400 reply sets the five errors as `BadRequestErrors`. Other failures show the handler's notice without navigating. |
| SystemUserForm.UserFormPropertiesAsWritten | src/components/dashboard/users/system-users/system-user-form.tsx:57-85 | as written: the edit breadcrumb links the literal `/dashboard/users/system-users/{$userId}` whatever the user. Create mode and every success redirect agree with the intended properties. |
| SystemUserForm.UserFormProperties | src/components/dashboard/users/system-users/system-user-form.tsx:57-85 | as intended: create leads to the list and links the create page. Edit leads to the user's page, which its breadcrumb also links. The notice names the user and says created or updated. |
| SystemUserForm.BreadcrumbMissesUser | src/components/dashboard/users/system-users/system-user-form.tsx:80 | for user 7 the edit breadcrumb as written differs from the page a successful update leads to |
| SystemUserForm.RoleChoices | src/components/dashboard/users/system-users/system-user-form.tsx:131-134 | one option per role, in reply order, with the role id as value and its name as caption |
| SystemUserForm.WithUser | src/components/dashboard/users/system-users/system-user-form.tsx:150-177 | a stored user sets the photo (a preview, or `null` when no file name is stored), first name, last name, email (`''` when missing) and the roles as `RoleChoices`. Every other value, the passwords included, is kept. |
| SystemUserForm.SystemUserFormState.constructor | src/components/dashboard/users/system-users/system-user-form.tsx:40-55 | the seven values are empty, there are no errors and no role options, and it is not loading |
| SystemUserForm.SystemUserFormState.Properties | src/components/dashboard/users/system-users/system-user-form.tsx:57-85 | as written on the current names: the success message names the user; create leads to the list, edit to the user's page; the edit breadcrumb is the literal `{$userId}` path |
| SystemUserForm.SystemUserFormState.HandleValueChange | src/components/dashboard/users/system-users/system-user-form.tsx:112-120 | exactly one value is replaced, as `WithValue` states |
| SystemUserForm.SystemUserFormState.FetchRoles | src/components/dashboard/users/system-users/system-user-form.tsx:125-139 | sends the role request. A reply gives the role options `RoleChoices`; a failure keeps them. |
| SystemUserForm.SystemUserFormState.FetchUserData | src/components/dashboard/users/system-users/system-user-form.tsx:144-179 | sends `GET /user/{id}`. A stored user gives `WithUser` of the values; otherwise nothing changes. |
| SystemUserForm.SystemUserFormState.GetData | src/components/dashboard/users/system-users/system-user-form.tsx:87-106 | the user is fetched iff in edit mode, with a truthy id, and once role options exist. The values become `WithUser` exactly when that fetch returns a user, and are kept otherwise. The form stays loading iff the fetch fails. |
| SystemUserForm.SystemUserFormState.ResetErrors | src/components/dashboard/users/system-users/system-user-form.tsx:234-239 | the errors are emptied |
| SystemUserForm.SystemUserFormState.Submit | src/components/dashboard/users/system-users/system-user-form.tsx:184-232 | the seven values are handed over. On success the errors are emptied, the notice is shown and the form leaves for its redirect, both taken from the properties before the submit. A 400 reply shows "Check your form for errors." and replaces the errors with exactly the seven keys. Other failures show the handler's notice. Loading ends either way. |
| LegacySystemUserForm.BadRequestErrors | src/pages/dashboard/users/system-users/_components/system-user-form.tsx:153-161 | each of the seven errors is the server's message for its key, or `null` |
| LegacySystemUserForm.ClearedErrorsAsWritten | src/pages/dashboard/users/system-users/_components/system-user-form.tsx:166-174 | as written, `resetErrors` clears six errors and keeps the confirm-password error as it was |
| LegacySystemUserForm.StaleConfirmPasswordError | src/pages/dashboard/users/system-users/_components/system-user-form.tsx:173 | after a 400 reply that names only the confirm password, `resetErrors` as written leaves that error standing, so the errors are not all cleared |
| LegacySystemUserForm.LegacySystemUserFormState.constructor | src/pages/dashboard/users/system-users/_components/system-user-form.tsx:21-39 | no photo, empty texts and roles, cleared errors, and loading |
| LegacySystemUserForm.LegacySystemUserFormState.Properties | src/pages/dashboard/users/system-users/_components/system-user-form.tsx:40-66 | as written: create leads to the list, edit to the user's page, and the edit breadcrumb is the literal `{$userId}` path |
| LegacySystemUserForm.LegacySystemUserFormState.FetchUserData | src/pages/dashboard/users/system-users/_components/system-user-form.tsx:104-129 | sends `GET /user/{id}`. A stored photo name gives a preview; an empty one keeps the photo. The texts are restored (`''` when missing) and the roles become options. Otherwise nothing changes. |
| LegacySystemUserForm.LegacySystemUserFormState.GetData | src/pages/dashboard/users/system-users/_components/system-user-form.tsx:69-83 | fetches the roles first, and the user only after them, in edit mode with a truthy id. A returned user restores photo, texts and roles as `FetchUserData` does; otherwise all five are kept. Loading stops iff neither request failed. The role options follow the roles reply. |
| LegacySystemUserForm.LegacySystemUserFormState.ResetErrorsAsWritten | src/pages/dashboard/users/system-users/_components/system-user-form.tsx:166-174 | as written: the errors become `ClearedErrorsAsWritten` of the old ones, and the confirm-password value is emptied |
| LegacySystemUserForm.LegacySystemUserFormState.ResetErrors | src/pages/dashboard/users/system-users/_components/system-user-form.tsx:166-174 | as intended: all seven errors are cleared |
| LegacySystemUserForm.LegacySystemUserFormState.Submit | src/pages/dashboard/users/system-users/_components/system-user-form.tsx:134-164 | the seven values are handed over. On success `resetErrors` runs as written: six errors are cleared, the confirm-password error is kept and the confirm-password value emptied; the notice is shown and the form leaves for its redirect. A 400 reply sets the seven errors as `BadRequestErrors`. Other failures show the handler's notice without navigating. |
| CreateSystemUser.RoleEntries | src/pages/dashboard/users/system-users/create.tsx:22-24 | one entry per role, in order: role `i` sends its id under `roles[i][id]` |
| CreateSystemUser.TextEntries | src/pages/dashboard/users/system-users/create.tsx:17-21 | the five text entries, in append order |
| CreateSystemUser.CreateForm | src/pages/dashboard/users/system-users/create.tsx:16-25 | the five texts, then the roles, then the photo as the last entry |
| CreateSystemUser.RoleKeysDistinct | src/pages/dashboard/users/system-users/create.tsx:23 | two positions with the same role key are the same position |
| CreateSystemUser.RoleKeyIsNotPlain | src/pages/dashboard/users/system-users/create.tsx:17-25 | no role key equals a text key or the photo key |
| CreateSystemUser.CreateFormReadBack | src/pages/dashboard/users/system-users/create.tsx:16-25 | reading the sent form back by key gives each role's id and the photo |
| CreateSystemUser.RoleReadBack | src/pages/dashboard/users/system-users/create.tsx:22-24 | role `i`'s key reads back role `i`'s id from the role entries |
| CreateSystemUser.NotAmongTexts | src/pages/dashboard/users/system-users/create.tsx:17-21 | the photo key and every role key are absent from the text entries |
| CreateSystemUser.NotAmongRoles | src/pages/dashboard/users/system-users/create.tsx:22-24 | a key that does not start with `r` is absent from the role entries |
| CreateSystemUser.HandleCreateUser | src/pages/dashboard/users/system-users/create.tsx:14-37 | sends `POST /user` with exactly `CreateForm`, the roles appended by a loop. It resolves iff the reply has status true. Status false throws an ordinary error; a failed request rethrows its error. |
| Select.Values | src/components/dashboard/settings/document-types/document-types-form.tsx:147 | one value per option, in option order |
| Select.KeepSelected | src/pages/dashboard/users/system-users/list.tsx:86-88 | an option is kept iff it is among the options and its value is among the values; never more options than offered |
| Select.KeepSelectedIdempotent | src/pages/dashboard/users/system-users/list.tsx:86-88 | keeping by the values of an earlier keep gives back the same options |
| Select.KeepSameMembership | src/pages/dashboard/users/system-users/list.tsx:86-88 | two value lists with the same members keep the same options |
| Select.SelectionRoundTrip | src/pages/dashboard/users/system-users/list.tsx:86-88 | with distinct option values, a selection made from the options is kept exactly by its own values |
| Select.FindByValue | src/components/dashboard/services/service-form.tsx:138-140 | an option is found iff some option carries the value. The found option is among the options, carries the value, and no earlier option does. |
| Select.FindUnique | src/components/dashboard/services/service-form.tsx:138-140 | with distinct option values, the option found is the one carrying the value |
| Forms.IdText | src/components/dashboard/services/service-form.tsx:76 | a template literal prints the id, or `null` when the prop defaults to `null` |
| Forms.OrEmpty | src/components/dashboard/services/service-form.tsx:146-149 | a stored text, or `''` when missing |
| Forms.PhotoValue | src/pages/dashboard/users/system-users/create.tsx:25 | a chosen file is appended as a file; `null` and `''` are appended as the texts `null` and `''`, and a preview as text |
| Forms.StoredPhoto | src/components/dashboard/services/service-form.tsx:130-137 | a stored file name gives a preview of the fetched file; an empty name keeps the fallback |
| Forms.WithValue | src/components/dashboard/services/service-form.tsx:199-207 | the field holds the new value, the keys grow by at most that field, and every other value is kept |
| Forms.Lookup | src/components/dashboard/services/service-form.tsx:161 | a value is found iff its key is present, and it is the value held |
| Forms.TextOf | src/components/dashboard/services/service-form.tsx:53-54 | a text value's text, or `''` when the key is missing |
| Forms.PickedValue | src/components/dashboard/services/service-form.tsx:166 | a number iff an option is picked, and then that option's value; `''` otherwise |
| Forms.Fields | src/components/dashboard/users/system-users/system-user-form.tsx:186-201 | exactly the named keys that the form holds, each with its value |
| Forms.ErrorFor | src/components/dashboard/services/service-form.tsx:180 | the server's message iff the reply names the key; `null` otherwise |
| Forms.ErrorsFor | src/components/dashboard/services/service-form.tsx:177-186 | exactly the given keys, each `ErrorFor` its key |
| Forms.MergeErrors | src/components/dashboard/settings/document-types/document-types-form.tsx:156-163 | the given keys are overwritten with `ErrorFor` and every other error is kept |
| Forms.SubmitFailureNotices | src/components/dashboard/services/service-form.tsx:173-188 | a network failure shows the disconnection notice. There is a notice iff the handler toasts, and at most one. |

## Left out

- Network I/O. Every reply is a method parameter, and every request a page sends is recorded in its `requests` log rather than performed.
- Fetching a stored photo or logo as a blob and `URL.createObjectURL`. The object URL is a parameter (`photoUrl`, `logoUrl`), and a failed blob fetch is not modelled.
- The `try`/`catch` around the patient forms' hydration. Its "Oops something went wrong..." notice can only come from the blob fetch, which is not modelled.
- Timers. The delayed end of loading on the store page and the patients list, the 400 ms delay before the store update's success path, and the system-user form's delayed `loading: false` all take effect at once in the model.
- Concurrency between effects and handlers. Each handler and effect pass runs to completion. A stale value is modelled only where the source reads one: the roles page's keyword, and the legacy service form's options in its own fetch.
- Rendering: markup, modals, spinners, breadcrumbs as components, and the photo drop zone. The render gates (`Renders`), the table slots and the pagination buttons are modelled.
- The owning create and edit pages of the forms, except the system-user create page's `handleCreateUser`. What such a handler did is the submit's `thrown` or `outcome` parameter. The additional-data page's handler is folded into `AdditionalDataForm.AdditionalDataFormState.Submit`.
- The administrative-division tables of `ph-geo-admin-divisions`. They are not part of this model: `provinces`, `searchMunicipality` and `searchBaranggay` are functions held in a `Gazetteer` value.
- `qs.encode` of the pushed queries. A push records the query map itself.
- `console.log` calls.
- Query.NormaliseList: an empty array under `role` gives `[]`, whereas the source, for which an empty array is truthy, gives `[[]]`. The router never yields an empty array from a URL.
- Query.ParseNumber: JavaScript's `Number` and unary `+` also accept surrounding whitespace, decimals, exponents and hexadecimal. The model reads decimal integers with an optional leading `+` or `-`, `''` as 0, and anything else as `NaN`.
- Forms.OrEmpty: a stored text is either present or missing, and a missing one hydrates as `''`. `_.get(record, key, '')` uses its default only for an absent (`undefined`) value. A text stored as `null`, such as a patient's `middleName` or `address2`, comes back as `null` and is kept as `null` in the source. The record types of the forms have no `null` case, so the model does not cover that input.
- ServicesList.CategoryLabel: inherits the integer-only reading of `Query.ParseNumber`.
- Utils.RemoveQueryParams: the `catch` branch of `removeQueryParams` is not modelled, since `String.prototype.replace` with a regular expression cannot throw on a string.
- Address.AddressSelector.OnMunicipalityChange: with no province selected the source sets the municipality and then throws on `province.value`. The model sets the municipality and leaves the rest as it was, without the exception.

## Findings

The page and form classes follow the code as written, so each behaves as the
"as-written" column says. Each corrected member is a separate definition with
the intended property proved about it.

| source | as written | input that shows it | evidently intended | confidence | as-written member | corrected member |
|---|---|---|---|---|---|---|
| src/components/shared/tables/index.tsx:79 | Next is offered whenever `page !== totalNumberOfPages`, and it leads to `page + 1` (line 32) | an empty list: page 1 of 0 pages offers Next to page 2 | Next only while `page < totalNumberOfPages`, so that every target except Previous lies within the pages | high; not executed | Tables.EmptyListOffersNext | Tables.IntendedButtonsInRange |
| src/components/dashboard/patients/demographics-form.tsx:59 | `mode !== 'create'` selects the create labels | an edit form shows "Create Patient Demographics" and a Create button; a create form shows Update | create labels in create mode, update labels in edit mode | high; not executed | DemographicsForm.LabelsSwapped | DemographicsForm.Labels |
| src/pages/dashboard/users/system-users/_components/system-user-form.tsx:173 | `resetErrors` calls `setConfirmPassword('')` where the six calls before it clear errors | a 400 reply naming only `confirmPassword`, then a successful submit: the confirm-password error stays shown | `setConfirmPasswordError('')`, clearing all seven errors | high; not executed | LegacySystemUserForm.StaleConfirmPasswordError | LegacySystemUserForm.LegacySystemUserFormState.ResetErrors |
| src/components/dashboard/users/system-users/system-user-form.tsx:80 | the edit breadcrumb links `/dashboard/users/system-users/{$userId}` literally | user 7: the breadcrumb links `{$userId}` while a successful update leads to `/dashboard/users/system-users/7` | `${userId}`, linking the user's own page | high; not executed | SystemUserForm.BreadcrumbMissesUser | SystemUserForm.UserFormProperties |
| src/pages/dashboard/users/system-users/_components/system-user-form.tsx:62 | the older form's edit breadcrumb links `/dashboard/users/system-users/{$userId}` literally too | user 7 in the create page's form, in edit mode: the same literal link | `${userId}`, linking the user's own page | high; not executed | SystemUserForm.BreadcrumbMissesUser | SystemUserForm.UserFormProperties |
| src/pages/dashboard/settings/health-service-details/index.tsx:147 | `logo.path` is read when the logo may still be `null` | a store saved without a logo, updated without choosing one: the update throws before any request is sent | send the form without a logo entry, as is done when the logo is a preview | medium; not executed | StoreSettings.NullLogoBlocksUpdate | StoreSettings.UpdateForm |

=== FILE: src/accordion.dfy ===
/** The sidebar `Accordion`: which group is expanded and which link is
    highlighted for the current route. */
module Accordion {
  import Text
  import Utils

  /** The group is open when the current pathname contains the group's
      root path anywhere. */
  function IsParentActive(pathname: string, rootpath: string): (r: bool)
    ensures r <==> Text.Contains(pathname, rootpath)
  {
    Text.IndexOf(pathname, rootpath) > -1
  }

  /** A sub-link is highlighted when the current pathname, without its
      query, contains the link without its query. */
  function IsChildActive(pathname: string, link: string): (r: bool)
    ensures r <==> Text.Contains(Utils.RemoveQueryParams(pathname), Utils.RemoveQueryParams(link))
  {
    Text.IndexOf(Utils.RemoveQueryParams(pathname), Utils.RemoveQueryParams(link)) > -1
  }

  /** The query string a link carries never affects its highlighting. */
  lemma ChildActiveIgnoresLinkQuery(pathname: string, link: string, query: string)
    requires '?' !in link && Utils.SingleLine(query)
    ensures IsChildActive(pathname, link + "?" + query) == IsChildActive(pathname, link)
  {
    Utils.StripsAppendedQuery(link, query);
    Utils.NoQueryUnchanged(link);
  }

  /** A link to the current pathname is highlighted. */
  lemma CurrentPathActive(pathname: string)
    ensures IsChildActive(pathname, pathname)
  {
    var p := Utils.RemoveQueryParams(pathname);
    assert Text.OccursAt(p, p, 0) by {
      assert p[0..|p|] == p;
    }
  }

  /** The classes of one sub-link: the list item and the link text. */
  datatype SubLinkView = SubLinkView(itemClass: string, linkClass: string)

  /** One rendered sub-link: the item is marked active and the link text is
      primary-coloured for the same links, the others are plain and grey. */
  function RenderSubLink(pathname: string, link: string): (v: SubLinkView)
    ensures v.itemClass == "list-group-item active" <==> IsChildActive(pathname, link)
    ensures v.linkClass == "text-primary" <==> IsChildActive(pathname, link)
    ensures !IsChildActive(pathname, link) ==> v == SubLinkView("list-group-item ", "text-grey")
  {
    var active := IsChildActive(pathname, link);
    SubLinkView("list-group-item " + (if active then "active" else ""),
                "text-" + (if active then "primary" else "grey"))
  }

  /** The class of the group's collapsible panel: shown when the parent is
      active. */
  function CollapseClass(pathname: string, rootpath: string): (c: string)
    ensures Text.IsPrefix("accordion-collapse collapse  ", c)
    ensures c == "accordion-collapse collapse  show active" <==> Text.Contains(pathname, rootpath)
  {
    "accordion-collapse collapse  " + (if IsParentActive(pathname, rootpath) then "show active" else "")
  }
}

=== FILE: src/additional_data_form.dfy ===
/** The patient additional-data form: emergency contact, address texts,
    the cascading address selects and the postal code. The page that owns
    the form sends the payload and calls back; its request is modelled by
    the reply it receives. */
module AdditionalDataForm {
  import opened Wrappers
  import opened Select
  import opened ErrorHandling
  import Listing
  import Query
  import Text
  import opened Forms
  import Address

  const UpdatedText := "Successfully updated patient's additional data."
  const SuccessPathPrefix := "/dashboard/patients/additional-data/"

  /** The `patient` prop: its id and the stored fields, each possibly
      missing. */
  datatype PatientRecord = PatientRecord(
    id: int,
    emergencyContactFirstName: Option<string>, emergencyContactMiddleName: Option<string>,
    emergencyContactLastName: Option<string>, emergencyContactNo: Option<string>,
    address1: Option<string>, address2: Option<string>,
    address: Address.StoredAddress)

  /** What the form hands to `handleOnFormSubmit`. */
  datatype Payload = Payload(
    emergencyContactFirstName: string, emergencyContactMiddleName: string,
    emergencyContactLastName: string, emergencyContactNo: string,
    address1: string, address2: string,
    province: string, municipality: string, baranggay: string, postal: string)

  class AdditionalDataFormState {
    const address: Address.AddressSelector
    var patient: Option<PatientRecord>
    var emergencyContactFirstName: string
    var emergencyContactMiddleName: string
    var emergencyContactLastName: string
    var emergencyContactNo: string
    var address1: string
    var address2: string
    var postal: string
    var submissions: seq<Payload>
    var notices: seq<Listing.Notice>
    var navigations: seq<Query.Navigation>

    /** Every text empty, nothing selected, no options, no patient. */
    constructor (g: Address.Gazetteer)
      ensures fresh(address) && address.gazetteer == g
      ensures address.province.None? && address.municipality.None? && address.baranggay.None?
      ensures address.provinceOptions == [] && address.municipalityOptions == [] && address.baranggayOptions == []
      ensures patient.None?
      ensures emergencyContactFirstName == "" && emergencyContactMiddleName == ""
      ensures emergencyContactLastName == "" && emergencyContactNo == ""
      ensures address1 == "" && address2 == "" && postal == ""
      ensures submissions == [] && notices == [] && navigations == []
    {
      address := new Address.AddressSelector(g);
      patient := None;
      emergencyContactFirstName := "";
      emergencyContactMiddleName := "";
      emergencyContactLastName := "";
      emergencyContactNo := "";
      address1 := "";
      address2 := "";
      postal := "";
      submissions := [];
      notices := [];
      navigations := [];
    }

    /** `patientId`: the patient's id, `null` without a patient, as the
        success path prints it. */
    function PatientIdText(): string
      reads this
    {
      match patient
      case Some(p) => IdText(Some(Text.IntToString(p.id)))
      case None => IdText(None)
    }

    /** The payload the form's current state yields: the texts as they
        are, each select's value or `''`. */
    function CurrentPayload(): (p: Payload)
      reads this, address
      ensures p.province == Address.SelectedValue(address.province)
      ensures p.municipality == Address.SelectedValue(address.municipality)
      ensures p.baranggay == Address.SelectedValue(address.baranggay)
      ensures p.postal == postal
    {
      Payload(emergencyContactFirstName, emergencyContactMiddleName, emergencyContactLastName, emergencyContactNo,
        address1, address2,
        Address.SelectedValue(address.province), Address.SelectedValue(address.municipality),
        Address.SelectedValue(address.baranggay), postal)
    }

    /** The effect on a new `patient` prop: nothing without a patient;
        with one, every province is offered, the texts are restored with
        `''` for a missing field, and the address selects are hydrated
        without resets. The postal code is never restored. */
    method SetUpAdditionalData(p: Option<PatientRecord>)
      modifies this`patient, this`emergencyContactFirstName, this`emergencyContactMiddleName,
        this`emergencyContactLastName, this`emergencyContactNo, this`address1, this`address2, address
      ensures patient == p
      ensures p.Some? ==>
        var r := p.value;
        emergencyContactFirstName == OrEmpty(r.emergencyContactFirstName)
        && emergencyContactMiddleName == OrEmpty(r.emergencyContactMiddleName)
        && emergencyContactLastName == OrEmpty(r.emergencyContactLastName)
        && emergencyContactNo == OrEmpty(r.emergencyContactNo)
        && address1 == OrEmpty(r.address1) && address2 == OrEmpty(r.address2)
        && address.provinceOptions == Address.ProvinceOptions(address.gazetteer)
        && CurrentPayload().province ==
             (if r.address.province.Some? then r.address.province.value.provinceId else old(CurrentPayload()).province)
        && CurrentPayload().municipality ==
             (if r.address.municipality.Some? then r.address.municipality.value.municipalityId else old(CurrentPayload()).municipality)
        && CurrentPayload().baranggay ==
             (if r.address.baranggay.Some? then r.address.baranggay.value.baranggayId else old(CurrentPayload()).baranggay)
        && (old(address.province).None? && old(address.municipality).None? && Address.Nested(r.address) ==> address.Cascaded())
      ensures p.None? ==>
        emergencyContactFirstName == old(emergencyContactFirstName)
        && emergencyContactMiddleName == old(emergencyContactMiddleName)
        && emergencyContactLastName == old(emergencyContactLastName)
        && emergencyContactNo == old(emergencyContactNo)
        && address1 == old(address1) && address2 == old(address2)
        && address.provinceOptions == old(address.provinceOptions)
        && address.province == old(address.province) && address.municipality == old(address.municipality)
        && address.baranggay == old(address.baranggay)
      ensures CurrentPayload().postal == old(CurrentPayload().postal)
    {
      patient := p;
      match p {
        case Some(r) =>
          address.LoadProvinceOptions();
          emergencyContactFirstName := OrEmpty(r.emergencyContactFirstName);
          emergencyContactMiddleName := OrEmpty(r.emergencyContactMiddleName);
          emergencyContactLastName := OrEmpty(r.emergencyContactLastName);
          emergencyContactNo := OrEmpty(r.emergencyContactNo);
          address1 := OrEmpty(r.address1);
          address2 := OrEmpty(r.address2);
          address.Hydrate(r.address);
        case None =>
      }
    }

    /** `onSuccess`: the notice, then the patient's additional-data page. */
    method OnSuccess()
      modifies this`notices, this`navigations
      ensures notices == old(notices) + [Listing.SuccessNotice(UpdatedText)]
      ensures navigations == old(navigations) + [Query.PushPath(SuccessPathPrefix + PatientIdText())]
    {
      notices := notices + [Listing.SuccessNotice(UpdatedText)];
      navigations := navigations + [Query.PushPath(SuccessPathPrefix + PatientIdText())];
    }

    /** `onError`: the handler with no callbacks, so a notice or nothing. */
    method OnError(e: HttpError)
      modifies this`notices
      ensures notices == old(notices) + Listing.FetchFailureNotices(e)
    {
      notices := notices + Listing.FetchFailureNotices(e);
    }

    /** `_handleOnFormSubmit` with the owning page's handler: the payload is
        handed over; a reply with status true calls `onSuccess`; a reply
        with status false calls `onError` with an ordinary error, which
        the handler ignores, and then `onSuccess` as well; a failed
        request calls `onError`. */
    method Submit(reply: Result<StatusReply, HttpError>)
      modifies this`submissions, this`notices, this`navigations
      ensures submissions == old(submissions) + [CurrentPayload()]
      ensures reply.Success? ==>
        notices == old(notices) + [Listing.SuccessNotice(UpdatedText)]
        && navigations == old(navigations) + [Query.PushPath(SuccessPathPrefix + PatientIdText())]
      ensures reply.Failure? ==>
        notices == old(notices) + Listing.FetchFailureNotices(reply.error) && navigations == old(navigations)
    {
      submissions := submissions + [CurrentPayload()];
      match reply {
        case Success(r) =>
          if !r.status {
            OnError(NonAxiosError);
            assert Listing.FetchFailureNotices(NonAxiosError) == [];
          }
          OnSuccess();
        case Failure(e) =>
          OnError(e);
      }
    }

    /** The address selects' handlers, on the form's selector. */
    method OnProvinceChange(selected: SelectOption<string>)
      modifies address
      ensures address.province == Some(selected)
      ensures address.municipalityOptions == Address.MunicipalityOptions(address.gazetteer, selected.value)
      ensures address.municipality.None? && address.baranggay.None?
      ensures CurrentPayload().province == selected.value
      ensures CurrentPayload().municipality == "" && CurrentPayload().baranggay == ""
    {
      address.OnProvinceChange(selected);
    }

    method OnMunicipalityChange(selected: SelectOption<string>)
      modifies address
      ensures address.municipality == Some(selected) && address.province == old(address.province)
      ensures address.province.Some? ==>
        address.baranggayOptions == Address.BaranggayOptions(address.gazetteer, address.province.value.value, selected.value)
        && address.baranggay.None?
      ensures address.municipalityOptions == old(address.municipalityOptions)
      ensures old(address.Cascaded()) ==> address.Cascaded()
    {
      address.OnMunicipalityChange(selected);
    }
  }
}

=== FILE: src/address.dfy ===
/** The cascading province, municipality and baranggay selects of the
    store settings page and the patient additional-data form. The
    administrative-division tables are foreign data: a `Gazetteer` value
    stands for them, so every property below holds whatever they contain. */
module Address {
  import opened Wrappers
  import opened Select

  datatype Province = Province(provinceId: string, name: string)
  datatype Municipality = Municipality(provinceId: string, municipalityId: string, name: string)
  datatype Baranggay = Baranggay(provinceId: string, municipalityId: string, baranggayId: string, name: string)

  /** The division tables: `provinces`, `searchMunicipality({ provinceId })`
      and `searchBaranggay({ provinceId, municipalityId })`. */
  datatype Gazetteer = Gazetteer(
    provinces: seq<Province>,
    municipalities: string -> seq<Municipality>,
    baranggays: (string, string) -> seq<Baranggay>)

  /** Every province as an option: value its id, caption its name, in table
      order. */
  function ProvinceOptions(g: Gazetteer): (opts: seq<SelectOption<string>>)
    ensures |opts| == |g.provinces|
    ensures forall i :: 0 <= i < |opts| ==> opts[i] == SelectOption(g.provinces[i].provinceId, g.provinces[i].name)
  {
    var ps := g.provinces;
    seq(|ps|, i requires 0 <= i < |ps| => SelectOption(ps[i].provinceId, ps[i].name))
  }

  /** The municipalities of a province as options: value the municipality
      id, caption its name, in lookup order. */
  function MunicipalityOptions(g: Gazetteer, provinceId: string): (opts: seq<SelectOption<string>>)
    ensures |opts| == |g.municipalities(provinceId)|
    ensures forall i :: 0 <= i < |opts| ==>
      opts[i] == SelectOption(g.municipalities(provinceId)[i].municipalityId, g.municipalities(provinceId)[i].name)
  {
    var ms := g.municipalities(provinceId);
    seq(|ms|, i requires 0 <= i < |ms| => SelectOption(ms[i].municipalityId, ms[i].name))
  }

  /** The baranggays of a municipality of a province as options: value the
      baranggay id, caption its name, in lookup order. */
  function BaranggayOptions(g: Gazetteer, provinceId: string, municipalityId: string): (opts: seq<SelectOption<string>>)
    ensures |opts| == |g.baranggays(provinceId, municipalityId)|
    ensures forall i :: 0 <= i < |opts| ==>
      opts[i] == SelectOption(g.baranggays(provinceId, municipalityId)[i].baranggayId,
                              g.baranggays(provinceId, municipalityId)[i].name)
  {
    var bs := g.baranggays(provinceId, municipalityId);
    seq(|bs|, i requires 0 <= i < |bs| => SelectOption(bs[i].baranggayId, bs[i].name))
  }

  /** The address of a stored record (`stateOrProvince`, `cityOrTown`,
      `baranggay`); each level may be missing. */
  datatype StoredAddress = StoredAddress(province: Option<Province>, municipality: Option<Municipality>, baranggay: Option<Baranggay>)

  /** A stored address whose municipality lies in its province. */
  predicate Nested(a: StoredAddress) {
    a.province.Some? && a.municipality.Some? ==> a.municipality.value.provinceId == a.province.value.provinceId
  }

  /** `_.get(selection, 'value', '')`: what a submit sends for a select. */
  function SelectedValue(selection: Option<SelectOption<string>>): (v: string)
    ensures selection.Some? ==> v == selection.value.value
    ensures selection.None? ==> v == ""
  {
    match selection
    case Some(o) => o.value
    case None => ""
  }

  /** The three selects and their option lists. */
  class AddressSelector {
    const gazetteer: Gazetteer
    var provinceOptions: seq<SelectOption<string>>
    var province: Option<SelectOption<string>>
    var municipalityOptions: seq<SelectOption<string>>
    var municipality: Option<SelectOption<string>>
    var baranggayOptions: seq<SelectOption<string>>
    var baranggay: Option<SelectOption<string>>

    /** The options offered below a selection belong to it: the
        municipalities of the chosen province, and the baranggays of the
        chosen municipality of that province. */
    predicate Cascaded()
      reads this
    {
      (province.Some? ==> municipalityOptions == MunicipalityOptions(gazetteer, province.value.value))
      && (province.Some? && municipality.Some? ==>
            baranggayOptions == BaranggayOptions(gazetteer, province.value.value, municipality.value.value))
    }

    /** Nothing selected and no options. */
    constructor (g: Gazetteer)
      ensures gazetteer == g
      ensures provinceOptions == [] && municipalityOptions == [] && baranggayOptions == []
      ensures province.None? && municipality.None? && baranggay.None?
      ensures Cascaded()
    {
      gazetteer := g;
      provinceOptions := [];
      province := None;
      municipalityOptions := [];
      municipality := None;
      baranggayOptions := [];
      baranggay := None;
    }

    /** `setProvinceOptions(provinces.map(...))`. */
    method LoadProvinceOptions()
      modifies this`provinceOptions
      ensures provinceOptions == ProvinceOptions(gazetteer)
    {
      provinceOptions := ProvinceOptions(gazetteer);
    }

    /** `onProvinceChange`: the province is set, the municipality options
        become those of its id, and the municipality and baranggay are
        cleared whatever they were. */
    method OnProvinceChange(selected: SelectOption<string>)
      modifies this`province, this`municipalityOptions, this`municipality, this`baranggay
      ensures province == Some(selected)
      ensures municipalityOptions == MunicipalityOptions(gazetteer, selected.value)
      ensures municipality.None? && baranggay.None?
      ensures Cascaded()
    {
      province := Some(selected);
      municipalityOptions := MunicipalityOptions(gazetteer, selected.value);
      municipality := None;
      baranggay := None;
    }

    /** `onMunicipalityChange`: the municipality is set; the baranggay
        options become those of the current province's value and the chosen
        municipality's, and the baranggay is cleared. With no province
        chosen, reading its value throws right after the municipality is
        set, so nothing else changes. The province is never touched. */
    method OnMunicipalityChange(selected: SelectOption<string>)
      modifies this`municipality, this`baranggayOptions, this`baranggay
      ensures municipality == Some(selected)
      ensures province.Some? ==>
        baranggayOptions == BaranggayOptions(gazetteer, province.value.value, selected.value) && baranggay.None?
      ensures province.None? ==> baranggayOptions == old(baranggayOptions) && baranggay == old(baranggay)
      ensures old(Cascaded()) ==> Cascaded()
    {
      municipality := Some(selected);
      match province {
        case Some(p) =>
          baranggayOptions := BaranggayOptions(gazetteer, p.value, selected.value);
          baranggay := None;
        case None =>
      }
    }

    /** The baranggay select's setter: only the baranggay changes. */
    method OnBaranggayChange(selected: SelectOption<string>)
      modifies this`baranggay
      ensures baranggay == Some(selected)
      ensures old(Cascaded()) ==> Cascaded()
    {
      baranggay := Some(selected);
    }

    /** Hydration from a stored address: each stored level is selected
        without clearing the levels below it, the municipality options come
        from the stored province's id and the baranggay options from the
        stored municipality's own province and municipality ids. A missing
        level leaves its select and options as they were. */
    method Hydrate(stored: StoredAddress)
      modifies this`province, this`municipalityOptions, this`municipality, this`baranggayOptions, this`baranggay
      ensures stored.province.Some? ==>
        province == Some(SelectOption(stored.province.value.provinceId, stored.province.value.name))
        && municipalityOptions == MunicipalityOptions(gazetteer, stored.province.value.provinceId)
      ensures stored.province.None? ==> province == old(province) && municipalityOptions == old(municipalityOptions)
      ensures stored.municipality.Some? ==>
        municipality == Some(SelectOption(stored.municipality.value.municipalityId, stored.municipality.value.name))
        && baranggayOptions == BaranggayOptions(gazetteer, stored.municipality.value.provinceId, stored.municipality.value.municipalityId)
      ensures stored.municipality.None? ==> municipality == old(municipality) && baranggayOptions == old(baranggayOptions)
      ensures stored.baranggay.Some? ==>
        baranggay == Some(SelectOption(stored.baranggay.value.baranggayId, stored.baranggay.value.name))
      ensures stored.baranggay.None? ==> baranggay == old(baranggay)
      ensures old(province).None? && old(municipality).None? && Nested(stored) ==> Cascaded()
      ensures SelectedValue(province) == (if stored.province.Some? then stored.province.value.provinceId else SelectedValue(old(province)))
      ensures SelectedValue(municipality) == (if stored.municipality.Some? then stored.municipality.value.municipalityId else SelectedValue(old(municipality)))
    {
      match stored.province {
        case Some(p) =>
          province := Some(SelectOption(p.provinceId, p.name));
          municipalityOptions := MunicipalityOptions(gazetteer, p.provinceId);
        case None =>
      }
      match stored.municipality {
        case Some(m) =>
          municipality := Some(SelectOption(m.municipalityId, m.name));
          baranggayOptions := BaranggayOptions(gazetteer, m.provinceId, m.municipalityId);
        case None =>
      }
      match stored.baranggay {
        case Some(b) =>
          baranggay := Some(SelectOption(b.baranggayId, b.name));
        case None =>
      }
    }
  }
}

=== FILE: src/constants.dfy ===
/** The two static tables: the supported document file types and the
    service categories. */
module Constants {
  import opened Wrappers
  import opened Select

  datatype FileType = FileType(id: int, name: string, ext: string, mime: string)

  const FileTypes: seq<FileType> := [
    FileType(1, "Plain Text", ".txt", "text/plain"),
    FileType(2, "JSON", ".json", "application/json"),
    FileType(3, "XML", ".xml", "application/xml"),
    FileType(4, "PDF", ".pdf", "application/pdf"),
    FileType(5, "JPEG", ".jpeg", "image/jpeg"),
    FileType(6, "JPG", ".jpg", "image/jpeg"),
    FileType(7, "PNG", ".png", "image/png"),
    FileType(8, "GIF", ".gif", "image/gif"),
    FileType(9, "SVG", ".svg", "image/svg+xml"),
    FileType(10, "MP3", ".mp3", "audio/mpeg"),
    FileType(11, "WAV", ".wav", "audio/wav"),
    FileType(12, "MP4", ".mp4", "video/mp4"),
    FileType(13, "MOV", ".mov", "video/quicktime"),
    FileType(14, "Word", ".doc", "application/msword"),
    FileType(15, "Excel", ".xls", "application/vnd.ms-excel"),
    FileType(16, "ZIP", ".zip", "application/zip"),
    FileType(17, "Word (DOCX)", ".docx", "application/vnd.openxmlformats-officedocument.wordprocessingml.document"),
    FileType(18, "CSV", ".csv", "text/csv")
  ]

  /** The table has 18 entries; the entry at position i has id i + 1, and
      every extension starts with a dot. */
  lemma FileTypesShape()
    ensures |FileTypes| == 18
    ensures forall i :: 0 <= i < |FileTypes| ==> FileTypes[i].id == i + 1
    ensures forall i :: 0 <= i < |FileTypes| ==> |FileTypes[i].ext| > 1 && FileTypes[i].ext[0] == '.'
  {
  }

  /** `_.find(FileTypes, { id })`: the entry with that id, if any. */
  function FileTypeById(id: int): (r: Option<FileType>)
    ensures r.Some? <==> 1 <= id <= 18
    ensures r.Some? ==> r.value.id == id && r.value in FileTypes
  {
    FileTypesShape();
    if 1 <= id <= |FileTypes| then Some(FileTypes[id - 1]) else None
  }

  /** The file types as select options: value id, caption name, table order. */
  function FileTypeOptions(): (opts: seq<SelectOption<int>>)
    ensures |opts| == |FileTypes|
    ensures forall i :: 0 <= i < |opts| ==> opts[i] == SelectOption(FileTypes[i].id, FileTypes[i].name)
  {
    seq(|FileTypes|, i requires 0 <= i < |FileTypes| => SelectOption(FileTypes[i].id, FileTypes[i].name))
  }

  datatype ServiceCategory = ServiceCategory(id: int, name: string)

  /** `ServiceCategories` in declaration order (the order `_.keys` lists). */
  const ServiceCategories: seq<ServiceCategory> := [
    ServiceCategory(1, "Medical Consultations"),
    ServiceCategory(2, "Diagnostic Services"),
    ServiceCategory(3, "Preventive Health Services"),
    ServiceCategory(4, "Treatment Services"),
    ServiceCategory(5, "Mental Health Services")
  ]

  /** Five categories with ids 1 to 5 in order and pairwise distinct names. */
  lemma ServiceCategoriesShape()
    ensures |ServiceCategories| == 5
    ensures forall i :: 0 <= i < 5 ==> ServiceCategories[i].id == i + 1
    ensures forall i, j :: 0 <= i < j < 5 ==> ServiceCategories[i].name != ServiceCategories[j].name
  {
  }

  /** The categories as select options: value id, caption name. */
  function CategoryOptions(): (opts: seq<SelectOption<int>>)
    ensures |opts| == |ServiceCategories|
    ensures forall i :: 0 <= i < |opts| ==> opts[i] == SelectOption(ServiceCategories[i].id, ServiceCategories[i].name)
  {
    seq(|ServiceCategories|, i requires 0 <= i < |ServiceCategories| => SelectOption(ServiceCategories[i].id, ServiceCategories[i].name))
  }

  /** Option values are distinct, so a find by value returns the one option
      with that value: category i + 1 is found as the i-th option. */
  lemma CategoryLookupUnique(i: nat)
    requires i < 5
    ensures DistinctValues(CategoryOptions())
    ensures FindByValue(CategoryOptions(), i + 1) == Some(CategoryOptions()[i])
  {
    ServiceCategoriesShape();
    FindUnique(CategoryOptions(), i, i + 1);
  }

  /** Same for the file-type options. */
  lemma FileTypeOptionsDistinct()
    ensures DistinctValues(FileTypeOptions())
  {
    FileTypesShape();
  }
}

=== FILE: src/create_system_user.dfy ===
/** The create page's submit handler: the form's payload becomes multipart
    data with one indexed field per role, posted to `/user`. */
module CreateSystemUser {
  import opened Wrappers
  import opened Select
  import opened ErrorHandling
  import Http
  import Text
  import opened Forms
  import LegacySystemUserForm

  type Entry = (string, Http.FormValue)

  /** The key of role `i`: `roles[i][id]`. */
  function RoleKey(i: nat): string {
    "roles[" + Text.IntToString(i) + "][id]"
  }

  /** The role fields: role `i` sends its id under `roles[i][id]`, in role
      order. */
  function RoleEntries(roles: seq<SelectOption<int>>): (es: seq<Entry>)
    ensures |es| == |roles|
    ensures forall i :: 0 <= i < |es| ==> es[i] == (RoleKey(i), Http.TextValue(Text.IntToString(roles[i].value)))
  {
    if roles == [] then []
    else
      var n := |roles| - 1;
      RoleEntries(roles[..n]) + [(RoleKey(n), Http.TextValue(Text.IntToString(roles[n].value)))]
  }

  /** The five text fields, in the order they are appended. */
  function TextEntries(p: LegacySystemUserForm.UserPayload): (es: seq<Entry>)
    ensures |es| == 5
  {
    [("firstName", Http.TextValue(p.firstName)), ("lastName", Http.TextValue(p.lastName)),
     ("email", Http.TextValue(p.email)), ("password", Http.TextValue(p.password)),
     ("confirmPassword", Http.TextValue(p.confirmPassword))]
  }

  /** The create form: the texts, then the roles, then the photo, which is
      appended whatever it is. */
  function CreateForm(p: LegacySystemUserForm.UserPayload): (es: seq<Entry>)
    ensures |es| == |p.roles| + 6
    ensures es[..5] == TextEntries(p) && es[5..|es| - 1] == RoleEntries(p.roles)
    ensures es[|es| - 1] == ("profilePhoto", PhotoValue(p.profilePhoto))
  {
    var es := TextEntries(p) + RoleEntries(p.roles) + [("profilePhoto", PhotoValue(p.profilePhoto))];
    assert es[..5] == TextEntries(p);
    assert es[5..|es| - 1] == RoleEntries(p.roles);
    es
  }

  /** Distinct positions have distinct role keys. */
  lemma RoleKeysDistinct(i: nat, j: nat)
    requires RoleKey(i) == RoleKey(j)
    ensures i == j
  {
    var a := Text.IntToString(i);
    var b := Text.IntToString(j);
    assert |a| == |b|;
    assert a == RoleKey(i)[6..6 + |a|];
    assert b == RoleKey(j)[6..6 + |b|];
    Text.IntToStringInjective(i, j);
  }

  /** No role key is one of the text keys or the photo key. */
  lemma RoleKeyIsNotPlain(i: nat)
    ensures RoleKey(i)[0] == 'r'
    ensures RoleKey(i) != "firstName" && RoleKey(i) != "lastName" && RoleKey(i) != "email"
    ensures RoleKey(i) != "password" && RoleKey(i) != "confirmPassword" && RoleKey(i) != "profilePhoto"
  {
    assert RoleKey(i)[0] == 'r';
  }

  /** Reading the create form back by key gives each role's id and the
      photo: every such key is carried by exactly the field meant. */
  lemma CreateFormReadBack(p: LegacySystemUserForm.UserPayload, i: nat)
    requires i < |p.roles|
    ensures Http.FormGet(CreateForm(p), RoleKey(i)) == Some(Http.TextValue(Text.IntToString(p.roles[i].value)))
    ensures Http.FormGet(CreateForm(p), "profilePhoto") == Some(PhotoValue(p.profilePhoto))
  {
    var ts := TextEntries(p);
    var rs := RoleEntries(p.roles);
    var ph: Entry := ("profilePhoto", PhotoValue(p.profilePhoto));
    assert CreateForm(p) == (ts + rs) + [ph];
    RoleReadBack(p.roles, i);
    NotAmongTexts(p, RoleKey(i));
    Http.FormGetAppend(ts, rs, RoleKey(i));
    Http.FormGetAppend(ts + rs, [ph], RoleKey(i));
    NotAmongTexts(p, "profilePhoto");
    NotAmongRoles(p.roles, "profilePhoto");
    Http.FormGetAppend(ts, rs, "profilePhoto");
    Http.FormGetAppend(ts + rs, [ph], "profilePhoto");
  }

  /** Role `i`'s key reads back role `i`'s id from the role fields. */
  lemma RoleReadBack(roles: seq<SelectOption<int>>, i: nat)
    requires i < |roles|
    ensures Http.FormGet(RoleEntries(roles), RoleKey(i)) == Some(Http.TextValue(Text.IntToString(roles[i].value)))
  {
    var rs := RoleEntries(roles);
    forall j | 0 <= j < i
      ensures rs[j].0 != rs[i].0
    {
      if rs[j].0 == rs[i].0 {
        RoleKeysDistinct(j, i);
      }
    }
    Http.FormGetAt(rs, i);
  }

  /** A key that is not one of the five text keys is absent from the text
      fields. */
  lemma NotAmongTexts(p: LegacySystemUserForm.UserPayload, key: string)
    requires key == "profilePhoto" || (|key| > 0 && key[0] == 'r')
    ensures Http.FormGet(TextEntries(p), key) == None
  {
    var ts := TextEntries(p);
    forall e | e in ts
      ensures e.0 != key
    {
      assert e.0 == "firstName" || e.0 == "lastName" || e.0 == "email" || e.0 == "password" || e.0 == "confirmPassword";
      assert e.0[0] != 'r';
    }
  }

  /** The photo key is absent from the role fields. */
  lemma NotAmongRoles(roles: seq<SelectOption<int>>, key: string)
    requires |key| > 0 && key[0] != 'r'
    ensures Http.FormGet(RoleEntries(roles), key) == None
  {
    var rs := RoleEntries(roles);
    forall e | e in rs
      ensures e.0 != key
    {
      var j :| 0 <= j < |rs| && rs[j] == e;
      RoleKeyIsNotPlain(j);
    }
  }

  /** `handleCreateUser`: the texts, then a loop appending role `i` for
      `i` from 0, then the photo; `POST /user`. A reply with status false
      throws an ordinary error; a failed request throws its own error. */
  method HandleCreateUser(p: LegacySystemUserForm.UserPayload, reply: Result<StatusReply, HttpError>)
    returns (request: Http.Request, thrown: Option<HttpError>)
    ensures request == Http.Request(Http.POST, "/user", Http.Multipart(CreateForm(p)))
    ensures thrown.None? <==> reply.Success? && reply.value.status
    ensures reply.Success? && !reply.value.status ==> thrown == Some(NonAxiosError)
    ensures reply.Failure? ==> thrown == Some(reply.error)
  {
    var entries := TextEntries(p);
    var i := 0;
    while i < |p.roles|
      invariant 0 <= i <= |p.roles|
      invariant entries == TextEntries(p) + RoleEntries(p.roles[..i])
    {
      assert p.roles[..i + 1][..i] == p.roles[..i];
      entries := entries + [(RoleKey(i), Http.TextValue(Text.IntToString(p.roles[i].value)))];
      i := i + 1;
    }
    assert p.roles[..i] == p.roles;
    entries := entries + [("profilePhoto", PhotoValue(p.profilePhoto))];
    request := Http.Request(Http.POST, "/user", Http.Multipart(entries));
    match reply {
      case Success(r) =>
        thrown := if r.status then None else Some(NonAxiosError);
      case Failure(e) =>
        thrown := Some(e);
    }
  }
}

=== FILE: src/demographics_form.dfy ===
/** The patient demographics form: labels derived from the mode, the seven
    values hydrated from the `patient` prop, six error slots filled by a 400
    reply, and a success callback that leads to the additional-data page. */
module DemographicsForm {
  import opened Wrappers
  import opened Select
  import opened ErrorHandling
  import Listing
  import Query
  import Text
  import opened Forms

  const UpdatedText := "Successfully updated patient's demographics data."
  const AdditionalDataPrefix := "/dashboard/patients/additional-data/"
  const CreateLink := "/dashboard/patients/demographics"
  const EditLinkPrefix := "/dashboard/patients/demographics/"

  /** The labels `formProperties` holds: no notice and no redirect. */
  datatype DemographicsLabels = DemographicsLabels(formLabel: string, buttonLabel: string, breadcrumb: Breadcrumb)

  /** `${patient?.id}`: the id, or `undefined` without a patient. */
  function OptionalIdText(id: Option<int>): (s: string)
    ensures id.Some? ==> s == Text.IntToString(id.value)
    ensures id.None? ==> s == "undefined"
  {
    match id
    case Some(i) => Text.IntToString(i)
    case None => "undefined"
  }

  const CreateLabels := DemographicsLabels("Create Patient Demographics", "Create", Breadcrumb("Create", CreateLink))

  function UpdateLabels(patientId: Option<int>): DemographicsLabels {
    DemographicsLabels("Update Patient Demographics", "Update",
      Breadcrumb("Update Demographics", EditLinkPrefix + OptionalIdText(patientId)))
  }

  /** `formProperties` as written: the create labels for every mode that
      is not create, and the update labels for create. */
  function LabelsAsWritten(mode: Mode, patientId: Option<int>): (l: DemographicsLabels)
    ensures mode == Edit ==> l.formLabel == "Create Patient Demographics" && l.buttonLabel == "Create"
    ensures mode == Create ==> l.formLabel == "Update Patient Demographics" && l.buttonLabel == "Update"
  {
    if mode != Create then CreateLabels else UpdateLabels(patientId)
  }

  /** `formProperties` as intended: create labels in create mode, update
      labels, with a breadcrumb to the patient's page, in edit mode. */
  function Labels(mode: Mode, patientId: Option<int>): (l: DemographicsLabels)
    ensures mode == Create ==>
      l.formLabel == "Create Patient Demographics" && l.buttonLabel == "Create" && l.breadcrumb.link == CreateLink
    ensures mode == Edit ==>
      l.formLabel == "Update Patient Demographics" && l.buttonLabel == "Update"
      && l.breadcrumb.link == EditLinkPrefix + OptionalIdText(patientId)
  {
    if mode == Create then CreateLabels else UpdateLabels(patientId)
  }

  function Other(mode: Mode): Mode {
    if mode == Create then Edit else Create
  }

  /** As written the labels of each mode are the intended labels of the
      other mode: an edit form offers to create, a create form to update. */
  lemma LabelsSwapped(mode: Mode, patientId: Option<int>)
    ensures LabelsAsWritten(mode, patientId) == Labels(Other(mode), patientId)
    ensures LabelsAsWritten(mode, patientId) != Labels(mode, patientId)
  {
    var a := LabelsAsWritten(mode, patientId);
    var b := Labels(mode, patientId);
    assert a.buttonLabel != b.buttonLabel by {
      assert "Create" != "Update";
    }
  }

  /** The `patient` prop: its id, the stored photo file name (`''` when
      none) and the six texts, each possibly missing. */
  datatype PatientRecord = PatientRecord(
    id: int, profilePhoto: string,
    firstName: Option<string>, middleName: Option<string>, lastName: Option<string>,
    birthDate: Option<string>, email: Option<string>, contactNo: Option<string>)

  const ValueKeys: set<string> := {"profilePhoto", "firstName", "middleName", "lastName", "birthDate", "email", "contactNo"}

  /** The keys a 400 reply fills: all values but the middle name. */
  const ErrorKeys: set<string> := {"profilePhoto", "firstName", "lastName", "birthDate", "email", "contactNo"}

  const InitialValues: FormValues := map[
    "profilePhoto" := Image(EmptyPhoto), "firstName" := Text(""), "middleName" := Text(""), "lastName" := Text(""),
    "birthDate" := Text(""), "email" := Text(""), "contactNo" := Text("")]

  /** The values a patient restores: the photo as a preview of the fetched
      file (`null` for an empty name), each text or `''`. */
  function Hydrated(values: FormValues, p: PatientRecord, photoUrl: string): (r: FormValues)
    ensures r.Keys == values.Keys + ValueKeys
    ensures r["profilePhoto"] == Image(StoredPhoto(p.profilePhoto, photoUrl, NullPhoto))
    ensures r["middleName"] == Text(OrEmpty(p.middleName))
    ensures forall k :: k in values && k !in ValueKeys ==> r[k] == values[k]
  {
    values["profilePhoto" := Image(StoredPhoto(p.profilePhoto, photoUrl, NullPhoto))]
      ["firstName" := Text(OrEmpty(p.firstName))]["middleName" := Text(OrEmpty(p.middleName))]
      ["lastName" := Text(OrEmpty(p.lastName))]["birthDate" := Text(OrEmpty(p.birthDate))]
      ["email" := Text(OrEmpty(p.email))]["contactNo" := Text(OrEmpty(p.contactNo))]
  }

  /** A hydrated form hands back every stored text, `''` for a missing
      one, and nothing outside its seven values. */
  lemma HydratedPayload(p: PatientRecord, photoUrl: string)
    ensures var r := Fields(Hydrated(InitialValues, p, photoUrl), ValueKeys);
      r.Keys == ValueKeys
      && TextOf(r, "firstName") == OrEmpty(p.firstName) && TextOf(r, "lastName") == OrEmpty(p.lastName)
      && TextOf(r, "middleName") == OrEmpty(p.middleName) && TextOf(r, "birthDate") == OrEmpty(p.birthDate)
      && TextOf(r, "email") == OrEmpty(p.email) && TextOf(r, "contactNo") == OrEmpty(p.contactNo)
  {
    var h := Hydrated(InitialValues, p, photoUrl);
    assert InitialValues.Keys == ValueKeys;
    assert h.Keys == ValueKeys;
  }

  class DemographicsFormState {
    const mode: Mode
    var patient: Option<PatientRecord>
    var formValues: FormValues
    var formErrors: map<string, ErrorSlot>
    var loading: bool
    var notices: seq<Listing.Notice>
    var navigations: seq<Query.Navigation>
    var submissions: seq<FormValues>

    constructor (mode: Mode)
      ensures this.mode == mode && patient.None?
      ensures formValues == InitialValues && formErrors == map[] && !loading
      ensures notices == [] && navigations == [] && submissions == []
    {
      this.mode := mode;
      patient := None;
      formValues := InitialValues;
      formErrors := map[];
      loading := false;
      notices := [];
      navigations := [];
      submissions := [];
    }

    /** The labels the form shows, as written: those intended for the
        other mode. */
    function Properties(): (l: DemographicsLabels)
      reads this
      ensures l == Labels(Other(mode), if patient.Some? then Some(patient.value.id) else None)
      ensures mode == Edit ==> l.buttonLabel == "Create"
    {
      var id := if patient.Some? then Some(patient.value.id) else None;
      LabelsSwapped(mode, id);
      LabelsAsWritten(mode, id)
    }

    /** The effect on a new `patient` prop: nothing without a patient,
        otherwise the seven values restored. */
    method SetUpDemographicsData(p: Option<PatientRecord>, photoUrl: string)
      modifies this`patient, this`formValues
      ensures patient == p
      ensures p.Some? ==> formValues == Hydrated(old(formValues), p.value, photoUrl)
      ensures p.None? ==> formValues == old(formValues)
    {
      patient := p;
      if p.Some? {
        formValues := Hydrated(formValues, p.value, photoUrl);
      }
    }

    /** `handleValueChange`: exactly one value replaced. */
    method HandleValueChange(field: string, value: FieldValue)
      modifies this`formValues
      ensures formValues == WithValue(old(formValues), field, value)
    {
      formValues := WithValue(formValues, field, value);
    }

    /** `resetErrors`, which no path of the form calls. */
    method ResetErrors()
      modifies this`formErrors
      ensures formErrors == map[]
    {
      formErrors := map[];
    }

    /** `_handleOnformSubmit`. `outcome` is what the owning page's handler
        did: call the success callback with a patient id (as printed), or
        resolve without calling it, or throw. The success callback shows the
        notice and leads to the patient's additional-data page; the errors
        are never cleared. A 400 reply replaces the errors with exactly the
        six keys; loading ends in every case. */
    method Submit(outcome: Result<Option<string>, HttpError>)
      modifies this`loading, this`submissions, this`formErrors, this`notices, this`navigations
      ensures submissions == old(submissions) + [Fields(formValues, ValueKeys)]
      ensures outcome.Success? ==> formErrors == old(formErrors)
      ensures outcome.Success? && outcome.value.Some? ==>
        notices == old(notices) + [Listing.SuccessNotice(UpdatedText)]
        && navigations == old(navigations) + [Query.PushPath(AdditionalDataPrefix + outcome.value.value)]
      ensures outcome.Success? && outcome.value.None? ==> notices == old(notices) && navigations == old(navigations)
      ensures outcome.Failure? ==>
        var o := HandleHttpRequestError(outcome.error, SubmitCallbacks);
        navigations == old(navigations) && notices == old(notices) + SubmitFailureNotices(outcome.error)
        && (o.BadRequestCallback? ==> formErrors == ErrorsFor(o.validationErrors, ErrorKeys))
        && (!o.BadRequestCallback? ==> formErrors == old(formErrors))
      ensures !loading
    {
      loading := true;
      submissions := submissions + [Fields(formValues, ValueKeys)];
      match outcome {
        case Success(called) =>
          if called.Some? {
            notices := notices + [Listing.SuccessNotice(UpdatedText)];
            navigations := navigations + [Query.PushPath(AdditionalDataPrefix + called.value)];
          }
        case Failure(e) =>
          match HandleHttpRequestError(e, SubmitCallbacks) {
            case BadRequestCallback(validationErrors, _) =>
              formErrors := ErrorsFor(validationErrors, ErrorKeys);
            case Toast(text) =>
              notices := notices + [Listing.ErrorNotice(text)];
            case _ =>
          }
      }
      loading := false;
    }
  }
}

=== FILE: src/document_types_form.dfy ===
/** The document-type create and edit form: every file type offered as an
    option, a stored list of file-type ids turned back into a selection, the
    payload with the selected ids, and errors merged into the record the
    form already holds. */
module DocumentTypesForm {
  import opened Wrappers
  import opened Select
  import opened ErrorHandling
  import Http
  import Listing
  import Query
  import Text
  import Constants
  import opened Forms

  const ListPath := "/dashboard/settings/document-types/list?page=1&limit=10"
  const CreatePath := "/dashboard/settings/document-types/create"
  const TypePathPrefix := "/dashboard/settings/document-types/"

  /** `formProperties`: create leads back to the list, edit to the
      document type's own page, which the edit breadcrumb also links. */
  function DocumentTypeFormProperties(mode: Mode, documentTypeId: Option<string>, name: string): (fp: FormProperties)
    ensures mode == Create ==>
      fp.successRedirect == ListPath && fp.breadcrumb.link == CreatePath && fp.successMessage == name + " is created!"
    ensures mode == Edit ==>
      fp.successRedirect == TypePathPrefix + IdText(documentTypeId) && fp.breadcrumb.link == fp.successRedirect
      && fp.successMessage == name + " is updated!"
  {
    match mode
    case Create =>
      FormProperties("Create Document Type", "Create", name + " is created!", ListPath, Breadcrumb("Create", CreatePath))
    case Edit =>
      FormProperties("Update Document Type", "Update", name + " is updated!", TypePathPrefix + IdText(documentTypeId),
        Breadcrumb("Update " + name, TypePathPrefix + IdText(documentTypeId)))
  }

  /** The options whose decimal id text is among the stored ids, in option
      order: `_.includes(ids, `${id}`)` compares strictly, so a stored
      number matches nothing. */
  function IdTextMatches(options: seq<SelectOption<int>>, stored: seq<Scalar>): (r: seq<SelectOption<int>>)
    ensures |r| <= |options|
    ensures forall o :: o in r <==> o in options && Str(Text.IntToString(o.value)) in stored
  {
    if options == [] then []
    else
      (if Str(Text.IntToString(options[0].value)) in stored then [options[0]] else [])
      + IdTextMatches(options[1..], stored)
  }

  /** Matching distributes over concatenation of the options: what the
      first part keeps comes first, in the first part's order. */
  lemma {:induction false} IdTextMatchesAppend(xs: seq<SelectOption<int>>, ys: seq<SelectOption<int>>, stored: seq<Scalar>)
    ensures IdTextMatches(xs + ys, stored) == IdTextMatches(xs, stored) + IdTextMatches(ys, stored)
    decreases |xs|
  {
    if xs != [] {
      var zs := xs + ys;
      assert zs[0] == xs[0] && zs[1..] == xs[1..] + ys;
      IdTextMatchesAppend(xs[1..], ys, stored);
    } else {
      assert xs + ys == ys;
    }
  }

  /** A single option is kept exactly when its id text is stored. With
      `IdTextMatchesAppend` this pins the result down as the options
      filtered in their own order. */
  lemma IdTextMatchesOne(o: SelectOption<int>, stored: seq<Scalar>)
    ensures Str(Text.IntToString(o.value)) in stored ==> IdTextMatches([o], stored) == [o]
    ensures Str(Text.IntToString(o.value)) !in stored ==> IdTextMatches([o], stored) == []
  {
    assert [o][1..] == [];
  }

  /** The selection a stored document type restores: the file types whose
      id, as text, is stored, as options in table order. */
  function HydratedFileTypes(stored: seq<Scalar>): (r: seq<SelectOption<int>>)
    ensures forall o :: o in r <==> o in Constants.FileTypeOptions() && Str(Text.IntToString(o.value)) in stored
  {
    IdTextMatches(Constants.FileTypeOptions(), stored)
  }

  /** Ids as the backend is expected to store them: as decimal texts. */
  function StoredTexts(ids: seq<int>): (s: seq<Scalar>)
    ensures |s| == |ids|
    ensures forall i :: 0 <= i < |ids| ==> s[i] == Str(Text.IntToString(ids[i]))
  {
    if ids == [] then [] else [Str(Text.IntToString(ids[0]))] + StoredTexts(ids[1..])
  }

  lemma StoredTextsMember(ids: seq<int>, v: int)
    ensures Str(Text.IntToString(v)) in StoredTexts(ids) <==> v in ids
  {
    var s := StoredTexts(ids);
    if Str(Text.IntToString(v)) in s {
      var i :| 0 <= i < |s| && s[i] == Str(Text.IntToString(v));
      Text.IntToStringInjective(v, ids[i]);
    }
    if v in ids {
      var i :| 0 <= i < |ids| && ids[i] == v;
      assert s[i] == Str(Text.IntToString(v));
    }
  }

  /** Matching on id texts agrees with keeping by value whenever the two
      admit the same options. */
  lemma {:induction false} IdTextMatchesAsKeep(options: seq<SelectOption<int>>, stored: seq<Scalar>, values: seq<int>)
    requires forall o :: o in options ==> (o.value in values <==> Str(Text.IntToString(o.value)) in stored)
    ensures IdTextMatches(options, stored) == KeepSelected(options, values)
  {
    if options != [] {
      assert options[0] in options;
      IdTextMatchesAsKeep(options[1..], stored, values);
    }
  }

  /** Ids stored as texts select exactly what keeping those ids selects. */
  lemma IdTextMatchesKeep(options: seq<SelectOption<int>>, ids: seq<int>)
    ensures IdTextMatches(options, StoredTexts(ids)) == KeepSelected(options, ids)
  {
    forall o | o in options
      ensures o.value in ids <==> Str(Text.IntToString(o.value)) in StoredTexts(ids)
    {
      StoredTextsMember(ids, o.value);
    }
    IdTextMatchesAsKeep(options, StoredTexts(ids), ids);
  }

  /** The restored selection does not depend on the order, or the
      repetitions, of the stored ids. */
  lemma {:induction false} HydrationIgnoresOrder(a: seq<Scalar>, b: seq<Scalar>)
    requires forall x :: x in a <==> x in b
    ensures HydratedFileTypes(a) == HydratedFileTypes(b)
  {
    var opts := Constants.FileTypeOptions();
    forall o | o in opts
      ensures o.value in Values(HydratedFileTypes(a)) <==> Str(Text.IntToString(o.value)) in b
    {
      HydratedValue(a, o);
    }
    IdTextMatchesAsKeep(opts, b, Values(HydratedFileTypes(a)));
    forall o | o in opts
      ensures o.value in Values(HydratedFileTypes(a)) <==> Str(Text.IntToString(o.value)) in a
    {
      HydratedValue(a, o);
    }
    IdTextMatchesAsKeep(opts, a, Values(HydratedFileTypes(a)));
  }

  /** A file-type option's id is among the values of a restored selection
      exactly when its id text is stored. */
  lemma HydratedValue(stored: seq<Scalar>, o: SelectOption<int>)
    requires o in Constants.FileTypeOptions()
    ensures o.value in Values(HydratedFileTypes(stored)) <==> Str(Text.IntToString(o.value)) in stored
  {
    var h := HydratedFileTypes(stored);
    var vs := Values(h);
    if o.value in vs {
      var k :| 0 <= k < |vs| && vs[k] == o.value;
      assert h[k] in h;
    }
    if Str(Text.IntToString(o.value)) in stored {
      assert o in h;
      var k :| 0 <= k < |h| && h[k] == o;
      assert vs[k] == o.value;
    }
  }

  /** A stored list of numbers restores no selection at all. */
  lemma {:induction false} NumericIdsHydrateNothing(options: seq<SelectOption<int>>, stored: seq<Scalar>)
    requires forall x :: x in stored ==> x.Number?
    ensures IdTextMatches(options, stored) == []
  {
    if options != [] {
      NumericIdsHydrateNothing(options[1..], stored);
    }
  }

  /** Submitting a selection of file types and restoring it from the ids
      stored as texts gives back the same file types. */
  lemma SubmitRoundTrip(selection: seq<SelectOption<int>>)
    requires forall o :: o in selection ==> o in Constants.FileTypeOptions()
    ensures forall o :: o in HydratedFileTypes(StoredTexts(Values(selection))) <==> o in selection
  {
    IdTextMatchesKeep(Constants.FileTypeOptions(), Values(selection));
    Constants.FileTypeOptionsDistinct();
    SelectionRoundTrip(Constants.FileTypeOptions(), selection);
  }

  /** A restored selection submitted unchanged and restored again is the
      same sequence. */
  lemma HydrationStable(stored: seq<Scalar>)
    ensures HydratedFileTypes(StoredTexts(Values(HydratedFileTypes(stored)))) == HydratedFileTypes(stored)
  {
    var opts := Constants.FileTypeOptions();
    var h := HydratedFileTypes(stored);
    IdTextMatchesKeep(opts, Values(h));
    forall o | o in opts
      ensures o.value in Values(h) <==> Str(Text.IntToString(o.value)) in stored
    {
      HydratedValue(stored, o);
    }
    IdTextMatchesAsKeep(opts, stored, Values(h));
  }

  /** The `documentType` of `GET /document-type/{id}`: the name, possibly
      missing, and the stored file-type ids (`[]` when missing). */
  datatype DocumentTypeRecord = DocumentTypeRecord(name: Option<string>, fileTypes: seq<Scalar>)

  /** What a submit hands over: the name and the selected file-type ids. */
  datatype DocumentTypePayload = DocumentTypePayload(name: string, fileTypes: seq<int>)

  /** The keys a 400 reply overwrites in `formErrors`. */
  const ErrorKeys: set<string> := {"name", "fileTypes"}

  const InitialValues: FormValues := map["name" := Text(""), "fileTypes" := Picks([])]

  /** The selected file types: the options held under `fileTypes`, none
      when it holds no selection. */
  function Selected(values: FormValues): (s: seq<SelectOption<int>>)
    ensures "fileTypes" in values && values["fileTypes"].Picks? ==> s == values["fileTypes"].options
    ensures !("fileTypes" in values && values["fileTypes"].Picks?) ==> s == []
  {
    if "fileTypes" in values && values["fileTypes"].Picks? then values["fileTypes"].options else []
  }

  /** The values a stored document type restores: the name (`''` when
      missing) and the selection `HydratedFileTypes`. Every other value is
      kept. */
  function WithDocumentType(values: FormValues, documentType: DocumentTypeRecord): (r: FormValues)
    ensures r.Keys == values.Keys + {"name", "fileTypes"}
    ensures TextOf(r, "name") == OrEmpty(documentType.name)
    ensures Selected(r) == HydratedFileTypes(documentType.fileTypes)
    ensures forall k :: k in values && k !in {"name", "fileTypes"} ==> r[k] == values[k]
  {
    values["name" := Text(OrEmpty(documentType.name))]["fileTypes" := Picks(HydratedFileTypes(documentType.fileTypes))]
  }

  class DocumentTypesFormState {
    const mode: Mode
    const documentTypeId: Option<string>
    var formValues: FormValues
    var formErrors: map<string, ErrorSlot>
    var optionFileTypes: seq<SelectOption<int>>
    var loading: bool
    var requests: seq<Http.Request>
    var notices: seq<Listing.Notice>
    var navigations: seq<Query.Navigation>
    var submissions: seq<DocumentTypePayload>

    constructor (mode: Mode, documentTypeId: Option<string>)
      ensures this.mode == mode && this.documentTypeId == documentTypeId
      ensures formValues == InitialValues && formErrors == map[] && optionFileTypes == [] && !loading
      ensures requests == [] && notices == [] && navigations == [] && submissions == []
    {
      this.mode := mode;
      this.documentTypeId := documentTypeId;
      formValues := InitialValues;
      formErrors := map[];
      optionFileTypes := [];
      loading := false;
      requests := [];
      notices := [];
      navigations := [];
      submissions := [];
    }

    /** `formProperties` on the current name (`''` when not text). */
    function Properties(): (fp: FormProperties)
      reads this
      ensures fp.successRedirect == (if mode == Create then ListPath else TypePathPrefix + IdText(documentTypeId))
      ensures fp.successMessage == TextOf(formValues, "name") + (if mode == Create then " is created!" else " is updated!")
    {
      DocumentTypeFormProperties(mode, documentTypeId, TextOf(formValues, "name"))
    }

    /** What a submit hands over: the name, and the ids of the selected
        file types in selection order. */
    function Payload(): (p: DocumentTypePayload)
      reads this
      ensures p.name == TextOf(formValues, "name")
      ensures |p.fileTypes| == |Selected(formValues)|
      ensures forall i :: 0 <= i < |p.fileTypes| ==> p.fileTypes[i] == Selected(formValues)[i].value
    {
      DocumentTypePayload(TextOf(formValues, "name"), Values(Selected(formValues)))
    }

    /** The document type is fetched only in edit mode, with a truthy id,
        once file-type options exist. */
    predicate ShouldFetchDocumentType()
      reads this
    {
      mode == Edit && IdTruthy(documentTypeId) && |optionFileTypes| > 0
    }

    /** `fetchSupportedFileTypes`: every file type as an option, in table
        order. */
    method FetchSupportedFileTypes()
      modifies this`optionFileTypes
      ensures optionFileTypes == Constants.FileTypeOptions()
    {
      optionFileTypes := Constants.FileTypeOptions();
    }

    /** `handleValueChange`: exactly one value replaced. */
    method HandleValueChange(field: string, value: FieldValue)
      modifies this`formValues
      ensures formValues == WithValue(old(formValues), field, value)
    {
      formValues := WithValue(formValues, field, value);
    }

    /** `fetchDocumentTypes`: a stored document type overwrites the name
        and the selection as `WithDocumentType` states. */
    method FetchDocumentType(reply: Result<Option<DocumentTypeRecord>, HttpError>)
      modifies this`requests, this`formValues
      ensures requests == old(requests) + [Http.Get(RecordUrl("/document-type/", documentTypeId))]
      ensures reply.Success? && reply.value.Some? ==> formValues == WithDocumentType(old(formValues), reply.value.value)
      ensures !(reply.Success? && reply.value.Some?) ==> formValues == old(formValues)
    {
      requests := requests + [Http.Get(RecordUrl("/document-type/", documentTypeId))];
      if reply.Success? && reply.value.Some? {
        formValues := WithDocumentType(formValues, reply.value.value);
      }
    }

    /** The effect on `mode`, `documentTypeId` and the options: loading
        while the document type is fetched when it should be; a failed fetch
        leaves the form loading. */
    method GetData(reply: Result<Option<DocumentTypeRecord>, HttpError>)
      modifies this`requests, this`formValues, this`loading
      ensures ShouldFetchDocumentType() ==>
        requests == old(requests) + [Http.Get(RecordUrl("/document-type/", documentTypeId))]
      ensures !ShouldFetchDocumentType() ==> requests == old(requests)
      ensures formValues ==
        if ShouldFetchDocumentType() && reply.Success? && reply.value.Some?
        then WithDocumentType(old(formValues), reply.value.value)
        else old(formValues)
      ensures loading <==> ShouldFetchDocumentType() && reply.Failure?
    {
      loading := true;
      if ShouldFetchDocumentType() {
        FetchDocumentType(reply);
        if reply.Failure? {
          return;
        }
      }
      loading := false;
    }

    /** `resetErrors`. */
    method ResetErrors()
      modifies this`formErrors
      ensures formErrors == map[]
    {
      formErrors := map[];
    }

    /** `_handleOnformSubmit`: the payload is handed over. When the handler
        resolves, the errors are emptied, the notice shown and the form
        leaves for its success redirect; when it throws, a 400 reply
        overwrites the name and file-type errors and keeps every other
        error, and a network failure or an unexpected status shows the
        handler's notice. */
    method Submit(thrown: Option<HttpError>)
      modifies this`submissions, this`formErrors, this`notices, this`navigations
      ensures submissions == old(submissions) + [Payload()]
      ensures thrown.None? ==>
        formErrors == map[]
        && notices == old(notices) + [Listing.SuccessNotice(Properties().successMessage)]
        && navigations == old(navigations) + [Query.PushPath(Properties().successRedirect)]
      ensures thrown.Some? ==>
        var o := HandleHttpRequestError(thrown.value, SubmitCallbacks);
        navigations == old(navigations) && notices == old(notices) + SubmitFailureNotices(thrown.value)
        && (o.BadRequestCallback? ==> formErrors == MergeErrors(old(formErrors), o.validationErrors, ErrorKeys))
        && (!o.BadRequestCallback? ==> formErrors == old(formErrors))
    {
      submissions := submissions + [Payload()];
      match thrown {
        case None =>
          ResetErrors();
          notices := notices + [Listing.SuccessNotice(Properties().successMessage)];
          navigations := navigations + [Query.PushPath(Properties().successRedirect)];
        case Some(e) =>
          match HandleHttpRequestError(e, SubmitCallbacks) {
            case BadRequestCallback(validationErrors, _) =>
              formErrors := MergeErrors(formErrors, validationErrors, ErrorKeys);
            case Toast(text) =>
              notices := notices + [Listing.ErrorNotice(text)];
            case _ =>
          }
      }
    }
  }
}

=== FILE: src/document_types_list.dfy ===
/** The document types list page: a name search, paging, delete and
    refetch, and a badge per file type of each row. */
module DocumentTypesList {
  import opened Wrappers
  import Text
  import Http
  import opened Query
  import opened ErrorHandling
  import Tables
  import Listing
  import Constants

  const Pathname := "/dashboard/settings/document-types/list"

  /** A listed document type: its id, name and file-type ids as the row
      reads them (converted with unary `+`). */
  datatype DocumentTypeRow = DocumentTypeRow(id: int, name: string, fileTypes: seq<string>)

  /** The file type an id text names, if any: `+id` is a finite number
      that is the id of a file type. */
  function NamedFileType(x: string): (r: Option<Constants.FileType>)
    ensures r.Some? <==> ParseNumber(x).Finite? && 1 <= ParseNumber(x).i <= 18
    ensures r.Some? ==> r.value in Constants.FileTypes && r.value.id == ParseNumber(x).i
  {
    match ParseNumber(x)
    case Finite(n) => Constants.FileTypeById(n)
    case NaN => None
  }

  /** The badges a row shows: for each file-type id, in order, the name of
      the file type with that number as id; ids naming none are skipped. */
  function Badges(fileTypes: seq<string>): (r: seq<string>)
    ensures |r| <= |fileTypes|
    ensures forall b :: b in r ==> exists t :: t in Constants.FileTypes && t.name == b
  {
    if fileTypes == [] then []
    else
      var last := fileTypes[|fileTypes| - 1];
      Badges(fileTypes[..|fileTypes| - 1]) +
        (if NamedFileType(last).Some? then [NamedFileType(last).value.name] else [])
  }

  /** The badges of two runs of ids are the badges of each, in order. */
  lemma {:induction false} BadgesAppend(xs: seq<string>, ys: seq<string>)
    ensures Badges(xs + ys) == Badges(xs) + Badges(ys)
    decreases |ys|
  {
    if ys == [] {
      assert xs + ys == xs;
    } else {
      var init := ys[..|ys| - 1];
      var last := ys[|ys| - 1];
      assert (xs + ys)[..|xs + ys| - 1] == xs + init;
      assert (xs + ys)[|xs + ys| - 1] == last;
      BadgesAppend(xs, init);
    }
  }

  /** The badge of a single id text. */
  lemma BadgeOfOne(x: string)
    ensures Badges([x]) == (if NamedFileType(x).Some? then [NamedFileType(x).value.name] else [])
  {
    assert [x][..0] == [];
  }

  /** The badges around one id: those before it, its own, those after. */
  lemma BadgesAround(xs: seq<string>, x: string, ys: seq<string>)
    ensures Badges(xs + [x] + ys) == Badges(xs) + Badges([x]) + Badges(ys)
  {
    BadgesAppend(xs + [x], ys);
    BadgesAppend(xs, [x]);
  }

  /** An id naming no file type renders nothing, wherever it stands. */
  lemma UnknownIdSkipped(xs: seq<string>, x: string, ys: seq<string>)
    requires NamedFileType(x).None?
    ensures Badges(xs + [x] + ys) == Badges(xs + ys)
  {
    assert Badges([x]) == [] by {
      BadgeOfOne(x);
    }
    BadgesAround(xs, x, ys);
    BadgesAppend(xs, ys);
  }

  /** An id naming a file type shows exactly that file type's name in its
      place. */
  lemma KnownIdShown(xs: seq<string>, x: string, ys: seq<string>)
    requires NamedFileType(x).Some?
    ensures Badges(xs + [x] + ys) == Badges(xs) + [NamedFileType(x).value.name] + Badges(ys)
  {
    BadgesAround(xs, x, ys);
    BadgeOfOne(x);
  }

  /** A row listing the ids of known file types, printed, shows exactly
      their names in the same order. */
  lemma {:induction false} BadgesOfIds(ids: seq<int>)
    requires forall i :: 0 <= i < |ids| ==> 1 <= ids[i] <= 18
    ensures Badges(IdTexts(ids)) == FileTypeNames(ids)
  {
    if ids != [] {
      var init := ids[..|ids| - 1];
      BadgesOfIds(init);
      assert IdTexts(ids)[..|ids| - 1] == IdTexts(init);
      ParsePrinted(ids[|ids| - 1]);
    }
  }

  /** The printed ids. */
  function IdTexts(ids: seq<int>): (r: seq<string>)
    ensures |r| == |ids|
    ensures forall i :: 0 <= i < |ids| ==> r[i] == Text.IntToString(ids[i])
  {
    if ids == [] then [] else IdTexts(ids[..|ids| - 1]) + [Text.IntToString(ids[|ids| - 1])]
  }

  /** The names of the file types with the given ids (all known). */
  function FileTypeNames(ids: seq<int>): (r: seq<string>)
    requires forall i :: 0 <= i < |ids| ==> 1 <= ids[i] <= 18
    ensures |r| == |ids|
  {
    if ids == [] then [] else FileTypeNames(ids[..|ids| - 1]) + [Constants.FileTypeById(ids[|ids| - 1]).value.name]
  }

  /** The URL of a document-type list request: page and limit, then the
      name when truthy. */
  function DocumentTypeListUrl(page: Num, limit: Num, name: QueryValue): string {
    Listing.ListUrl("document-type", Listing.ListParams(page, limit, [("name", name)], []))
  }

  /** The text the document-type list builder starts from. */
  function DocumentTypeListBase(page: Num, limit: Num): string {
    "/document-type?page=" + NumText(page) + "&limit=" + NumText(limit)
  }

  /** Building from that text gives the document-type list URL. */
  lemma DocumentTypeListBuilt(page: Num, limit: Num, fields: seq<Listing.SearchField>)
    ensures Listing.BuiltUrl(DocumentTypeListBase(page, limit), fields, [])
         == Listing.ListUrl("document-type", Listing.ListParams(page, limit, fields, []))
  {
    assert "/" + "document-type" + "?page=" == "/document-type?page=";
    assert DocumentTypeListBase(page, limit) == Listing.BaseText("document-type", page, limit);
    Listing.BuiltUrlIsListUrl("document-type", page, limit, fields, []);
  }

  /** The request URL the page builds: page and limit, then the name when
      truthy. */
  method BuildRequestUrl(page: Num, limit: Num, name: QueryValue) returns (requestUrl: string)
    ensures requestUrl == DocumentTypeListUrl(page, limit, name)
  {
    requestUrl := "/document-type?page=" + NumText(page) + "&limit=" + NumText(limit);
    assert requestUrl == DocumentTypeListBase(page, limit);
    requestUrl := Listing.AppendIfTruthy(requestUrl, "name", name);
    ghost var fields := [("name", name)];
    assert requestUrl == Listing.BuiltUrl(DocumentTypeListBase(page, limit), fields, []) by {
      assert fields[..0] == [];
      assert Listing.AppendFields(DocumentTypeListBase(page, limit), fields)
          == Listing.AppendField(Listing.AppendFields(DocumentTypeListBase(page, limit), []), fields[0]);
    }
    DocumentTypeListBuilt(page, limit, fields);
  }

  /** The query a search pushes, in both forms: page 1 and the name draft. */
  function SearchQuery(q: RouterQuery, name: QueryValue): (r: RouterQuery)
    ensures Get(r, "page") == Some(Single("1")) && Get(r, "name") == Some(name)
    ensures AgreeExcept(q, r, {"page", "name"})
  {
    SetKeys(q, map["page" := Single("1"), "name" := name])
  }

  class DocumentTypesListPage {
    var documentTypes: seq<DocumentTypeRow>
    var isLoading: bool
    var qName: QueryValue
    var pagination: Tables.Pagination
    var requests: seq<Http.Request>
    var navigations: seq<Navigation>
    var notices: seq<Listing.Notice>

    /** The initial state, read from the router query of the first render. */
    constructor (query: RouterQuery)
      ensures documentTypes == [] && isLoading
      ensures qName == Get(query, "name").GetOr(Single(""))
      ensures pagination == Listing.InitialPagination
      ensures requests == [] && navigations == [] && notices == []
    {
      documentTypes := [];
      isLoading := true;
      qName := Get(query, "name").GetOr(Single(""));
      pagination := Listing.InitialPagination;
      requests := [];
      navigations := [];
      notices := [];
    }

    /** `fetchDocumentTypes`: builds the URL, sends it and stores the
        reply; a failure is handed to the error handler. */
    method FetchDocumentTypes(page: Num, limit: Num, name: QueryValue,
                              reply: Result<Listing.ListReply<DocumentTypeRow>, HttpError>)
      modifies this`requests, this`notices, this`pagination, this`documentTypes
      ensures requests == old(requests) + [Http.Get(DocumentTypeListUrl(page, limit, name))]
      ensures reply.Success? ==>
        pagination == reply.value.pagination && documentTypes == reply.value.rows && notices == old(notices)
      ensures reply.Failure? ==>
        notices == old(notices) + Listing.FetchFailureNotices(reply.error)
        && pagination == old(pagination) && documentTypes == old(documentTypes)
    {
      var requestUrl := BuildRequestUrl(page, limit, name);
      requests := requests + [Http.Get(requestUrl)];
      match reply {
        case Success(data) =>
          pagination := data.pagination;
          documentTypes := data.rows;
        case Failure(e) =>
          notices := notices + Listing.FetchFailureNotices(e);
      }
    }

    /** The effect on a new router query: a truthy name becomes the draft;
        only when both page and limit are present is the list fetched and
        the loading flag cleared. There is no option gate. */
    method OnQueryChange(query: RouterQuery, reply: Result<Listing.ListReply<DocumentTypeRow>, HttpError>)
      modifies this`qName, this`requests, this`notices, this`pagination, this`documentTypes, this`isLoading
      ensures qName == (if Truthy(Get(query, "name")) then query["name"] else old(qName))
      ensures Truthy(Get(query, "page")) && Truthy(Get(query, "limit")) ==>
        requests == old(requests) + [Http.Get(DocumentTypeListUrl(ToNumber(query["page"]), ToNumber(query["limit"]),
          Listing.SearchArg(Get(query, "name"))))]
        && !isLoading
        && (reply.Success? ==> pagination == reply.value.pagination && documentTypes == reply.value.rows)
        && notices == old(notices) + (if reply.Failure? then Listing.FetchFailureNotices(reply.error) else [])
      ensures !(Truthy(Get(query, "page")) && Truthy(Get(query, "limit"))) ==>
        requests == old(requests) && isLoading == old(isLoading) && notices == old(notices)
        && pagination == old(pagination) && documentTypes == old(documentTypes)
    {
      var page := Get(query, "page");
      var limit := Get(query, "limit");
      if Truthy(Get(query, "name")) {
        qName := query["name"];
      }
      if Truthy(page) && Truthy(limit) {
        FetchDocumentTypes(ToNumber(page.value), ToNumber(limit.value), Listing.SearchArg(Get(query, "name")), reply);
        isLoading := false;
      }
    }

    /** `sendDeleteRequest`: deletes the document type; on success shows
        the notice (worded for services) and refetches with the current
        pagination and name draft; on failure shows the delete's failure
        notices.
        The document types and pagination become the refetch's when it succeeds,
        and are kept otherwise. */
    method SendDeleteRequest(documentTypeId: int, deleteReply: Result<bool, HttpError>,
                             refetchReply: Result<Listing.ListReply<DocumentTypeRow>, HttpError>)
      modifies this`requests, this`notices, this`pagination, this`documentTypes
      ensures deleteReply.Failure? ==>
        requests == old(requests) + [Http.Delete("/document-type/" + Text.IntToString(documentTypeId))]
        && notices == old(notices) + Listing.DeleteFailureNotices(deleteReply.error)
        && pagination == old(pagination) && documentTypes == old(documentTypes)
      ensures deleteReply.Success? ==>
        requests == old(requests) + [Http.Delete("/document-type/" + Text.IntToString(documentTypeId)),
          Http.Get(DocumentTypeListUrl(Finite(old(pagination).page), Finite(old(pagination).limit), qName))]
        && notices == old(notices) + [Listing.SuccessNotice("Service successfully deleted!")]
           + (if refetchReply.Failure? then Listing.FetchFailureNotices(refetchReply.error) else [])
      ensures deleteReply.Success? && refetchReply.Success? ==>
        pagination == refetchReply.value.pagination && documentTypes == refetchReply.value.rows
      ensures !(deleteReply.Success? && refetchReply.Success?) ==> pagination == old(pagination) && documentTypes == old(documentTypes)
    {
      requests := requests + [Http.Delete("/document-type/" + Text.IntToString(documentTypeId))];
      match deleteReply {
        case Success(_) =>
          notices := notices + [Listing.SuccessNotice("Service successfully deleted!")];
          FetchDocumentTypes(Finite(pagination.page), Finite(pagination.limit), qName, refetchReply);
        case Failure(e) =>
          notices := notices + Listing.DeleteFailureNotices(e);
      }
    }

    /** `goToPage`: pushes the current query with only the page replaced. */
    method GoToPage(query: RouterQuery, page: int)
      modifies this`navigations
      ensures navigations == old(navigations) + [Push(Pathname, GoToPageQuery(query, page))]
    {
      navigations := navigations + [Push(Pathname, GoToPageQuery(query, page))];
    }

    /** `handleOnSearch`: the encoded path, then the object form, both with
        page 1 and the name draft. */
    method HandleOnSearch(query: RouterQuery)
      modifies this`navigations
      ensures navigations == old(navigations) + [
        PushEncoded(Pathname, SearchQuery(query, qName)), Push(Pathname, SearchQuery(query, qName))]
    {
      var encoded := SetKeys(query, map["page" := Single("1"), "name" := qName]);
      navigations := navigations + [PushEncoded(Pathname, encoded)];
      navigations := navigations + [Push(Pathname, SetKeys(query, map["page" := Single("1"), "name" := qName]))];
    }

    /** `handleOnClearSearch`: empties the name draft and pushes page 1
        without `name`. */
    method HandleOnClearSearch(query: RouterQuery)
      modifies this`navigations, this`qName
      ensures qName == Single("")
      ensures navigations == old(navigations) + [Push(Pathname, ClearKeysQuery(query, {"name"}))]
    {
      qName := Single("");
      var cleared := query["page" := Single("1")] - {"name"};
      navigations := navigations + [Push(Pathname, cleared)];
    }
  }
}

=== FILE: src/error_handling.dfy ===
/** `handleHttpRequestError`: the one place every page turns a failed
    request into a notice or a call of one of its callbacks. */
module ErrorHandling {
  import opened Wrappers

  const NetworkErrorCode: string := "ERR_NETWORK"
  const BadRequest: int := 400
  const Unauthorized: int := 401

  const DisconnectedText: string := "It seems you are disconnected."
  const SomethingWentWrongText: string := "Oops! Something went wrong."

  /** The body of an error reply: field-by-field validation messages and a
      message, either of which may be missing. */
  datatype ErrorBody = ErrorBody(validationErrors: Option<map<string, string>>, message: Option<string>)

  /** An HTTP reply; `data` is missing when the reply had no body. */
  datatype Response = Response(status: int, data: Option<ErrorBody>)

  /** What a request can throw: something that is not an HTTP client error,
      or an HTTP client error with its code and, when the server answered,
      the reply. */
  datatype HttpError =
    | NonAxiosError
    | AxiosError(code: string, response: Option<Response>)

  /** Which of the three optional callbacks the caller passed. */
  datatype Callbacks = Callbacks(nonAxios: bool, badRequest: bool, unauthorized: bool)

  const NoCallbacks := Callbacks(false, false, false)

  /** The one observable outcome of handling an error. */
  datatype Outcome =
    | Silent
    | Toast(text: string)
    | NonAxiosCallback
    | BadRequestCallback(validationErrors: Option<map<string, string>>, message: Option<string>)
    | UnauthorizedCallback
    | Throws

  /** The handler. A network failure is reported as a disconnection before
      anything else; a reply is dispatched on its status (400 to the
      bad-request callback, 401 to the unauthorised callback, any other
      status to the generic notice); an error without a reply and with
      another code is ignored; a non-HTTP error goes to its callback. A
      missing callback means nothing happens; a 400 reply without a body
      throws when there is a callback to hand its fields to. */
  function HandleHttpRequestError(error: HttpError, callbacks: Callbacks): (o: Outcome)
    ensures o == Toast(DisconnectedText) <==> error.AxiosError? && error.code == NetworkErrorCode
    ensures o == Toast(SomethingWentWrongText) <==>
      error.AxiosError? && error.code != NetworkErrorCode && error.response.Some?
      && error.response.value.status != BadRequest && error.response.value.status != Unauthorized
    ensures o.Toast? ==> o.text == DisconnectedText || o.text == SomethingWentWrongText
    ensures o.NonAxiosCallback? <==> error.NonAxiosError? && callbacks.nonAxios
    ensures o.BadRequestCallback? <==>
      error.AxiosError? && error.code != NetworkErrorCode && error.response.Some?
      && error.response.value.status == BadRequest && callbacks.badRequest
      && error.response.value.data.Some?
    ensures o.BadRequestCallback? ==>
      o.validationErrors == error.response.value.data.value.validationErrors
      && o.message == error.response.value.data.value.message
    ensures o.Throws? <==>
      error.AxiosError? && error.code != NetworkErrorCode && error.response.Some?
      && error.response.value.status == BadRequest && callbacks.badRequest
      && error.response.value.data.None?
    ensures o.UnauthorizedCallback? <==>
      error.AxiosError? && error.code != NetworkErrorCode && error.response.Some?
      && error.response.value.status == Unauthorized && callbacks.unauthorized
  {
    match error
    case NonAxiosError =>
      if callbacks.nonAxios then NonAxiosCallback else Silent
    case AxiosError(code, response) =>
      if code == NetworkErrorCode then Toast(DisconnectedText)
      else match response
        case None => Silent
        case Some(r) =>
          if r.status == BadRequest then
            if !callbacks.badRequest then Silent
            else match r.data
              case None => Throws
              case Some(body) => BadRequestCallback(body.validationErrors, body.message)
          else if r.status == Unauthorized then
            if callbacks.unauthorized then UnauthorizedCallback else Silent
          else Toast(SomethingWentWrongText)
  }

  /** A caller that passes no callback (every list page) only ever sees a
      notice or nothing: the handler never throws for it. */
  lemma WithoutCallbacksOnlyNotices(error: HttpError)
    ensures HandleHttpRequestError(error, NoCallbacks).Silent?
      || HandleHttpRequestError(error, NoCallbacks).Toast?
  {
  }

  /** The outcome of a network failure does not depend on the reply or the
      callbacks; the outcome of a non-HTTP error depends only on its
      callback. */
  lemma OutcomeIndependence(r1: Option<Response>, r2: Option<Response>, c1: Callbacks, c2: Callbacks)
    ensures HandleHttpRequestError(AxiosError(NetworkErrorCode, r1), c1)
         == HandleHttpRequestError(AxiosError(NetworkErrorCode, r2), c2)
    ensures c1.nonAxios == c2.nonAxios ==>
      HandleHttpRequestError(NonAxiosError, c1) == HandleHttpRequestError(NonAxiosError, c2)
  {
  }
}

=== FILE: src/forms.dfy ===
/** What the create and edit forms share: their mode, the labels and
    targets they derive from it, the photo slot, the record of form values
    a field change updates, and the mapping of a 400 reply's validation
    errors onto error slots. */
module Forms {
  import opened Wrappers
  import Http
  import opened Select
  import opened ErrorHandling
  import Listing
  import Query

  /** The `mode` prop. */
  datatype Mode = Create | Edit

  /** How a template literal prints an id prop that defaults to `null`. */
  function IdText(id: Option<string>): (s: string)
    ensures id.Some? ==> s == id.value
    ensures id.None? ==> s == "null"
  {
    match id
    case Some(t) => t
    case None => "null"
  }

  /** `_.get(record, key, '')` of a stored text field. */
  function OrEmpty(s: Option<string>): (t: string)
    ensures s.Some? ==> t == s.value
    ensures s.None? ==> t == ""
  {
    s.GetOr("")
  }

  /** Truthiness of an id prop taken from the route: set and non-empty. */
  predicate IdTruthy(id: Option<string>) {
    id.Some? && id.value != ""
  }

  /** `${prefix}${Number(id)}`: the record path a form fetches. */
  function RecordUrl(prefix: string, id: Option<string>): string {
    prefix + Query.NumText(Query.ParseNumber(IdText(id)))
  }

  datatype Breadcrumb = Breadcrumb(title: string, link: string)

  /** The labels, notice and redirect a form derives from its mode. */
  datatype FormProperties = FormProperties(
    formLabel: string, buttonLabel: string, successMessage: string, successRedirect: string, breadcrumb: Breadcrumb)

  /** A photo or logo slot: `null`, the empty string, a preview of the
      stored file (`{ preview }`), or a file chosen in the drop zone, which
      carries a `path`. */
  datatype Photo = NullPhoto | EmptyPhoto | Preview(url: string) | Upload(path: string)

  /** What `FormData.append(key, photo)` stores: a chosen file as a file,
      anything else as its string conversion. */
  function PhotoValue(p: Photo): (v: Http.FormValue)
    ensures v.FileValue? <==> p.Upload?
    ensures p.Upload? ==> v.file == p.path
    ensures p.NullPhoto? ==> v == Http.TextValue("null")
    ensures p.EmptyPhoto? ==> v == Http.TextValue("")
  {
    match p
    case NullPhoto => Http.TextValue("null")
    case EmptyPhoto => Http.TextValue("")
    case Preview(_) => Http.TextValue("[object Object]")
    case Upload(path) => Http.FileValue(path)
  }

  /** The photo a form hydrates from a stored file name: a preview of the
      fetched file when the name is non-empty, otherwise `otherwise`. */
  function StoredPhoto(raw: string, objectUrl: string, otherwise: Photo): (p: Photo)
    ensures p.Preview? <==> raw != "" || otherwise.Preview?
    ensures raw != "" ==> p == Preview(objectUrl)
    ensures raw == "" ==> p == otherwise
  {
    if raw != "" then Preview(objectUrl) else otherwise
  }

  /** A form value: text, a photo, the options of a multi-select, or the
      option of a single select (`undefined` when a lookup found none). */
  datatype FieldValue =
    | Text(text: string)
    | Image(photo: Photo)
    | Picks(options: seq<SelectOption<int>>)
    | Pick(option: Option<SelectOption<int>>)

  type FormValues = map<string, FieldValue>

  /** `{ ...values, [field]: value }`: the one field replaced, every other
      field kept, no field removed. */
  function WithValue(values: FormValues, field: string, value: FieldValue): (r: FormValues)
    ensures field in r && r[field] == value
    ensures r.Keys == values.Keys + {field}
    ensures forall k :: k in values && k != field ==> r[k] == values[k]
  {
    values[field := value]
  }

  /** A form value by key, `undefined` when missing. */
  function Lookup(values: FormValues, key: string): (v: Option<FieldValue>)
    ensures v.Some? <==> key in values
    ensures v.Some? ==> v.value == values[key]
  {
    if key in values then Some(values[key]) else None
  }

  /** A text field read with a `''` default: its text, or the empty text
      when the field is missing or holds no text. */
  function TextOf(values: FormValues, key: string): (s: string)
    ensures key in values && values[key].Text? ==> s == values[key].text
    ensures key !in values ==> s == ""
  {
    if key in values && values[key].Text? then values[key].text else ""
  }

  /** The value a submit passes for a select: `_.get(field, 'value', '')`,
      the option's value when an option is chosen, otherwise `''`. */
  function PickedValue(v: Option<FieldValue>): (s: Scalar)
    ensures s.Number? <==> v.Some? && v.value.Pick? && v.value.option.Some?
    ensures s.Number? ==> s.n == v.value.option.value.value
    ensures s.Str? ==> s.s == ""
  {
    match v
    case Some(Pick(Some(o))) => Number(o.value)
    case _ => Str("")
  }

  /** The named fields of a form, as a submit passes them on. */
  function Fields(values: FormValues, keys: set<string>): (r: FormValues)
    ensures r.Keys == keys * values.Keys
    ensures forall k :: k in r ==> r[k] == values[k]
  {
    map k | k in keys * values.Keys :: values[k]
  }

  /** An error slot: a message, `''` once cleared, `null` when the reply
      named none. */
  type ErrorSlot = Option<string>

  const Cleared: ErrorSlot := Some("")

  /** `_.get(validationErrors, key, null)`: the server's message for `key`,
      `null` when there is none or no map at all. */
  function ErrorFor(validationErrors: Option<map<string, string>>, key: string): (e: ErrorSlot)
    ensures e.Some? <==> validationErrors.Some? && key in validationErrors.value
    ensures e.Some? ==> e.value == validationErrors.value[key]
  {
    match validationErrors
    case Some(m) => if key in m then Some(m[key]) else None
    case None => None
  }

  /** A `formErrors` record replaced by one slot per key: exactly those
      keys, each the server's message or `null`. */
  function ErrorsFor(validationErrors: Option<map<string, string>>, keys: set<string>): (errors: map<string, ErrorSlot>)
    ensures errors.Keys == keys
    ensures forall k :: k in keys ==> errors[k] == ErrorFor(validationErrors, k)
  {
    map k | k in keys :: ErrorFor(validationErrors, k)
  }

  /** `{ ...formErrors, ...slots }`: the slots for `keys` overwritten, every
      other slot kept. */
  function MergeErrors(errors: map<string, ErrorSlot>, validationErrors: Option<map<string, string>>, keys: set<string>): (r: map<string, ErrorSlot>)
    ensures r.Keys == errors.Keys + keys
    ensures forall k :: k in keys ==> r[k] == ErrorFor(validationErrors, k)
    ensures forall k :: k in errors && k !in keys ==> r[k] == errors[k]
  {
    errors + ErrorsFor(validationErrors, keys)
  }

  /** The `status` and `message` of a submit's reply. */
  datatype StatusReply = StatusReply(status: bool, message: string)

  /** Every form's submit passes the error handler a bad-request callback
      and nothing else. */
  const SubmitCallbacks := Callbacks(false, true, false)

  /** The notices a failed submit shows through the handler: the handler's
      own notice for a network failure or an unexpected status, nothing
      otherwise. */
  function SubmitFailureNotices(e: HttpError): (ns: seq<Listing.Notice>)
    ensures e.AxiosError? && e.code == NetworkErrorCode ==> ns == [Listing.ErrorNotice(DisconnectedText)]
    ensures ns != [] <==> HandleHttpRequestError(e, SubmitCallbacks).Toast?
    ensures |ns| <= 1
  {
    var o := HandleHttpRequestError(e, SubmitCallbacks);
    if o.Toast? then [Listing.ErrorNotice(o.text)] else []
  }
}

=== FILE: src/http.dfy ===
/** The requests the console sends to its backend, and the query strings it
    writes into their URLs by string concatenation (`key=value` pairs joined
    by `&`, without percent-encoding). */
module Http {
  import opened Wrappers
  import Text

  type Param = (string, string)

  function ParamText(p: Param): string {
    p.0 + "=" + p.1
  }

  /** The pairs written one after another, separated by `&`. */
  function QueryString(ps: seq<Param>): string {
    if ps == [] then ""
    else if |ps| == 1 then ParamText(ps[0])
    else QueryString(ps[..|ps| - 1]) + "&" + ParamText(ps[|ps| - 1])
  }

  /** One `role=<value>` pair per role, in order. */
  function RolePairs(roles: seq<string>): (ps: seq<Param>)
    ensures |ps| == |roles|
    ensures forall i :: 0 <= i < |ps| ==> ps[i] == ("role", roles[i])
  {
    if roles == [] then [] else RolePairs(roles[..|roles| - 1]) + [("role", roles[|roles| - 1])]
  }

  /** `roles.map(f => 'role=' + f)`, the texts the pages join with `&`. */
  function RoleTexts(roles: seq<string>): (ts: seq<string>)
    ensures |ts| == |roles|
  {
    if roles == [] then [] else RoleTexts(roles[..|roles| - 1]) + ["role=" + roles[|roles| - 1]]
  }

  /** Appending one pair to a non-empty query string appends `&key=value`. */
  lemma QueryStringSnoc(ps: seq<Param>, p: Param)
    requires ps != []
    ensures QueryString(ps + [p]) == QueryString(ps) + "&" + ParamText(p)
  {
    assert (ps + [p])[..|ps|] == ps;
  }

  /** Appending the role pairs is appending `&` and the joined role texts,
      which is how the list pages build that part of the URL. */
  lemma {:induction false} QueryStringRoles(ps: seq<Param>, roles: seq<string>)
    requires ps != [] && roles != []
    ensures QueryString(ps + RolePairs(roles)) == QueryString(ps) + "&" + Text.Join(RoleTexts(roles), "&")
  {
    var n := |roles|;
    var init := roles[..n - 1];
    var r: Param := ("role", roles[n - 1]);
    assert RolePairs(roles) == RolePairs(init) + [r];
    assert RoleTexts(roles) == RoleTexts(init) + ["role=" + roles[n - 1]];
    if n == 1 {
      assert RolePairs(init) == [] && RoleTexts(init) == [];
      assert ps + RolePairs(roles) == ps + [r];
      QueryStringSnoc(ps, r);
    } else {
      var a := ps + RolePairs(init);
      QueryStringRoles(ps, init);
      assert ps + RolePairs(roles) == a + [r];
      QueryStringSnoc(a, r);
      Text.JoinSnoc(RoleTexts(init), "role=" + roles[n - 1], "&");
    }
  }

  /** The pieces of `s` between the occurrences of `c`, as `s.split(c)`. */
  function SplitOn(s: string, c: char): (parts: seq<string>)
    ensures |parts| >= 1
  {
    if s == [] then [""]
    else
      var init := SplitOn(s[..|s| - 1], c);
      if s[|s| - 1] == c then init + [""]
      else init[..|init| - 1] + [init[|init| - 1] + [s[|s| - 1]]]
  }

  /** Text without `c` is one piece. */
  lemma {:induction false} SplitWithout(t: string, c: char)
    requires c !in t
    ensures SplitOn(t, c) == [t]
  {
    if t != [] {
      SplitWithout(t[..|t| - 1], c);
      assert t[..|t| - 1] + [t[|t| - 1]] == t;
    }
  }

  /** A separator followed by text without it starts exactly one new piece. */
  lemma {:induction false} SplitAfterSeparator(s: string, c: char, t: string)
    requires c !in t
    ensures SplitOn(s + [c] + t, c) == SplitOn(s, c) + [t]
  {
    var u := s + [c] + t;
    if t == [] {
      assert u[..|u| - 1] == s;
      assert u[|u| - 1] == c;
    } else {
      var t' := t[..|t| - 1];
      var x := t[|t| - 1];
      assert x in t;
      assert u[..|u| - 1] == s + [c] + t';
      assert u[|u| - 1] == x;
      SplitAfterSeparator(s, c, t');
      var init := SplitOn(u[..|u| - 1], c);
      assert init == SplitOn(s, c) + [t'];
      assert SplitOn(u, c) == init[..|init| - 1] + [init[|init| - 1] + [x]];
      assert t' + [x] == t;
    }
  }

  /** A `key=value` text read back: the key runs up to the first `=`. */
  function ParseParam(s: string): Param {
    var i := Text.IndexOf(s, "=");
    if i < 0 then (s, "") else (s[..i], s[i + 1..])
  }

  function ParseAll(parts: seq<string>): (ps: seq<Param>)
    ensures |ps| == |parts|
  {
    if parts == [] then [] else ParseAll(parts[..|parts| - 1]) + [ParseParam(parts[|parts| - 1])]
  }

  /** The pairs a query string holds, read back. */
  function ParseQuery(s: string): seq<Param> {
    ParseAll(SplitOn(s, '&'))
  }

  function ParamTexts(ps: seq<Param>): (ts: seq<string>)
    ensures |ts| == |ps|
  {
    if ps == [] then [] else ParamTexts(ps[..|ps| - 1]) + [ParamText(ps[|ps| - 1])]
  }

  /** A pair survives the concatenation: its key has no `=` or `&` and its
      value has no `&`. */
  predicate Plain(p: Param) {
    '=' !in p.0 && '&' !in p.0 && '&' !in p.1
  }

  predicate AllPlain(ps: seq<Param>) {
    forall i :: 0 <= i < |ps| ==> Plain(ps[i])
  }

  lemma AllPlainInit(ps: seq<Param>)
    requires ps != [] && AllPlain(ps)
    ensures AllPlain(ps[..|ps| - 1])
  {
  }

  lemma ParamRoundTrip(p: Param)
    requires '=' !in p.0
    ensures ParseParam(ParamText(p)) == p
  {
    Text.IndexOfAfterPrefix(p.0, '=', p.1);
    var s := ParamText(p);
    assert s == p.0 + ['='] + p.1;
    assert s[..|p.0|] == p.0;
    assert s[|p.0| + 1..] == p.1;
  }

  /** The query string splits back into the texts of its pairs. */
  lemma {:induction false} SplitQueryString(ps: seq<Param>)
    requires ps != [] && AllPlain(ps)
    ensures SplitOn(QueryString(ps), '&') == ParamTexts(ps)
  {
    var n := |ps|;
    var last := ParamText(ps[n - 1]);
    assert Plain(ps[n - 1]);
    assert '&' !in last by {
      assert last == ps[n - 1].0 + "=" + ps[n - 1].1;
    }
    assert ParamTexts(ps) == ParamTexts(ps[..n - 1]) + [last];
    if n == 1 {
      SplitWithout(last, '&');
    } else {
      AllPlainInit(ps);
      SplitQueryString(ps[..n - 1]);
      SplitAfterSeparator(QueryString(ps[..n - 1]), '&', last);
      assert QueryString(ps) == QueryString(ps[..n - 1]) + ['&'] + last;
    }
  }

  lemma {:induction false} ParseAllTexts(ps: seq<Param>)
    requires AllPlain(ps)
    ensures ParseAll(ParamTexts(ps)) == ps
  {
    if ps != [] {
      var n := |ps|;
      assert Plain(ps[n - 1]);
      AllPlainInit(ps);
      ParseAllTexts(ps[..n - 1]);
      ParamRoundTrip(ps[n - 1]);
      var ts := ParamTexts(ps);
      assert ts[..n - 1] == ParamTexts(ps[..n - 1]);
      assert ps[..n - 1] + [ps[n - 1]] == ps;
    }
  }

  /** Round trip: whenever keys and values hold no `&` (and keys no `=`),
      reading the query string back gives exactly the pairs written. */
  lemma QueryRoundTrip(ps: seq<Param>)
    requires ps != [] && AllPlain(ps)
    ensures ParseQuery(QueryString(ps)) == ps
  {
    SplitQueryString(ps);
    ParseAllTexts(ps);
  }

  /** A value holding `&key2=value2` is read back as two pairs: nothing is
      percent-encoded, so such a value smuggles in a parameter. */
  lemma AmpersandSplitsValue(key: string, v1: string, key2: string, v2: string)
    requires Plain((key, v1)) && Plain((key2, v2))
    ensures ParseQuery(QueryString([(key, v1 + "&" + key2 + "=" + v2)])) == [(key, v1), (key2, v2)]
  {
    var ps := [(key, v1), (key2, v2)];
    assert ps[..1] == [(key, v1)];
    assert QueryString([(key, v1 + "&" + key2 + "=" + v2)]) == QueryString(ps);
    QueryRoundTrip(ps);
  }

  /** A value in a form body: text, or an uploaded file (`null` when no file
      was chosen, which the form data sends as the text "null"). */
  datatype FormValue = TextValue(text: string) | FileValue(file: string)

  /** A request body: none, multipart form data (ordered entries), or a JSON
      object of text fields. */
  datatype Body =
    | NoBody
    | Multipart(entries: seq<(string, FormValue)>)
    | Json(fields: seq<(string, string)>)

  /** `formData.get(key)`: the value of the first entry with that key. */
  function FormGet(entries: seq<(string, FormValue)>, key: string): (v: Option<FormValue>)
    ensures v.None? <==> forall e :: e in entries ==> e.0 != key
    ensures v.Some? ==> (key, v.value) in entries
  {
    if entries == [] then None
    else if entries[0].0 == key then Some(entries[0].1)
    else FormGet(entries[1..], key)
  }

  /** An entry whose key no earlier entry carries is what `get` reads. */
  lemma {:induction false} FormGetAt(entries: seq<(string, FormValue)>, i: nat)
    requires i < |entries|
    requires forall j :: 0 <= j < i ==> entries[j].0 != entries[i].0
    ensures FormGet(entries, entries[i].0) == Some(entries[i].1)
  {
    if i > 0 {
      assert entries[0].0 != entries[i].0;
      assert entries[1..][i - 1] == entries[i];
      FormGetAt(entries[1..], i - 1);
    }
  }

  /** `get` on two lists appended: the first list's value when it has the
      key, otherwise the second's. */
  lemma {:induction false} FormGetAppend(a: seq<(string, FormValue)>, b: seq<(string, FormValue)>, key: string)
    ensures FormGet(a + b, key) == (if FormGet(a, key).Some? then FormGet(a, key) else FormGet(b, key))
  {
    if a == [] {
      assert a + b == b;
    } else {
      assert (a + b)[0] == a[0];
      assert (a + b)[1..] == a[1..] + b;
      FormGetAppend(a[1..], b, key);
    }
  }

  datatype Verb = GET | POST | PATCH | DELETE

  /** A request as sent: verb, path relative to the API root, and body. */
  datatype Request = Request(verb: Verb, url: string, body: Body)

  function Get(url: string): Request {
    Request(GET, url, NoBody)
  }

  function Delete(url: string): Request {
    Request(DELETE, url, NoBody)
  }
}

=== FILE: src/legacy_document_types_form.dfy ===
/** The older document-type form: one state per value and per error, the
    stored document type fetched before the options are loaded, nothing
    rendered while loading or while an edit has no file types, and a
    `resetErrors` that clears the name error only. */
module LegacyDocumentTypesForm {
  import opened Wrappers
  import opened Select
  import opened ErrorHandling
  import Http
  import Listing
  import Query
  import Constants
  import opened Forms
  import DocumentTypesForm

  class LegacyDocumentTypesFormState {
    const mode: Mode
    const documentTypeId: Option<string>
    var name: string
    var nameError: ErrorSlot
    var optionFileTypes: seq<SelectOption<int>>
    var fileTypes: seq<SelectOption<int>>
    var fileTypesError: ErrorSlot
    var isLoading: bool
    var requests: seq<Http.Request>
    var notices: seq<Listing.Notice>
    var navigations: seq<Query.Navigation>
    var submissions: seq<DocumentTypesForm.DocumentTypePayload>

    /** An empty name and selection, a cleared name error, a `null`
        file-type error, loading. */
    constructor (mode: Mode, documentTypeId: Option<string>)
      ensures this.mode == mode && this.documentTypeId == documentTypeId
      ensures name == "" && nameError == Cleared && optionFileTypes == [] && fileTypes == []
      ensures fileTypesError.None? && isLoading
      ensures requests == [] && notices == [] && navigations == [] && submissions == []
    {
      this.mode := mode;
      this.documentTypeId := documentTypeId;
      name := "";
      nameError := Cleared;
      optionFileTypes := [];
      fileTypes := [];
      fileTypesError := None;
      isLoading := true;
      requests := [];
      notices := [];
      navigations := [];
      submissions := [];
    }

    /** `formProperties` on the name state, as in the newer form. */
    function Properties(): (fp: FormProperties)
      reads this
      ensures fp.successRedirect ==
        (if mode == Create then DocumentTypesForm.ListPath else DocumentTypesForm.TypePathPrefix + IdText(documentTypeId))
      ensures fp.successMessage == name + (if mode == Create then " is created!" else " is updated!")
    {
      DocumentTypesForm.DocumentTypeFormProperties(mode, documentTypeId, name)
    }

    /** What a submit hands over: the name and the selected ids, in
        selection order. */
    function Payload(): (p: DocumentTypesForm.DocumentTypePayload)
      reads this
      ensures p.name == name && |p.fileTypes| == |fileTypes|
      ensures forall i :: 0 <= i < |fileTypes| ==> p.fileTypes[i] == fileTypes[i].value
    {
      DocumentTypesForm.DocumentTypePayload(name, Values(fileTypes))
    }

    /** The form renders only when loaded, and an edit only once it has a
        selected file type. */
    predicate Renders()
      reads this
      ensures Renders() ==> !isLoading
      ensures mode == Edit && fileTypes == [] ==> !Renders()
    {
      !isLoading && !(mode == Edit && |fileTypes| == 0)
    }

    /** `fetchDocumentTypes`: a stored document type restores the name
        (`''` when missing) and the selection, from the table itself rather
        than from the options. */
    method FetchDocumentType(reply: Result<Option<DocumentTypesForm.DocumentTypeRecord>, HttpError>)
      modifies this`requests, this`name, this`fileTypes
      ensures requests == old(requests) + [Http.Get(RecordUrl("/document-type/", documentTypeId))]
      ensures reply.Success? && reply.value.Some? ==>
        name == OrEmpty(reply.value.value.name)
        && fileTypes == DocumentTypesForm.HydratedFileTypes(reply.value.value.fileTypes)
      ensures !(reply.Success? && reply.value.Some?) ==> name == old(name) && fileTypes == old(fileTypes)
    {
      requests := requests + [Http.Get(RecordUrl("/document-type/", documentTypeId))];
      if reply.Success? && reply.value.Some? {
        var documentType := reply.value.value;
        name := OrEmpty(documentType.name);
        fileTypes := DocumentTypesForm.HydratedFileTypes(documentType.fileTypes);
      }
    }

    /** One pass of the mount effect: in edit mode with a truthy id the
        document type is fetched first; then the options are loaded and
        loading stops. A failed fetch ends the pass. An edit whose stored
        ids restore no file type never renders. */
    method GetData(reply: Result<Option<DocumentTypesForm.DocumentTypeRecord>, HttpError>)
      modifies this`requests, this`name, this`fileTypes, this`optionFileTypes, this`isLoading
      ensures var fetched := mode == Edit && IdTruthy(documentTypeId);
        requests == old(requests) + (if fetched then [Http.Get(RecordUrl("/document-type/", documentTypeId))] else [])
        && (fetched && reply.Success? && reply.value.Some? ==>
              name == OrEmpty(reply.value.value.name)
              && fileTypes == DocumentTypesForm.HydratedFileTypes(reply.value.value.fileTypes))
        && (!(fetched && reply.Success? && reply.value.Some?) ==> name == old(name) && fileTypes == old(fileTypes))
        && (fetched && reply.Failure? ==> optionFileTypes == old(optionFileTypes) && isLoading == old(isLoading))
        && (!(fetched && reply.Failure?) ==> optionFileTypes == Constants.FileTypeOptions() && !isLoading)
      ensures (mode == Edit && IdTruthy(documentTypeId) && reply.Success? && reply.value.Some?
               && forall x :: x in reply.value.value.fileTypes ==> x.Number?)
        ==> !Renders()
    {
      if mode == Edit && IdTruthy(documentTypeId) {
        FetchDocumentType(reply);
        if reply.Success? && reply.value.Some? && forall x :: x in reply.value.value.fileTypes ==> x.Number? {
          DocumentTypesForm.NumericIdsHydrateNothing(Constants.FileTypeOptions(), reply.value.value.fileTypes);
        }
        if reply.Failure? {
          return;
        }
      }
      optionFileTypes := Constants.FileTypeOptions();
      isLoading := false;
    }

    /** `resetErrors`: the name error cleared, the file-type error kept. */
    method ResetErrors()
      modifies this`nameError
      ensures nameError == Cleared
    {
      nameError := Cleared;
    }

    /** `_handleOnformSubmit`: the payload is handed over. When the handler
        resolves, the name error is cleared (the file-type error of an
        earlier 400 stays), the notice shown and the form leaves for its
        success redirect; when it throws, a 400 reply sets both errors and
        a network failure or an unexpected status shows the handler's
        notice. */
    method Submit(thrown: Option<HttpError>)
      modifies this`submissions, this`nameError, this`fileTypesError, this`notices, this`navigations
      ensures submissions == old(submissions) + [Payload()]
      ensures thrown.None? ==>
        nameError == Cleared && fileTypesError == old(fileTypesError)
        && notices == old(notices) + [Listing.SuccessNotice(Properties().successMessage)]
        && navigations == old(navigations) + [Query.PushPath(Properties().successRedirect)]
      ensures thrown.Some? ==>
        var o := HandleHttpRequestError(thrown.value, SubmitCallbacks);
        navigations == old(navigations) && notices == old(notices) + SubmitFailureNotices(thrown.value)
        && (o.BadRequestCallback? ==>
              nameError == ErrorFor(o.validationErrors, "name") && fileTypesError == ErrorFor(o.validationErrors, "fileTypes"))
        && (!o.BadRequestCallback? ==> nameError == old(nameError) && fileTypesError == old(fileTypesError))
    {
      submissions := submissions + [Payload()];
      match thrown {
        case None =>
          ResetErrors();
          notices := notices + [Listing.SuccessNotice(Properties().successMessage)];
          navigations := navigations + [Query.PushPath(Properties().successRedirect)];
        case Some(e) =>
          match HandleHttpRequestError(e, SubmitCallbacks) {
            case BadRequestCallback(validationErrors, _) =>
              nameError := ErrorFor(validationErrors, "name");
              fileTypesError := ErrorFor(validationErrors, "fileTypes");
            case Toast(text) =>
              notices := notices + [Listing.ErrorNotice(text)];
            case _ =>
          }
      }
    }
  }
}

=== FILE: src/legacy_service_form.dfy ===
/** The older service form: one state per value and per error, the service
    fetched before the category options are loaded, and nothing rendered
    while loading or while an edit has no category. The five error states
    are kept together in one `ServiceErrors` record. */
module LegacyServiceForm {
  import opened Wrappers
  import opened Select
  import opened ErrorHandling
  import Http
  import Listing
  import Query
  import Constants
  import opened Forms
  import ServiceForm

  /** The five error states. */
  datatype ServiceErrors = ServiceErrors(
    logo: ErrorSlot, name: ErrorSlot, category: ErrorSlot, description: ErrorSlot, price: ErrorSlot)

  /** The errors at first: the category error starts `null`, the others
      empty. */
  const InitialErrors := ServiceErrors(Cleared, Cleared, None, Cleared, Cleared)

  /** The errors after `resetErrors`: all five empty. */
  const AllCleared := ServiceErrors(Cleared, Cleared, Cleared, Cleared, Cleared)

  /** The errors a 400 reply sets: each the server's message for its key or
      `null`. */
  function BadRequestErrors(validationErrors: Option<map<string, string>>): (e: ServiceErrors)
    ensures e.logo == ErrorFor(validationErrors, "logo")
    ensures e.name == ErrorFor(validationErrors, "name")
    ensures e.category == ErrorFor(validationErrors, "category")
    ensures e.description == ErrorFor(validationErrors, "description")
    ensures e.price == ErrorFor(validationErrors, "price")
  {
    ServiceErrors(ErrorFor(validationErrors, "logo"), ErrorFor(validationErrors, "name"),
      ErrorFor(validationErrors, "category"), ErrorFor(validationErrors, "description"),
      ErrorFor(validationErrors, "price"))
  }

  class LegacyServiceFormState {
    const mode: Mode
    const serviceId: Option<string>
    var logo: Photo
    var name: string
    var optionCategories: seq<SelectOption<int>>
    var category: Option<SelectOption<int>>
    var description: string
    var price: string
    var errors: ServiceErrors
    var isLoading: bool
    var requests: seq<Http.Request>
    var notices: seq<Listing.Notice>
    var navigations: seq<Query.Navigation>
    var submissions: seq<ServiceForm.ServicePayload>

    /** No logo, empty texts, no options, no category, loading. */
    constructor (mode: Mode, serviceId: Option<string>)
      ensures this.mode == mode && this.serviceId == serviceId
      ensures logo == NullPhoto && name == "" && description == "" && price == ""
      ensures optionCategories == [] && category.None?
      ensures errors == InitialErrors && isLoading
      ensures requests == [] && notices == [] && navigations == [] && submissions == []
    {
      this.mode := mode;
      this.serviceId := serviceId;
      logo := NullPhoto;
      name := "";
      optionCategories := [];
      category := None;
      description := "";
      price := "";
      errors := InitialErrors;
      isLoading := true;
      requests := [];
      notices := [];
      navigations := [];
      submissions := [];
    }

    /** `formProperties` on the name state, as in the newer form. */
    function Properties(): (fp: FormProperties)
      reads this
      ensures fp.successRedirect == ServiceForm.ListPath
      ensures fp.successMessage == name + (if mode == Create then " service is created!" else " service is updated!")
    {
      ServiceForm.ServiceFormProperties(mode, serviceId, name)
    }

    /** What a submit hands over: the chosen category's value or `''`. */
    function Payload(): (p: ServiceForm.ServicePayload)
      reads this
      ensures p.values.Keys == ServiceForm.PayloadKeys
      ensures p.category == (if category.Some? then Number(category.value.value) else Str(""))
    {
      ServiceForm.ServicePayload(
        map["logo" := Image(logo), "name" := Text(name), "description" := Text(description), "price" := Text(price)],
        PickedValue(Some(Pick(category))))
    }

    /** The form renders only when loaded, and an edit only once it has a
        category. */
    predicate Renders()
      reads this
      ensures Renders() ==> !isLoading
      ensures mode == Edit && category.None? ==> !Renders()
    {
      !isLoading && !(mode == Edit && category.None?)
    }

    /** `fetchServiceData`: a stored logo name gives a preview of the
        fetched file (an empty one keeps the logo); the name, price and
        description are restored (`''` when missing); the category is
        looked up among the options as they are at call time. */
    method FetchServiceData(reply: Result<Option<ServiceForm.ServiceRecord>, HttpError>, logoUrl: string)
      modifies this`requests, this`logo, this`name, this`category, this`price, this`description
      ensures requests == old(requests) + [Http.Get(RecordUrl("/service/", serviceId))]
      ensures reply.Success? && reply.value.Some? ==>
        var service := reply.value.value;
        logo == StoredPhoto(service.logo, logoUrl, old(logo))
        && name == OrEmpty(service.name) && price == OrEmpty(service.price) && description == OrEmpty(service.description)
        && category == ServiceForm.CategoryFor(optionCategories, service.category)
      ensures !(reply.Success? && reply.value.Some?) ==>
        logo == old(logo) && name == old(name) && category == old(category)
        && price == old(price) && description == old(description)
    {
      requests := requests + [Http.Get(RecordUrl("/service/", serviceId))];
      if reply.Success? && reply.value.Some? {
        var service := reply.value.value;
        logo := StoredPhoto(service.logo, logoUrl, logo);
        name := OrEmpty(service.name);
        category := ServiceForm.CategoryFor(optionCategories, service.category);
        price := OrEmpty(service.price);
        description := OrEmpty(service.description);
      }
    }

    /** One pass of the mount effect: in edit mode with a truthy
        `serviceId` the service is fetched first, with the options of the
        pass before; then the options are loaded and loading stops. A
        failed fetch ends the pass. On the first pass there are no options
        yet, so an edit finds no category and does not render; the pass
        that follows the end of loading finds it. */
    method GetData(reply: Result<Option<ServiceForm.ServiceRecord>, HttpError>, logoUrl: string)
      modifies this`requests, this`logo, this`name, this`category, this`price, this`description,
        this`optionCategories, this`isLoading
      ensures var fetched := mode == Edit && IdTruthy(serviceId);
        requests == old(requests) + (if fetched then [Http.Get(RecordUrl("/service/", serviceId))] else [])
        && (fetched && reply.Success? && reply.value.Some? ==>
              var service := reply.value.value;
              logo == StoredPhoto(service.logo, logoUrl, old(logo))
              && name == OrEmpty(service.name) && price == OrEmpty(service.price) && description == OrEmpty(service.description)
              && category == ServiceForm.CategoryFor(old(optionCategories), service.category))
        && (!(fetched && reply.Success? && reply.value.Some?) ==>
              logo == old(logo) && name == old(name) && category == old(category)
              && price == old(price) && description == old(description))
        && (fetched && reply.Failure? ==> optionCategories == old(optionCategories) && isLoading == old(isLoading))
        && (!(fetched && reply.Failure?) ==> optionCategories == Constants.CategoryOptions() && !isLoading)
      ensures old(optionCategories) == [] && mode == Edit ==> category.None? || category == old(category)
    {
      if mode == Edit && IdTruthy(serviceId) {
        FetchServiceData(reply, logoUrl);
        if reply.Failure? {
          return;
        }
      }
      optionCategories := Constants.CategoryOptions();
      isLoading := false;
    }

    /** `resetErrors`: all five errors emptied. */
    method ResetErrors()
      modifies this`errors
      ensures errors == AllCleared
    {
      errors := AllCleared;
    }

    /** `_handleOnformSubmit`: the payload is handed over. When the handler
        resolves, the errors are emptied, the notice shown and the form
        leaves for the list; when it throws, a 400 reply sets the five
        errors and a network failure or an unexpected status shows the
        handler's notice. */
    method Submit(thrown: Option<HttpError>)
      modifies this`submissions, this`errors, this`notices, this`navigations
      ensures submissions == old(submissions) + [Payload()]
      ensures thrown.None? ==>
        errors == AllCleared
        && notices == old(notices) + [Listing.SuccessNotice(Properties().successMessage)]
        && navigations == old(navigations) + [Query.PushPath(ServiceForm.ListPath)]
      ensures thrown.Some? ==>
        var o := HandleHttpRequestError(thrown.value, SubmitCallbacks);
        navigations == old(navigations) && notices == old(notices) + SubmitFailureNotices(thrown.value)
        && (o.BadRequestCallback? ==> errors == BadRequestErrors(o.validationErrors))
        && (!o.BadRequestCallback? ==> errors == old(errors))
    {
      submissions := submissions + [Payload()];
      match thrown {
        case None =>
          ResetErrors();
          notices := notices + [Listing.SuccessNotice(Properties().successMessage)];
          navigations := navigations + [Query.PushPath(Properties().successRedirect)];
        case Some(e) =>
          match HandleHttpRequestError(e, SubmitCallbacks) {
            case BadRequestCallback(validationErrors, _) =>
              errors := BadRequestErrors(validationErrors);
            case Toast(text) =>
              notices := notices + [Listing.ErrorNotice(text)];
            case _ =>
          }
      }
    }
  }
}

=== FILE: src/legacy_system_user_form.dfy ===
/** The older system-user form, used by the create page: one state per
    value and per error, roles loaded before the user, and a `resetErrors`
    that clears six of the seven errors. The seven error states are kept
    together in one `UserErrors` record. */
module LegacySystemUserForm {
  import opened Wrappers
  import opened Select
  import opened ErrorHandling
  import Http
  import Listing
  import Query
  import opened Forms
  import SystemUserForm

  /** The seven error states. */
  datatype UserErrors = UserErrors(
    profilePhoto: ErrorSlot, firstName: ErrorSlot, lastName: ErrorSlot, email: ErrorSlot,
    roles: ErrorSlot, password: ErrorSlot, confirmPassword: ErrorSlot)

  const AllCleared := UserErrors(Cleared, Cleared, Cleared, Cleared, Cleared, Cleared, Cleared)

  /** The errors a 400 reply sets: each the server's message for its key or
      `null`; the roles error is read from key `roles`. */
  function BadRequestErrors(validationErrors: Option<map<string, string>>): (e: UserErrors)
    ensures e.profilePhoto == ErrorFor(validationErrors, "profilePhoto")
    ensures e.firstName == ErrorFor(validationErrors, "firstName")
    ensures e.lastName == ErrorFor(validationErrors, "lastName")
    ensures e.email == ErrorFor(validationErrors, "email")
    ensures e.roles == ErrorFor(validationErrors, "roles")
    ensures e.password == ErrorFor(validationErrors, "password")
    ensures e.confirmPassword == ErrorFor(validationErrors, "confirmPassword")
  {
    UserErrors(ErrorFor(validationErrors, "profilePhoto"), ErrorFor(validationErrors, "firstName"),
      ErrorFor(validationErrors, "lastName"), ErrorFor(validationErrors, "email"),
      ErrorFor(validationErrors, "roles"), ErrorFor(validationErrors, "password"),
      ErrorFor(validationErrors, "confirmPassword"))
  }

  /** The errors after `resetErrors` as written: the sixth call clears the
      confirm-password value instead of its error, so that error stays. */
  function ClearedErrorsAsWritten(e: UserErrors): (r: UserErrors)
    ensures r.confirmPassword == e.confirmPassword
    ensures r.(confirmPassword := Cleared) == AllCleared
  {
    AllCleared.(confirmPassword := e.confirmPassword)
  }

  /** As written, a confirm-password error from a 400 reply survives the
      reset of a later successful submit. */
  lemma StaleConfirmPasswordError()
    ensures var e := BadRequestErrors(Some(map["confirmPassword" := "Passwords do not match."]));
      ClearedErrorsAsWritten(e).confirmPassword == Some("Passwords do not match.")
      && ClearedErrorsAsWritten(e) != AllCleared
  {
    var m := map["confirmPassword" := "Passwords do not match."];
    assert ErrorFor(Some(m), "confirmPassword") == Some("Passwords do not match.");
  }

  /** What the form hands to the create page's handler. */
  datatype UserPayload = UserPayload(
    firstName: string, lastName: string, email: string, password: string, confirmPassword: string,
    roles: seq<SelectOption<int>>, profilePhoto: Photo)

  class LegacySystemUserFormState {
    const mode: Mode
    const userId: Option<string>
    var optionRoles: seq<SelectOption<int>>
    var profilePhoto: Photo
    var firstName: string
    var lastName: string
    var email: string
    var roles: seq<SelectOption<int>>
    var password: string
    var confirmPassword: string
    var errors: UserErrors
    var isLoading: bool
    var requests: seq<Http.Request>
    var notices: seq<Listing.Notice>
    var navigations: seq<Query.Navigation>
    var submissions: seq<UserPayload>

    /** No photo, empty texts and roles, cleared errors, loading. */
    constructor (mode: Mode, userId: Option<string>)
      ensures this.mode == mode && this.userId == userId
      ensures optionRoles == [] && profilePhoto == NullPhoto && roles == []
      ensures firstName == "" && lastName == "" && email == "" && password == "" && confirmPassword == ""
      ensures errors == AllCleared && isLoading
      ensures requests == [] && notices == [] && navigations == [] && submissions == []
    {
      this.mode := mode;
      this.userId := userId;
      optionRoles := [];
      profilePhoto := NullPhoto;
      firstName := "";
      lastName := "";
      email := "";
      roles := [];
      password := "";
      confirmPassword := "";
      errors := AllCleared;
      isLoading := true;
      requests := [];
      notices := [];
      navigations := [];
      submissions := [];
    }

    /** `formProperties` as written: the edit breadcrumb links the literal
        `{$userId}` path, as in the newer form. */
    function Properties(): (fp: FormProperties)
      reads this
      ensures mode == Edit ==> fp.breadcrumb.link == SystemUserForm.LiteralUserLink
      ensures fp.successRedirect ==
        (if mode == Create then SystemUserForm.ListPath else SystemUserForm.UserPathPrefix + IdText(userId))
    {
      SystemUserForm.UserFormPropertiesAsWritten(mode, userId, firstName, lastName)
    }

    function Payload(): UserPayload
      reads this
    {
      UserPayload(firstName, lastName, email, password, confirmPassword, roles, profilePhoto)
    }

    /** `fetchUserData`: a stored photo name gives a preview of the fetched
        file, an empty one keeps the photo as it was; the texts (`''` when
        missing) and the roles, value the id, are restored. */
    method FetchUserData(reply: Result<Option<SystemUserForm.UserRecord>, HttpError>, photoUrl: string)
      modifies this`requests, this`profilePhoto, this`firstName, this`lastName, this`email, this`roles
      ensures requests == old(requests) + [Http.Get(RecordUrl("/user/", userId))]
      ensures reply.Success? && reply.value.Some? ==>
        var user := reply.value.value;
        profilePhoto == StoredPhoto(user.profilePhoto, photoUrl, old(profilePhoto))
        && firstName == OrEmpty(user.firstName) && lastName == OrEmpty(user.lastName) && email == OrEmpty(user.email)
        && roles == SystemUserForm.RoleChoices(user.roles)
      ensures !(reply.Success? && reply.value.Some?) ==>
        profilePhoto == old(profilePhoto) && firstName == old(firstName) && lastName == old(lastName)
        && email == old(email) && roles == old(roles)
    {
      requests := requests + [Http.Get(RecordUrl("/user/", userId))];
      if reply.Success? && reply.value.Some? {
        var user := reply.value.value;
        profilePhoto := StoredPhoto(user.profilePhoto, photoUrl, profilePhoto);
        firstName := OrEmpty(user.firstName);
        lastName := OrEmpty(user.lastName);
        email := OrEmpty(user.email);
        roles := SystemUserForm.RoleChoices(user.roles);
      }
    }

    /** The mount effect: the roles first, then, in edit mode with a truthy
        `userId`, the user; loading stops only when neither request failed. */
    method GetData(rolesReply: Result<seq<Listing.RoleRecord>, HttpError>,
                   userReply: Result<Option<SystemUserForm.UserRecord>, HttpError>, photoUrl: string)
      modifies this`requests, this`optionRoles, this`profilePhoto, this`firstName, this`lastName, this`email, this`roles, this`isLoading
      ensures var fetchUser := rolesReply.Success? && mode == Edit && IdTruthy(userId);
        requests == old(requests) + [Listing.RoleOptionsRequest]
          + (if fetchUser then [Http.Get(RecordUrl("/user/", userId))] else [])
        && (isLoading <==> old(isLoading) && (rolesReply.Failure? || (fetchUser && userReply.Failure?)))
        && (fetchUser && userReply.Success? && userReply.value.Some? ==>
              var user := userReply.value.value;
              profilePhoto == StoredPhoto(user.profilePhoto, photoUrl, old(profilePhoto))
              && firstName == OrEmpty(user.firstName) && lastName == OrEmpty(user.lastName) && email == OrEmpty(user.email)
              && roles == SystemUserForm.RoleChoices(user.roles))
        && (!(fetchUser && userReply.Success? && userReply.value.Some?) ==>
              profilePhoto == old(profilePhoto) && firstName == old(firstName) && lastName == old(lastName)
              && email == old(email) && roles == old(roles))
      ensures rolesReply.Success? ==> optionRoles == SystemUserForm.RoleChoices(rolesReply.value)
      ensures rolesReply.Failure? ==> optionRoles == old(optionRoles)
    {
      requests := requests + [Listing.RoleOptionsRequest];
      if rolesReply.Failure? {
        return;
      }
      optionRoles := SystemUserForm.RoleChoices(rolesReply.value);
      if mode == Edit && IdTruthy(userId) {
        FetchUserData(userReply, photoUrl);
        if userReply.Failure? {
          return;
        }
      }
      isLoading := false;
    }

    /** `resetErrors` as written: six errors cleared, the confirm-password
        value emptied, its error left as it was. */
    method ResetErrorsAsWritten()
      modifies this`errors, this`confirmPassword
      ensures errors == ClearedErrorsAsWritten(old(errors))
      ensures confirmPassword == ""
    {
      errors := ClearedErrorsAsWritten(errors);
      confirmPassword := "";
    }

    /** `resetErrors` as intended: all seven errors cleared, the values
        left alone. */
    method ResetErrors()
      modifies this`errors
      ensures errors == AllCleared
    {
      errors := AllCleared;
    }

    /** `_handleOnformSubmit`: the values are handed over. When the handler
        resolves, `resetErrors` runs as written (six errors cleared, the
        confirm-password value emptied and its error kept), the success
        notice is shown and the form leaves for its success redirect; when
        it throws, a 400 reply sets the seven errors and a network failure
        or an unexpected status shows the handler's notice. */
    method Submit(thrown: Option<HttpError>)
      modifies this`submissions, this`errors, this`confirmPassword, this`notices, this`navigations
      ensures submissions == old(submissions) + [old(Payload())]
      ensures thrown.None? ==>
        errors == ClearedErrorsAsWritten(old(errors)) && confirmPassword == ""
        && notices == old(notices) + [Listing.SuccessNotice(Properties().successMessage)]
        && navigations == old(navigations) + [Query.PushPath(Properties().successRedirect)]
      ensures thrown.Some? ==>
        var o := HandleHttpRequestError(thrown.value, SubmitCallbacks);
        navigations == old(navigations)
        && notices == old(notices) + SubmitFailureNotices(thrown.value)
        && (o.BadRequestCallback? ==> errors == BadRequestErrors(o.validationErrors))
        && (!o.BadRequestCallback? ==> errors == old(errors))
        && confirmPassword == old(confirmPassword)
    {
      submissions := submissions + [Payload()];
      match thrown {
        case None =>
          ResetErrorsAsWritten();
          notices := notices + [Listing.SuccessNotice(Properties().successMessage)];
          navigations := navigations + [Query.PushPath(Properties().successRedirect)];
        case Some(e) =>
          match HandleHttpRequestError(e, SubmitCallbacks) {
            case BadRequestCallback(validationErrors, _) =>
              errors := BadRequestErrors(validationErrors);
            case Toast(text) =>
              notices := notices + [Listing.ErrorNotice(text)];
            case _ =>
          }
      }
    }
  }
}

=== FILE: src/listing.dfy ===
/** What the five list pages (system users, patients, services, document
    types, roles) and the list services share: the request URL they build,
    the notices they show, and the rows and pagination a list reply
    carries. */
module Listing {
  import opened Wrappers
  import Text
  import Http
  import opened Query
  import opened ErrorHandling
  import Tables
  import opened Select

  /** A toast shown to the user. */
  datatype Notice = SuccessNotice(text: string) | ErrorNotice(text: string)

  /** A list reply: the pagination record and the rows of one page. */
  datatype ListReply<R> = ListReply(pagination: Tables.Pagination, rows: seq<R>)

  /** A row of a list whose contents the page only displays. */
  datatype Row = Row(id: int)

  /** A role as the role list returns it. */
  datatype RoleRecord = RoleRecord(id: int, key: string, name: string)

  /** The request the users and patients pages send for their role options. */
  const RoleOptionsRequest := Http.Get("/role?page=1&limit=1000")

  /** The role options of the users and patients pages: value the role's
      key, caption its name, in reply order. */
  function RoleOptions(roles: seq<RoleRecord>): (opts: seq<SelectOption<string>>)
    ensures |opts| == |roles|
    ensures forall i :: 0 <= i < |roles| ==> opts[i] == SelectOption(roles[i].key, roles[i].name)
  {
    if roles == [] then [] else [SelectOption(roles[0].key, roles[0].name)] + RoleOptions(roles[1..])
  }

  /** The value a fetch receives for a search key of the query: the value
      when it is truthy, otherwise the empty string. */
  function SearchArg(v: Option<QueryValue>): (r: QueryValue)
    ensures Truthy(Some(r)) <==> Truthy(v)
    ensures Truthy(v) ==> r == v.value
  {
    if Truthy(v) then v.value else Single("")
  }

  /** The pagination every list page starts with. */
  const InitialPagination := Tables.Pagination(1, 10, 0, 0)

  /** The notices of a failed list fetch, whose handler gets no callback. */
  function FetchFailureNotices(e: HttpError): (ns: seq<Notice>)
    ensures e.AxiosError? && e.code == NetworkErrorCode ==> ns == [ErrorNotice(DisconnectedText)]
    ensures ns != [] <==> HandleHttpRequestError(e, NoCallbacks).Toast?
    ensures |ns| <= 1
  {
    var o := HandleHttpRequestError(e, NoCallbacks);
    if o.Toast? then [ErrorNotice(o.text)] else []
  }

  /** The callbacks of a delete: only a bad-request callback, which shows
      the reply's message as an error notice. */
  const DeleteCallbacks := Callbacks(false, true, false)

  /** The notices of a failed delete: a network failure or an unexpected
      status shows the handler's notice, a 400 reply with a body shows its
      message (an absent message shows as empty text), anything else shows
      nothing. */
  function DeleteFailureNotices(e: HttpError): (ns: seq<Notice>)
    ensures e.AxiosError? && e.code == NetworkErrorCode ==> ns == [ErrorNotice(DisconnectedText)]
    ensures e.NonAxiosError? ==> ns == []
    ensures e.AxiosError? && e.code != NetworkErrorCode && e.response.Some? && e.response.value.status == BadRequest ==>
      ns == (if e.response.value.data.Some? then [ErrorNotice(e.response.value.data.value.message.GetOr(""))] else [])
    ensures e.AxiosError? && e.code != NetworkErrorCode && e.response.Some? && e.response.value.status == Unauthorized ==> ns == []
    ensures |ns| <= 1
  {
    match HandleHttpRequestError(e, DeleteCallbacks)
    case Toast(t) => [ErrorNotice(t)]
    case BadRequestCallback(_, message) => [ErrorNotice(message.GetOr(""))]
    case _ => []
  }

  /** A search field of a list request: its key and the value the page
      holds for it (a query value, or a string state as a single value). */
  type SearchField = (string, QueryValue)

  /** The search pairs a request carries: the truthy fields, in order, each
      printed as a template literal prints it. */
  function SearchPairs(fields: seq<SearchField>): (ps: seq<Http.Param>)
    ensures |ps| <= |fields|
  {
    if fields == [] then []
    else
      var f := fields[|fields| - 1];
      SearchPairs(fields[..|fields| - 1]) + (if Truthy(Some(f.1)) then [(f.0, AsText(f.1))] else [])
  }

  /** Every truthy field contributes its pair, and every pair comes from a
      truthy field. */
  lemma {:induction false} SearchPairsMembers(fields: seq<SearchField>)
    ensures forall i :: 0 <= i < |fields| && Truthy(Some(fields[i].1)) ==> (fields[i].0, AsText(fields[i].1)) in SearchPairs(fields)
    ensures forall p :: p in SearchPairs(fields) ==>
      exists i :: 0 <= i < |fields| && Truthy(Some(fields[i].1)) && p == (fields[i].0, AsText(fields[i].1))
  {
    if fields != [] {
      var init := fields[..|fields| - 1];
      SearchPairsMembers(init);
      assert forall i :: 0 <= i < |init| ==> init[i] == fields[i];
    }
  }

  /** The pairs of a list request: page and limit, the search pairs, then
      one `role` pair per filter value. */
  function ListParams(page: Num, limit: Num, search: seq<SearchField>, roles: seq<string>): (ps: seq<Http.Param>)
    ensures |ps| >= 2 && ps[0] == ("page", NumText(page)) && ps[1] == ("limit", NumText(limit))
  {
    [("page", NumText(page)), ("limit", NumText(limit))] + SearchPairs(search) + Http.RolePairs(roles)
  }

  /** The request URL `/<entity>?<pairs>`. */
  function ListUrl(entity: string, ps: seq<Http.Param>): string {
    "/" + entity + "?" + Http.QueryString(ps)
  }

  /** The text every builder starts from: `/<entity>?page=..&limit=..`. */
  function BaseText(entity: string, page: Num, limit: Num): string {
    "/" + entity + "?page=" + NumText(page) + "&limit=" + NumText(limit)
  }

  /** `if (value) url = `${url}&key=${value}``: one conditional append. */
  function AppendField(url: string, f: SearchField): string {
    if Truthy(Some(f.1)) then url + "&" + f.0 + "=" + AsText(f.1) else url
  }

  /** The conditional appends of the search fields, in order. */
  function AppendFields(url: string, fields: seq<SearchField>): string {
    if fields == [] then url else AppendField(AppendFields(url, fields[..|fields| - 1]), fields[|fields| - 1])
  }

  /** `if (roles.length) url = `${url}&${roles.map(f => 'role=' + f).join('&')}``. */
  function AppendRoles(url: string, roles: seq<string>): string {
    if |roles| > 0 then url + "&" + Text.Join(Http.RoleTexts(roles), "&") else url
  }

  /** The text a builder produces from its starting text, step by step. */
  function BuiltUrl(base: string, fields: seq<SearchField>, roles: seq<string>): string {
    AppendRoles(AppendFields(base, fields), roles)
  }

  /** The starting text is the URL of the page and limit pairs. */
  lemma BaseUrl(entity: string, page: Num, limit: Num)
    ensures BaseText(entity, page, limit) == ListUrl(entity, [("page", NumText(page)), ("limit", NumText(limit))])
  {
    var ps := [("page", NumText(page)), ("limit", NumText(limit))];
    assert ps[..1] == [("page", NumText(page))];
    assert Http.QueryString(ps) == Http.ParamText(ps[0]) + "&" + Http.ParamText(ps[1]);
    assert "/" + entity + "?" + ("page" + "=" + NumText(page) + "&" + ("limit" + "=" + NumText(limit)))
        == "/" + entity + "?page=" + NumText(page) + "&limit=" + NumText(limit);
  }

  /** Appending `&key=value` to a request URL appends one pair. */
  lemma AppendPair(entity: string, ps: seq<Http.Param>, key: string, value: string)
    requires ps != []
    ensures ListUrl(entity, ps) + "&" + key + "=" + value == ListUrl(entity, ps + [(key, value)])
  {
    Http.QueryStringSnoc(ps, (key, value));
  }

  /** The conditional appends add exactly the search pairs. */
  lemma {:induction false} AppendFieldsPairs(entity: string, ps: seq<Http.Param>, fields: seq<SearchField>)
    requires ps != []
    ensures AppendFields(ListUrl(entity, ps), fields) == ListUrl(entity, ps + SearchPairs(fields))
  {
    if fields != [] {
      var init := fields[..|fields| - 1];
      var f := fields[|fields| - 1];
      AppendFieldsPairs(entity, ps, init);
      var qs := ps + SearchPairs(init);
      if Truthy(Some(f.1)) {
        AppendPair(entity, qs, f.0, AsText(f.1));
        assert qs + [(f.0, AsText(f.1))] == ps + SearchPairs(fields);
      } else {
        assert qs == ps + SearchPairs(fields);
      }
    } else {
      assert ps + SearchPairs(fields) == ps;
    }
  }

  /** Appending the role texts adds exactly the role pairs. */
  lemma AppendRolesPairs(entity: string, ps: seq<Http.Param>, roles: seq<string>)
    requires ps != []
    ensures AppendRoles(ListUrl(entity, ps), roles) == ListUrl(entity, ps + Http.RolePairs(roles))
  {
    if |roles| > 0 {
      Http.QueryStringRoles(ps, roles);
    } else {
      assert ps + Http.RolePairs(roles) == ps;
    }
  }

  /** The step-by-step text of every builder is the URL of the request's
      pairs: page, limit, the truthy search fields in order, then the role
      pairs. */
  lemma BuiltUrlIsListUrl(entity: string, page: Num, limit: Num, fields: seq<SearchField>, roles: seq<string>)
    ensures BuiltUrl(BaseText(entity, page, limit), fields, roles) == ListUrl(entity, ListParams(page, limit, fields, roles))
  {
    var base := [("page", NumText(page)), ("limit", NumText(limit))];
    BaseUrl(entity, page, limit);
    AppendFieldsPairs(entity, base, fields);
    AppendRolesPairs(entity, base + SearchPairs(fields), roles);
  }

  /** The appends of three fields, one after the other. */
  lemma AppendThree(url: string, a: SearchField, b: SearchField, c: SearchField)
    ensures AppendFields(url, [a, b, c]) == AppendField(AppendField(AppendField(url, a), b), c)
  {
    assert [a, b, c][..2] == [a, b];
    assert [a, b][..1] == [a];
    assert [a][..0] == [];
    assert AppendFields(url, [a]) == AppendField(url, a);
    assert AppendFields(url, [a, b]) == AppendField(AppendFields(url, [a]), b);
  }

  /** The appends of two fields, one after the other. */
  lemma AppendTwo(url: string, a: SearchField, b: SearchField)
    ensures AppendFields(url, [a, b]) == AppendField(AppendField(url, a), b)
  {
    assert [a, b][..1] == [a];
    assert [a][..0] == [];
    assert AppendFields(url, [a]) == AppendField(url, a);
  }

  /** `if (value) url = `${url}&key=${value}``, as the builders write it. */
  method AppendIfTruthy(url: string, key: string, value: QueryValue) returns (next: string)
    ensures next == AppendField(url, (key, value))
  {
    next := url;
    if Truthy(Some(value)) {
      next := url + "&" + key + "=" + AsText(value);
    }
  }

  /** A printed number holds no `&`. */
  lemma NumTextPlain(n: Num)
    ensures '&' !in NumText(n)
  {
    if n.Finite? {
      var s := Text.IntToString(n.i);
      if n.i >= 0 {
        assert Text.AllDigits(s);
      } else {
        assert s == "-" + Text.NatToString(-n.i);
        assert Text.AllDigits(Text.NatToString(-n.i));
      }
    }
  }

  /** Read-back: when no search key holds `=` or `&` and no search value or
      role holds `&`, the backend splitting the URL's query string reads
      exactly the pairs the page meant, in order. With an `&` inside a value
      this fails (`Http.AmpersandSplitsValue`). */
  lemma ListUrlReadBack(page: Num, limit: Num, search: seq<SearchField>, roles: seq<string>)
    requires forall i :: 0 <= i < |search| ==> Http.Plain((search[i].0, AsText(search[i].1)))
    requires forall i :: 0 <= i < |roles| ==> '&' !in roles[i]
    ensures Http.ParseQuery(Http.QueryString(ListParams(page, limit, search, roles))) == ListParams(page, limit, search, roles)
  {
    var ps := ListParams(page, limit, search, roles);
    var sp := SearchPairs(search);
    var rp := Http.RolePairs(roles);
    NumTextPlain(page);
    NumTextPlain(limit);
    SearchPairsMembers(search);
    forall j | 0 <= j < |ps|
      ensures Http.Plain(ps[j])
    {
      if j >= 2 && j < 2 + |sp| {
        assert ps[j] == sp[j - 2];
        assert sp[j - 2] in sp;
      } else if j >= 2 + |sp| {
        assert ps[j] == rp[j - 2 - |sp|];
      }
    }
    Http.QueryRoundTrip(ps);
  }

  /** The role list a refetch after a delete passes on from the `filterRole`
      state: a missing state is the empty list and an array is itself, while
      a non-empty string throws (`.map` is called on it), which the fetch
      catches. Whenever it does not throw it agrees with the normaliser. */
  function RolesArgument(filterRole: Option<QueryValue>): (r: Option<seq<string>>)
    ensures r.None? <==> filterRole.Some? && filterRole.value.Single? && filterRole.value.text != ""
    ensures r.Some? && filterRole.Some? && filterRole.value.Multi? ==> r.value == filterRole.value.items
    ensures r.Some? && (filterRole.None? || filterRole.value.Single? || filterRole.value.items != []) ==>
      r.value == NormaliseList(filterRole)
  {
    match filterRole
    case None => Some([])
    case Some(Multi(xs)) => Some(xs)
    case Some(Single(s)) => if s == "" then Some([]) else None
  }

  /** The role selection the page derives from a `role` query value. */
  function SelectedRoles(options: seq<SelectOption<string>>, role: Option<QueryValue>): seq<SelectOption<string>> {
    KeepSelected(options, NormaliseList(role))
  }

  /** Filtering and reading back: the roles a filter writes into the query
      (with the router's reading of a repeated key) select exactly the
      options that were selected, when option values are distinct and
      non-empty. */
  lemma FilterRoundTrip(options: seq<SelectOption<string>>, selection: seq<SelectOption<string>>)
    requires DistinctValues(options)
    requires forall i :: 0 <= i < |options| ==> options[i].value != ""
    requires forall o :: o in selection ==> o in options
    ensures forall o :: o in SelectedRoles(options, ReadBack(Values(selection))) <==> o in selection
  {
    var vs := Values(selection);
    forall i | 0 <= i < |vs|
      ensures vs[i] != ""
    {
      assert selection[i] in options;
    }
    NormaliseReadBack(vs);
    SelectionRoundTrip(options, selection);
  }

  /** Selecting by the empty list selects nothing. */
  lemma KeepNothing(options: seq<SelectOption<string>>)
    ensures KeepSelected(options, []) == []
  {
  }
}

=== FILE: src/patient_service.dfy ===
/** `PatientService`: the patient-list request, the per-patient reads and
    the patient delete. */
module PatientService {
  import opened Wrappers
  import Text
  import Http
  import opened Query
  import Listing
  import opened ErrorHandling

  /** The search fields `getPatientList` accepts; each may be absent. */
  datatype PatientSearch = PatientSearch(firstName: Option<string>, lastName: Option<string>, controlNo: Option<string>)

  /** The URL of a patient-list request, shared by the service (which never
      passes roles) and by the patients page: page and limit, then first
      name, last name and control number when truthy, then the role pairs. */
  function PatientListUrl(page: Num, limit: Num, firstName: QueryValue, lastName: QueryValue, controlNo: QueryValue, roles: seq<string>): string {
    Listing.ListUrl("patient", Listing.ListParams(page, limit, [("firstName", firstName), ("lastName", lastName), ("controlNo", controlNo)], roles))
  }

  /** The text the patient-list builders start from. */
  function PatientListBase(page: Num, limit: Num): string {
    "/patient?page=" + NumText(page) + "&limit=" + NumText(limit)
  }

  /** Building from that text gives the patient-list URL. */
  lemma PatientListBuilt(page: Num, limit: Num, fields: seq<Listing.SearchField>, roles: seq<string>)
    ensures Listing.BuiltUrl(PatientListBase(page, limit), fields, roles)
         == Listing.ListUrl("patient", Listing.ListParams(page, limit, fields, roles))
  {
    assert "/" + "patient" + "?page=" == "/patient?page=";
    assert PatientListBase(page, limit) == Listing.BaseText("patient", page, limit);
    Listing.BuiltUrlIsListUrl("patient", page, limit, fields, roles);
  }

  /** `getPatientList`: when any search field is non-empty, appends the
      non-empty ones in order; absent fields count as empty. */
  method GetPatientList(page: Num, limit: Num, search: PatientSearch) returns (request: Http.Request)
    ensures request == Http.Get(PatientListUrl(page, limit,
      Single(search.firstName.GetOr("")), Single(search.lastName.GetOr("")), Single(search.controlNo.GetOr("")), []))
  {
    var firstName := search.firstName.GetOr("");
    var lastName := search.lastName.GetOr("");
    var controlNo := search.controlNo.GetOr("");
    var requestUrl := "/patient?page=" + NumText(page) + "&limit=" + NumText(limit);
    assert requestUrl == PatientListBase(page, limit);
    if firstName != "" || lastName != "" || controlNo != "" {
      requestUrl := Listing.AppendIfTruthy(requestUrl, "firstName", Single(firstName));
      requestUrl := Listing.AppendIfTruthy(requestUrl, "lastName", Single(lastName));
      requestUrl := Listing.AppendIfTruthy(requestUrl, "controlNo", Single(controlNo));
    }
    ghost var fields := [("firstName", Single(firstName)), ("lastName", Single(lastName)), ("controlNo", Single(controlNo))];
    assert requestUrl == Listing.BuiltUrl(PatientListBase(page, limit), fields, []) by {
      Listing.AppendThree(PatientListBase(page, limit), fields[0], fields[1], fields[2]);
    }
    PatientListBuilt(page, limit, fields, []);
    request := Http.Get(requestUrl);
  }

  /** The service never sends a filter: no pair of its request is a `role`
      pair. */
  lemma NoFilterPairs(page: Num, limit: Num, firstName: string, lastName: string, controlNo: string)
    ensures forall p :: (p in Listing.ListParams(page, limit,
      [("firstName", Single(firstName)), ("lastName", Single(lastName)), ("controlNo", Single(controlNo))], [])) ==> p.0 != "role"
  {
    var fields := [("firstName", Single(firstName)), ("lastName", Single(lastName)), ("controlNo", Single(controlNo))];
    Listing.SearchPairsMembers(fields);
    assert Http.RolePairs([]) == [];
  }

  /** The request that reads a patient's demographics. */
  function DemographicsRequest(patientId: int): Http.Request {
    Http.Get("/patient/" + Text.IntToString(patientId) + "/demographics")
  }

  /** The request that reads a patient's additional data. */
  function AdditionalDataRequest(patientId: int): Http.Request {
    Http.Get("/patient/" + Text.IntToString(patientId) + "/additional-data")
  }

  /** The two per-patient reads never coincide, and each determines the
      patient. */
  lemma PatientEndpointsDistinct(a: int, b: int)
    ensures DemographicsRequest(a) != AdditionalDataRequest(b)
    ensures DemographicsRequest(a) == DemographicsRequest(b) ==> a == b
    ensures AdditionalDataRequest(a) == AdditionalDataRequest(b) ==> a == b
  {
    var da := DemographicsRequest(a).url;
    var ab := AdditionalDataRequest(b).url;
    assert da[|da| - 1] == 's';
    assert ab[|ab| - 1] == 'a';
    if DemographicsRequest(a) == DemographicsRequest(b) {
      var db := DemographicsRequest(b).url;
      assert da[9..|da| - 13] == Text.IntToString(a);
      assert db[9..|db| - 13] == Text.IntToString(b);
      Text.IntToStringInjective(a, b);
    }
    if AdditionalDataRequest(a) == AdditionalDataRequest(b) {
      var aa := AdditionalDataRequest(a).url;
      assert aa[9..|aa| - 16] == Text.IntToString(a);
      assert ab[9..|ab| - 16] == Text.IntToString(b);
      Text.IntToStringInjective(a, b);
    }
  }

  /** `getDemographics` sends its read. */
  method GetDemographics(patientId: int) returns (request: Http.Request)
    ensures request == DemographicsRequest(patientId)
  {
    request := Http.Get("/patient/" + Text.IntToString(patientId) + "/demographics");
  }

  /** `getAdditionalData` sends its read. */
  method GetAdditionalData(patientId: int) returns (request: Http.Request)
    ensures request == AdditionalDataRequest(patientId)
  {
    request := Http.Get("/patient/" + Text.IntToString(patientId) + "/additional-data");
  }

  /** `deletePatient`: whatever status the backend reports, a delete that
      does not throw reports `true`; a failed request propagates. */
  method DeletePatient(patientId: int, reply: Result<bool, HttpError>) returns (request: Http.Request, status: Result<bool, HttpError>)
    ensures request == Http.Delete("/patient/" + Text.IntToString(patientId))
    ensures reply.Success? ==> status == Success(true)
    ensures reply.Failure? ==> status == Failure(reply.error)
  {
    request := Http.Delete("/patient/" + Text.IntToString(patientId));
    match reply {
      case Success(_) => status := Success(true);
      case Failure(e) => status := Failure(e);
    }
  }
}

=== FILE: src/patients_list.dfy ===
/** The patients list page: its state, the effect that reads the router
    query and fetches, the delete-and-refetch, and the query edits of
    paging, searching and filtering. Router navigations, requests and
    toasts are recorded in logs; network replies are parameters. */
module PatientsList {
  import opened Wrappers
  import Http
  import opened Query
  import opened Select
  import opened ErrorHandling
  import Tables
  import Listing
  import UserService
  import PatientService
  import Text

  const Pathname := "/dashboard/patients/list"

  /** The query a search pushes as an encoded path: page 1, the three
      search drafts and the selected role values; other keys kept. */
  function SearchEncodedQuery(q: RouterQuery, firstName: QueryValue, lastName: QueryValue, controlNo: QueryValue, roles: seq<string>): (r: RouterQuery)
    ensures Get(r, "page") == Some(Single("1")) && Get(r, "role") == Some(Multi(roles))
    ensures Get(r, "firstName") == Some(firstName) && Get(r, "lastName") == Some(lastName) && Get(r, "controlNo") == Some(controlNo)
    ensures AgreeExcept(q, r, {"page", "firstName", "lastName", "controlNo", "role"})
  {
    SetKeys(q, map["page" := Single("1"), "firstName" := firstName, "lastName" := lastName, "controlNo" := controlNo, "role" := Multi(roles)])
  }

  /** The query a search then pushes as an object: page 1 and the three
      search drafts; other keys kept. */
  function SearchQuery(q: RouterQuery, firstName: QueryValue, lastName: QueryValue, controlNo: QueryValue): (r: RouterQuery)
    ensures Get(r, "page") == Some(Single("1"))
    ensures Get(r, "firstName") == Some(firstName) && Get(r, "lastName") == Some(lastName) && Get(r, "controlNo") == Some(controlNo)
    ensures AgreeExcept(q, r, {"page", "firstName", "lastName", "controlNo"})
  {
    SetKeys(q, map["page" := Single("1"), "firstName" := firstName, "lastName" := lastName, "controlNo" := controlNo])
  }

  /** The request URL the page builds itself: page and limit, then,
      when any search value is truthy, each truthy one in order, then one
      `role` pair per filter role. */
  method BuildRequestUrl(page: Num, limit: Num, firstName: QueryValue, lastName: QueryValue, controlNo: QueryValue, roles: seq<string>)
    returns (requestUrl: string)
    ensures requestUrl == PatientService.PatientListUrl(page, limit, firstName, lastName, controlNo, roles)
  {
    requestUrl := "/patient?page=" + NumText(page) + "&limit=" + NumText(limit);
    assert requestUrl == PatientService.PatientListBase(page, limit);
    if Truthy(Some(firstName)) || Truthy(Some(lastName)) || Truthy(Some(controlNo)) {
      requestUrl := Listing.AppendIfTruthy(requestUrl, "firstName", firstName);
      requestUrl := Listing.AppendIfTruthy(requestUrl, "lastName", lastName);
      requestUrl := Listing.AppendIfTruthy(requestUrl, "controlNo", controlNo);
    }
    ghost var fields := [("firstName", firstName), ("lastName", lastName), ("controlNo", controlNo)];
    assert requestUrl == Listing.AppendFields(PatientService.PatientListBase(page, limit), fields) by {
      Listing.AppendThree(PatientService.PatientListBase(page, limit), fields[0], fields[1], fields[2]);
    }
    if |roles| > 0 {
      var filterRoleQueryParams := Text.Join(Http.RoleTexts(roles), "&");
      requestUrl := requestUrl + "&" + filterRoleQueryParams;
    }
    PatientService.PatientListBuilt(page, limit, fields, roles);
  }

  /** The list request the effect sends for a query holding a page and a
      limit: those two as numbers, the search keys as given (absent ones
      printing empty, hence dropped) and the normalised role list. */
  function QueryListRequest(query: RouterQuery): (r: Http.Request)
    requires Truthy(Get(query, "page")) && Truthy(Get(query, "limit"))
    ensures r.verb == Http.GET && r.body == Http.NoBody
  {
    Http.Get(PatientService.PatientListUrl(ToNumber(query["page"]), ToNumber(query["limit"]),
      Listing.SearchArg(Get(query, "firstName")), Listing.SearchArg(Get(query, "lastName")),
      Listing.SearchArg(Get(query, "controlNo")), NormaliseList(Get(query, "role"))))
  }

  class PatientsListPage {
    var patients: seq<Listing.Row>
    var loading: bool
    var qFirstName: QueryValue
    var qLastName: QueryValue
    var qControlNo: QueryValue
    var optionRoles: seq<SelectOption<string>>
    var filterRole: Option<QueryValue>
    var selectedRoles: seq<SelectOption<string>>
    var pagination: Tables.Pagination
    var requests: seq<Http.Request>
    var navigations: seq<Navigation>
    var notices: seq<Listing.Notice>

    /** The initial state, read from the router query of the first render. */
    constructor (query: RouterQuery)
      ensures patients == [] && loading
      ensures qFirstName == Get(query, "firstName").GetOr(Single(""))
      ensures qLastName == Get(query, "lastName").GetOr(Single(""))
      ensures qControlNo == Get(query, "controlNo").GetOr(Single(""))
      ensures optionRoles == [] && filterRole == Get(query, "role") && selectedRoles == []
      ensures pagination == Listing.InitialPagination
      ensures requests == [] && navigations == [] && notices == []
    {
      patients := [];
      loading := true;
      qFirstName := Get(query, "firstName").GetOr(Single(""));
      qLastName := Get(query, "lastName").GetOr(Single(""));
      qControlNo := Get(query, "controlNo").GetOr(Single(""));
      optionRoles := [];
      filterRole := Get(query, "role");
      selectedRoles := [];
      pagination := Listing.InitialPagination;
      requests := [];
      navigations := [];
      notices := [];
    }

    /** `fetchRoles`: the role options, keyed by role key. A failed request
        is not caught and changes nothing. */
    method FetchRoles(reply: Result<Option<seq<Listing.RoleRecord>>, HttpError>)
      modifies this`requests, this`optionRoles
      ensures requests == old(requests) + [Listing.RoleOptionsRequest]
      ensures optionRoles == (if reply.Success? then Listing.RoleOptions(reply.value.GetOr([])) else old(optionRoles))
    {
      requests := requests + [Http.Get("/role?page=1&limit=1000")];
      if reply.Success? {
        var roles := reply.value.GetOr([]);
        optionRoles := Listing.RoleOptions(roles);
      }
    }

    /** `fetchPatients`: builds the request URL, sends it and stores the
        reply; a failure is handed to the error handler. `roles` is `None`
        when building the role part throws (the refetch's string case),
        which the same handler swallows. */
    method FetchPatients(page: Num, limit: Num, firstName: QueryValue, lastName: QueryValue, controlNo: QueryValue,
                            roles: Option<seq<string>>, reply: Result<Listing.ListReply<Listing.Row>, HttpError>)
      modifies this`requests, this`notices, this`pagination, this`patients
      ensures roles.None? ==> requests == old(requests) && notices == old(notices)
      ensures roles.Some? ==>
        requests == old(requests) + [Http.Get(PatientService.PatientListUrl(page, limit, firstName, lastName, controlNo, roles.value))]
      ensures roles.Some? && reply.Success? ==>
        pagination == reply.value.pagination && patients == reply.value.rows && notices == old(notices)
      ensures roles.Some? && reply.Failure? ==>
        notices == old(notices) + Listing.FetchFailureNotices(reply.error)
      ensures !(roles.Some? && reply.Success?) ==> pagination == old(pagination) && patients == old(patients)
    {
      match roles {
        case None =>
          var handled := Listing.FetchFailureNotices(NonAxiosError);
          notices := notices + handled;
        case Some(queryFilterRole) =>
          var requestUrl := BuildRequestUrl(page, limit, firstName, lastName, controlNo, queryFilterRole);
          requests := requests + [Http.Get(requestUrl)];
          match reply {
            case Success(data) =>
              pagination := data.pagination;
              patients := data.rows;
            case Failure(e) =>
              notices := notices + Listing.FetchFailureNotices(e);
          }
      }
    }

    /** The effect's first half: each truthy search key of the query
        becomes its draft; the others keep theirs. */
    method ReadSearchDrafts(query: RouterQuery)
      modifies this`qFirstName, this`qLastName, this`qControlNo
      ensures qFirstName == (if Truthy(Get(query, "firstName")) then query["firstName"] else old(qFirstName))
      ensures qLastName == (if Truthy(Get(query, "lastName")) then query["lastName"] else old(qLastName))
      ensures qControlNo == (if Truthy(Get(query, "controlNo")) then query["controlNo"] else old(qControlNo))
    {
      if Truthy(Get(query, "firstName")) {
        qFirstName := Listing.SearchArg(Get(query, "firstName"));
      }
      if Truthy(Get(query, "lastName")) {
        qLastName := Listing.SearchArg(Get(query, "lastName"));
      }
      if Truthy(Get(query, "controlNo")) {
        qControlNo := Listing.SearchArg(Get(query, "controlNo"));
      }
    }

    /** The effect's second half: a non-empty normalised `role` value
        becomes the filter; the selection is the options it names (none
        when it is empty, while the filter is then left as it was). */
    method ReadRoleFilter(query: RouterQuery)
      modifies this`filterRole, this`selectedRoles
      ensures selectedRoles == Listing.SelectedRoles(optionRoles, Get(query, "role"))
      ensures filterRole == (if NormaliseList(Get(query, "role")) != [] then Some(Multi(NormaliseList(Get(query, "role")))) else old(filterRole))
    {
      var queryFilterRole := NormaliseList(Get(query, "role"));
      if |queryFilterRole| > 0 {
        filterRole := Some(Multi(queryFilterRole));
        selectedRoles := KeepSelected(optionRoles, queryFilterRole);
      } else {
        selectedRoles := [];
        Listing.KeepNothing(optionRoles);
      }
    }

    /** The effect's fetch: only when both page and limit are present is
        the list fetched, and then the loading flag is cleared (after a delay
        the model does not keep). */
    method FetchForQuery(query: RouterQuery, reply: Result<Listing.ListReply<Listing.Row>, HttpError>)
      modifies this`requests, this`notices, this`pagination, this`patients, this`loading
      ensures Truthy(Get(query, "page")) && Truthy(Get(query, "limit")) ==>
        requests == old(requests) + [QueryListRequest(query)]
        && !loading
        && (reply.Success? ==> pagination == reply.value.pagination && patients == reply.value.rows)
        && notices == old(notices) + (if reply.Failure? then Listing.FetchFailureNotices(reply.error) else [])
      ensures !(Truthy(Get(query, "page")) && Truthy(Get(query, "limit"))) ==>
        requests == old(requests) && loading == old(loading) && notices == old(notices)
        && pagination == old(pagination) && patients == old(patients)
    {
      var page := Get(query, "page");
      var limit := Get(query, "limit");
      if Truthy(page) && Truthy(limit) {
        FetchPatients(ToNumber(page.value), ToNumber(limit.value), Listing.SearchArg(Get(query, "firstName")),
          Listing.SearchArg(Get(query, "lastName")), Listing.SearchArg(Get(query, "controlNo")),
          Some(NormaliseList(Get(query, "role"))), reply);
        loading := false;
      }
    }

    /** The effect on a new router query (or new role options): nothing
        at all until the role options are loaded; then the drafts and the
        filter are read from the query and the list fetched. */
    method OnQueryChange(query: RouterQuery, reply: Result<Listing.ListReply<Listing.Row>, HttpError>)
      modifies this`qFirstName, this`qLastName, this`qControlNo, this`filterRole, this`selectedRoles
      modifies this`requests, this`notices, this`pagination, this`patients, this`loading
      ensures old(optionRoles) == [] ==>
        requests == old(requests) && loading == old(loading) && selectedRoles == old(selectedRoles)
        && qFirstName == old(qFirstName) && qLastName == old(qLastName) && qControlNo == old(qControlNo)
        && filterRole == old(filterRole) && pagination == old(pagination) && patients == old(patients)
        && notices == old(notices)
      ensures old(optionRoles) != [] ==>
        qFirstName == (if Truthy(Get(query, "firstName")) then query["firstName"] else old(qFirstName))
        && qLastName == (if Truthy(Get(query, "lastName")) then query["lastName"] else old(qLastName))
        && qControlNo == (if Truthy(Get(query, "controlNo")) then query["controlNo"] else old(qControlNo))
        && selectedRoles == Listing.SelectedRoles(optionRoles, Get(query, "role"))
        && filterRole == (if NormaliseList(Get(query, "role")) != [] then Some(Multi(NormaliseList(Get(query, "role")))) else old(filterRole))
      ensures old(optionRoles) != [] && Truthy(Get(query, "page")) && Truthy(Get(query, "limit")) ==>
        requests == old(requests) + [QueryListRequest(query)]
        && !loading
        && (reply.Success? ==> pagination == reply.value.pagination && patients == reply.value.rows)
        && notices == old(notices) + (if reply.Failure? then Listing.FetchFailureNotices(reply.error) else [])
      ensures old(optionRoles) != [] && !(Truthy(Get(query, "page")) && Truthy(Get(query, "limit"))) ==>
        requests == old(requests) && loading == old(loading) && notices == old(notices)
        && pagination == old(pagination) && patients == old(patients)
    {
      if |optionRoles| > 0 {
        ReadSearchDrafts(query);
        ReadRoleFilter(query);
        FetchForQuery(query, reply);
      }
    }

    /** `sendDeleteRequest`: sends the delete to the user endpoint with the
        user notice, as the system users page does; on success refetches
        with the current pagination, search drafts and filter state (a
        filter held as a non-empty string makes the refetch throw inside the
        fetch, which swallows it); on failure shows the delete's failure
        notices. The rows and pagination become the refetch's when it is
        sent and succeeds, and are kept otherwise. */
    method SendDeleteRequest(userId: int, deleteReply: Result<bool, HttpError>, refetchReply: Result<Listing.ListReply<Listing.Row>, HttpError>)
      modifies this`requests, this`notices, this`pagination, this`patients
      ensures deleteReply.Failure? ==>
        requests == old(requests) + [UserService.DeleteUserRequest(userId)]
        && notices == old(notices) + Listing.DeleteFailureNotices(deleteReply.error)
        && pagination == old(pagination) && patients == old(patients)
      ensures deleteReply.Success? && Listing.RolesArgument(old(filterRole)).Some? ==>
        requests == old(requests) + [UserService.DeleteUserRequest(userId),
          Http.Get(PatientService.PatientListUrl(Finite(old(pagination).page), Finite(old(pagination).limit),
            old(qFirstName), old(qLastName), old(qControlNo), Listing.RolesArgument(old(filterRole)).value))]
        && notices == old(notices) + [Listing.SuccessNotice("User successfully deleted!")]
           + (if refetchReply.Failure? then Listing.FetchFailureNotices(refetchReply.error) else [])
      ensures deleteReply.Success? && Listing.RolesArgument(old(filterRole)).None? ==>
        requests == old(requests) + [UserService.DeleteUserRequest(userId)]
        && notices == old(notices) + [Listing.SuccessNotice("User successfully deleted!")]
      ensures deleteReply.Success? && Listing.RolesArgument(old(filterRole)).Some? && refetchReply.Success? ==>
        pagination == refetchReply.value.pagination && patients == refetchReply.value.rows
      ensures !(deleteReply.Success? && Listing.RolesArgument(old(filterRole)).Some? && refetchReply.Success?) ==> pagination == old(pagination) && patients == old(patients)
    {
      requests := requests + [Http.Delete("/user/" + Text.IntToString(userId))];
      match deleteReply {
        case Success(_) =>
          notices := notices + [Listing.SuccessNotice("User successfully deleted!")];
          FetchPatients(Finite(pagination.page), Finite(pagination.limit), qFirstName, qLastName, qControlNo,
            Listing.RolesArgument(filterRole), refetchReply);
        case Failure(e) =>
          notices := notices + Listing.DeleteFailureNotices(e);
      }
    }

    /** `goToPage`: pushes the current query with only the page replaced. */
    method GoToPage(query: RouterQuery, page: int)
      modifies this`navigations
      ensures navigations == old(navigations) + [Push(Pathname, GoToPageQuery(query, page))]
    {
      navigations := navigations + [Push(Pathname, GoToPageQuery(query, page))];
    }

    /** `handleOnSearch`: two navigations, first the encoded path carrying
        the drafts and the selected roles, then the object form carrying
        the drafts only. */
    method HandleOnSearch(query: RouterQuery)
      modifies this`navigations
      ensures navigations == old(navigations) + [
        PushEncoded(Pathname, SearchEncodedQuery(query, qFirstName, qLastName, qControlNo, Values(selectedRoles))),
        Push(Pathname, SearchQuery(query, qFirstName, qLastName, qControlNo))]
    {
      var encoded := SetKeys(query, map["page" := Single("1"), "firstName" := qFirstName, "lastName" := qLastName,
        "controlNo" := qControlNo, "role" := Multi(Values(selectedRoles))]);
      navigations := navigations + [PushEncoded(Pathname, encoded)];
      navigations := navigations + [Push(Pathname, SetKeys(query, map["page" := Single("1"), "firstName" := qFirstName,
        "lastName" := qLastName, "controlNo" := qControlNo]))];
    }

    /** `handleOnClearSearch`: empties the drafts and pushes the query with
        the three search keys deleted and page 1. */
    method HandleOnClearSearch(query: RouterQuery)
      modifies this`navigations, this`qFirstName, this`qLastName, this`qControlNo
      ensures qFirstName == Single("") && qLastName == Single("") && qControlNo == Single("")
      ensures navigations == old(navigations) + [Push(Pathname, ClearKeysQuery(query, {"firstName", "lastName", "controlNo"}))]
    {
      qFirstName := Single("");
      qLastName := Single("");
      qControlNo := Single("");
      var cleared := query["page" := Single("1")];
      cleared := cleared - {"firstName", "lastName", "controlNo"};
      navigations := navigations + [Push(Pathname, cleared)];
    }

  }
}

=== FILE: src/query.dfy ===
/** The router's query object as the list pages see it, and the edits they
    make to it before navigating. `qs.encode` and the router's own
    serialisation are not modelled: a navigation records the query object. */
module Query {
  import opened Wrappers
  import Text

  /** A query-string value: one occurrence of a key, or a repeated key. */
  datatype QueryValue = Single(text: string) | Multi(items: seq<string>)

  type RouterQuery = map<string, QueryValue>

  /** A `router.push` call: with a `{pathname, query}` object, with a path
      followed by `qs.encode(query)`, or with a plain URL text. */
  datatype Navigation =
    | Push(pathname: string, query: RouterQuery)
    | PushEncoded(path: string, query: RouterQuery)
    | PushPath(url: string)

  function Get(q: RouterQuery, key: string): Option<QueryValue> {
    if key in q then Some(q[key]) else None
  }

  /** JavaScript truthiness of a query value: a missing key and the empty
      string are falsy, every array is truthy. */
  predicate Truthy(v: Option<QueryValue>) {
    match v
    case None => false
    case Some(Single(s)) => s != ""
    case Some(Multi(_)) => true
  }

  /** String coercion of a query value (an array prints comma-joined). */
  function AsText(v: QueryValue): string {
    match v
    case Single(s) => s
    case Multi(xs) => Text.Join(xs, ",")
  }

  /** A JavaScript number as far as the list pages use one. */
  datatype Num = Finite(i: int) | NaN

  /** How a template literal prints a number. */
  function NumText(n: Num): string {
    match n
    case Finite(i) => Text.IntToString(i)
    case NaN => "NaN"
  }

  /** `Number(s)` for decimal integer text with an optional leading `+`
      or `-`; the empty string is 0 and every other text is NaN. */
  function ParseNumber(s: string): Num {
    if s == [] then Finite(0)
    else if Text.AllDigits(s) then Finite(Text.DigitsValue(s))
    else if s[0] == '-' && |s| > 1 && Text.AllDigits(s[1..]) then Finite(0 - Text.DigitsValue(s[1..]) as int)
    else if s[0] == '+' && |s| > 1 && Text.AllDigits(s[1..]) then Finite(Text.DigitsValue(s[1..]) as int)
    else NaN
  }

  /** `Number(v)` of a query value: an array converts through its text. */
  function ToNumber(v: QueryValue): Num {
    match v
    case Single(s) => ParseNumber(s)
    case Multi(xs) =>
      if xs == [] then Finite(0) else if |xs| == 1 then ParseNumber(xs[0]) else NaN
  }

  /** Printing a number into the query and reading it back gives the number. */
  lemma ParsePrinted(i: int)
    ensures ParseNumber(Text.IntToString(i)) == Finite(i)
  {
    if i >= 0 {
      Text.DigitsValueOfNatToString(i);
    } else {
      var s := Text.IntToString(i);
      assert s[1..] == Text.NatToString(-i);
      Text.DigitsValueOfNatToString(-i);
      assert !Text.IsDigit(s[0]);
    }
  }

  /** `q` and `r` hold the same entries for every key outside `keys`. */
  ghost predicate AgreeExcept(q: RouterQuery, r: RouterQuery, keys: set<string>) {
    forall k :: k !in keys ==> Get(q, k) == Get(r, k)
  }

  /** `{ ...router.query, page }`: the query `goToPage(page)` navigates to.
      Every list page uses this same edit. */
  function GoToPageQuery(q: RouterQuery, page: int): (r: RouterQuery)
    ensures Get(r, "page").Some? && ToNumber(r["page"]) == Finite(page)
    ensures AgreeExcept(q, r, {"page"})
  {
    ParsePrinted(page);
    q["page" := Single(Text.IntToString(page))]
  }

  /** `{ ...q, ...m }`: the entries of `m` set, every other key kept. */
  function SetKeys(q: RouterQuery, m: map<string, QueryValue>): (r: RouterQuery)
    ensures forall k :: k in m ==> Get(r, k) == Some(m[k])
    ensures AgreeExcept(q, r, m.Keys)
  {
    q + m
  }

  /** The query `{ ...router.query, page: 1 }` with `keys` deleted. */
  function ClearKeysQuery(q: RouterQuery, keys: set<string>): (r: RouterQuery)
    requires "page" !in keys
    ensures Get(r, "page") == Some(Single("1"))
    ensures forall k :: k in keys ==> k !in r
    ensures AgreeExcept(q, r, keys + {"page"})
  {
    q["page" := Single("1")] - keys
  }

  /** How the router reads back a list written under one key: absent when
      empty, a single value when it has one element, an array otherwise. */
  function ReadBack(xs: seq<string>): Option<QueryValue> {
    if xs == [] then None else if |xs| == 1 then Some(Single(xs[0])) else Some(Multi(xs))
  }

  /** The list pages' normaliser of a repeated key (`role`): a non-empty
      array as it is, a single truthy string as a one-element list,
      otherwise the empty list. */
  function NormaliseList(v: Option<QueryValue>): (r: seq<string>)
    ensures Truthy(v) && v.value.Single? ==> r == [v.value.text]
    ensures !Truthy(v) ==> r == []
  {
    match v
    case Some(Multi(xs)) => if |xs| > 0 then xs else []
    case Some(Single(s)) => if s != "" then [s] else []
    case None => []
  }

  /** A list of non-empty values written to the query and read back through
      the normaliser comes back unchanged, whatever its length. */
  lemma NormaliseReadBack(xs: seq<string>)
    requires forall i :: 0 <= i < |xs| ==> xs[i] != ""
    ensures NormaliseList(ReadBack(xs)) == xs
  {
    if |xs| == 1 {
      assert xs == [xs[0]];
    }
  }
}

=== FILE: src/role_service.dfy ===
/** `RoleService`: the role-list request and the per-role requests. */
module RoleService {
  import opened Wrappers
  import Text
  import Http
  import opened Query
  import Listing
  import opened ErrorHandling

  /** The URL of a role-list request: page and limit, then the keyword when
      it is truthy. */
  function RoleListUrl(page: Num, limit: Num, keyword: Option<string>): string {
    Listing.ListUrl("role", Listing.ListParams(page, limit, [("keyword", Single(keyword.GetOr("")))], []))
  }

  /** The text the role-list builder starts from. */
  function RoleListBase(page: Num, limit: Num): string {
    "/role?page=" + NumText(page) + "&limit=" + NumText(limit)
  }

  /** `getRoleList`: appends `&keyword=` only for a truthy keyword (the
      keyword defaults to `null`, which is falsy). */
  method GetRoleList(page: Num, limit: Num, keyword: Option<string>) returns (request: Http.Request)
    ensures request == Http.Get(RoleListUrl(page, limit, keyword))
    ensures keyword.None? || keyword == Some("") ==> request.url == RoleListBase(page, limit)
  {
    var fetchRolesUrl := "/role?page=" + NumText(page) + "&limit=" + NumText(limit);
    fetchRolesUrl := Listing.AppendIfTruthy(fetchRolesUrl, "keyword", Single(keyword.GetOr("")));
    ghost var field := ("keyword", Single(keyword.GetOr("")));
    assert fetchRolesUrl == Listing.BuiltUrl(RoleListBase(page, limit), [field], []) by {
      assert [field][..0] == [];
      assert Listing.AppendFields(RoleListBase(page, limit), [field]) == Listing.AppendField(RoleListBase(page, limit), field);
    }
    assert "/" + "role" + "?page=" == "/role?page=";
    assert RoleListBase(page, limit) == Listing.BaseText("role", page, limit);
    Listing.BuiltUrlIsListUrl("role", page, limit, [field], []);
    request := Http.Get(fetchRolesUrl);
  }

  /** The path of one role. */
  function RolePath(roleId: int): (path: string)
    ensures Text.IsPrefix("/role/", path)
  {
    "/role/" + Text.IntToString(roleId)
  }

  /** Different roles have different paths. */
  lemma RolePathInjective(a: int, b: int)
    requires RolePath(a) == RolePath(b)
    ensures a == b
  {
    assert RolePath(a)[6..] == Text.IntToString(a);
    assert RolePath(b)[6..] == Text.IntToString(b);
    Text.IntToStringInjective(a, b);
  }

  /** `getRole` reads the role's path. */
  method GetRole(roleId: int) returns (request: Http.Request)
    ensures request == Http.Get(RolePath(roleId))
  {
    request := Http.Get("/role/" + Text.IntToString(roleId));
  }

  /** `createRole` posts its parameters (the name) to `/role`. */
  method CreateRole(name: string) returns (request: Http.Request)
    ensures request == Http.Request(Http.POST, "/role", Http.Json([("name", name)]))
  {
    request := Http.Request(Http.POST, "/role", Http.Json([("name", name)]));
  }

  /** `updateRole` sends only the name, to the role's path. */
  method UpdateRole(roleId: int, name: string) returns (request: Http.Request)
    ensures request.verb == Http.PATCH && request.url == RolePath(roleId)
    ensures request.body == Http.Json([("name", name)])
  {
    request := Http.Request(Http.PATCH, "/role/" + Text.IntToString(roleId), Http.Json([("name", name)]));
  }

  /** `deleteRole` deletes the role's path and passes the backend's status
      on unchanged; a failed request propagates. */
  method DeleteRole(roleId: int, reply: Result<bool, HttpError>) returns (request: Http.Request, status: Result<bool, HttpError>)
    ensures request == Http.Delete(RolePath(roleId))
    ensures status == reply
  {
    request := Http.Delete("/role/" + Text.IntToString(roleId));
    status := reply;
  }
}

=== FILE: src/roles_list.dfy ===
/** The roles list page: a keyword search, paging, and delete and
    refetch. Its effect fetches with the keyword the page held before the
    effect ran, not the one it has just read from the query. */
module RolesList {
  import opened Wrappers
  import Text
  import Http
  import opened Query
  import opened ErrorHandling
  import Tables
  import Listing

  const Pathname := "/dashboard/users/roles/list"

  /** The URL of the page's role-list request: page, limit and the keyword,
      the keyword pair present even when empty. */
  function RolesListUrl(page: Num, limit: Num, keyword: QueryValue): string {
    Listing.ListUrl("role", [("page", NumText(page)), ("limit", NumText(limit)), ("keyword", AsText(keyword))])
  }

  /** The URL text the page writes is that URL. */
  lemma RolesListText(page: Num, limit: Num, keyword: QueryValue)
    ensures "/role?page=" + NumText(page) + "&limit=" + NumText(limit) + "&keyword=" + AsText(keyword)
         == RolesListUrl(page, limit, keyword)
  {
    var base := [("page", NumText(page)), ("limit", NumText(limit))];
    Listing.BaseUrl("role", page, limit);
    assert "/" + "role" + "?page=" == "/role?page=";
    Listing.AppendPair("role", base, "keyword", AsText(keyword));
    assert base + [("keyword", AsText(keyword))] == [("page", NumText(page)), ("limit", NumText(limit)), ("keyword", AsText(keyword))];
  }

  /** The query a search pushes: the keyword draft and page 1. */
  function SearchQuery(q: RouterQuery, keyword: QueryValue): (r: RouterQuery)
    ensures Get(r, "keyword") == Some(keyword) && Get(r, "page") == Some(Single("1"))
    ensures AgreeExcept(q, r, {"keyword", "page"})
  {
    SetKeys(q, map["keyword" := keyword, "page" := Single("1")])
  }

  class RolesListPage {
    var roles: seq<Listing.RoleRecord>
    var keyword: QueryValue
    var pagination: Tables.Pagination
    var requests: seq<Http.Request>
    var navigations: seq<Navigation>
    var notices: seq<Listing.Notice>

    /** The initial state, read from the router query of the first render. */
    constructor (query: RouterQuery)
      ensures roles == [] && keyword == Get(query, "keyword").GetOr(Single(""))
      ensures pagination == Listing.InitialPagination
      ensures requests == [] && navigations == [] && notices == []
    {
      roles := [];
      keyword := Get(query, "keyword").GetOr(Single(""));
      pagination := Listing.InitialPagination;
      requests := [];
      navigations := [];
      notices := [];
    }

    /** `fetchRoles`: sends the request and stores the reply; a failure is
        handed to the error handler. */
    method FetchRoles(page: Num, limit: Num, keyword: QueryValue, reply: Result<Listing.ListReply<Listing.RoleRecord>, HttpError>)
      modifies this`requests, this`notices, this`pagination, this`roles
      ensures requests == old(requests) + [Http.Get(RolesListUrl(page, limit, keyword))]
      ensures reply.Success? ==>
        pagination == reply.value.pagination && roles == reply.value.rows && notices == old(notices)
      ensures reply.Failure? ==>
        notices == old(notices) + Listing.FetchFailureNotices(reply.error)
        && pagination == old(pagination) && roles == old(roles)
    {
      var requestUrl := "/role?page=" + NumText(page) + "&limit=" + NumText(limit) + "&keyword=" + AsText(keyword);
      RolesListText(page, limit, keyword);
      requests := requests + [Http.Get(requestUrl)];
      match reply {
        case Success(data) =>
          pagination := data.pagination;
          roles := data.rows;
        case Failure(e) =>
          notices := notices + Listing.FetchFailureNotices(e);
      }
    }

    /** The effect on a new query: a truthy keyword becomes the draft, and
        when page and limit are both present the list is fetched with the
        draft as it was before this effect. */
    method OnQueryChange(query: RouterQuery, reply: Result<Listing.ListReply<Listing.RoleRecord>, HttpError>)
      modifies this`keyword, this`requests, this`notices, this`pagination, this`roles
      ensures keyword == (if Truthy(Get(query, "keyword")) then query["keyword"] else old(keyword))
      ensures Truthy(Get(query, "page")) && Truthy(Get(query, "limit")) ==>
        requests == old(requests) + [Http.Get(RolesListUrl(ToNumber(query["page"]), ToNumber(query["limit"]), old(keyword)))]
        && (reply.Success? ==> pagination == reply.value.pagination && roles == reply.value.rows)
        && notices == old(notices) + (if reply.Failure? then Listing.FetchFailureNotices(reply.error) else [])
      ensures !(Truthy(Get(query, "page")) && Truthy(Get(query, "limit"))) ==>
        requests == old(requests) && notices == old(notices) && pagination == old(pagination) && roles == old(roles)
    {
      var staleKeyword := keyword;
      if Truthy(Get(query, "keyword")) {
        keyword := query["keyword"];
      }
      var page := Get(query, "page");
      var limit := Get(query, "limit");
      if Truthy(page) && Truthy(limit) {
        FetchRoles(ToNumber(page.value), ToNumber(limit.value), staleKeyword, reply);
      }
    }

    /** `handleOnSearch`: pushes the keyword draft and page 1. */
    method HandleOnSearch(query: RouterQuery)
      modifies this`navigations
      ensures navigations == old(navigations) + [Push(Pathname, SearchQuery(query, keyword))]
    {
      navigations := navigations + [Push(Pathname, SetKeys(query, map["keyword" := keyword, "page" := Single("1")]))];
    }

    /** `handleOnClearSearch`: empties the draft and pushes an empty keyword
        and page 1 (the key is kept, empty). */
    method HandleOnClearSearch(query: RouterQuery)
      modifies this`navigations, this`keyword
      ensures keyword == Single("")
      ensures navigations == old(navigations) + [Push(Pathname, SearchQuery(query, Single("")))]
    {
      keyword := Single("");
      navigations := navigations + [Push(Pathname, SetKeys(query, map["keyword" := Single(""), "page" := Single("1")]))];
    }

    /** `goToPage`: pushes the current query with only the page replaced. */
    method GoToPage(query: RouterQuery, page: int)
      modifies this`navigations
      ensures navigations == old(navigations) + [Push(Pathname, GoToPageQuery(query, page))]
    {
      navigations := navigations + [Push(Pathname, GoToPageQuery(query, page))];
    }

    /** `sendDeleteRequest`: deletes the role; on success shows the notice
        and refetches with the current pagination and keyword draft; on
        failure shows the delete's failure notices.
        The roles and pagination become the refetch's when it succeeds,
        and are kept otherwise. */
    method SendDeleteRequest(roleId: int, deleteReply: Result<bool, HttpError>,
                             refetchReply: Result<Listing.ListReply<Listing.RoleRecord>, HttpError>)
      modifies this`requests, this`notices, this`pagination, this`roles
      ensures deleteReply.Failure? ==>
        requests == old(requests) + [Http.Delete("/role/" + Text.IntToString(roleId))]
        && notices == old(notices) + Listing.DeleteFailureNotices(deleteReply.error)
        && pagination == old(pagination) && roles == old(roles)
      ensures deleteReply.Success? ==>
        requests == old(requests) + [Http.Delete("/role/" + Text.IntToString(roleId)),
          Http.Get(RolesListUrl(Finite(old(pagination).page), Finite(old(pagination).limit), keyword))]
        && notices == old(notices) + [Listing.SuccessNotice("Role successfully deleted!")]
           + (if refetchReply.Failure? then Listing.FetchFailureNotices(refetchReply.error) else [])
      ensures deleteReply.Success? && refetchReply.Success? ==>
        pagination == refetchReply.value.pagination && roles == refetchReply.value.rows
      ensures !(deleteReply.Success? && refetchReply.Success?) ==> pagination == old(pagination) && roles == old(roles)
    {
      requests := requests + [Http.Delete("/role/" + Text.IntToString(roleId))];
      match deleteReply {
        case Success(_) =>
          notices := notices + [Listing.SuccessNotice("Role successfully deleted!")];
          FetchRoles(Finite(pagination.page), Finite(pagination.limit), keyword, refetchReply);
        case Failure(e) =>
          notices := notices + Listing.DeleteFailureNotices(e);
      }
    }
  }
}

=== FILE: src/select.dfy ===
/** The `{ value, label }` options that the select inputs show, and the
    lookups the pages do on them. */
module Select {
  import opened Wrappers

  /** A JSON scalar as the backend sends it: lodash compares these strictly,
      so the number 1 and the text "1" are different values. */
  datatype Scalar = Number(n: int) | Str(s: string)

  /** An option; `caption` is what the source calls its label. */
  datatype SelectOption<V> = SelectOption(value: V, caption: string)

  /** `options.map(o => o.value)`. */
  function Values<V>(options: seq<SelectOption<V>>): (vs: seq<V>)
    ensures |vs| == |options|
    ensures forall i :: 0 <= i < |options| ==> vs[i] == options[i].value
  {
    if options == [] then [] else [options[0].value] + Values(options[1..])
  }

  /** `options.filter(o => _.includes(values, o.value))`: the options whose
      value is listed, in option order. */
  function KeepSelected<V(==, !new)>(options: seq<SelectOption<V>>, values: seq<V>): (r: seq<SelectOption<V>>)
    ensures |r| <= |options|
    ensures forall o :: o in r <==> o in options && o.value in values
  {
    if options == [] then []
    else if options[0].value in values then [options[0]] + KeepSelected(options[1..], values)
    else KeepSelected(options[1..], values)
  }

  /** Keeping the options listed by an earlier keep gives the same options. */
  lemma {:induction false} KeepSelectedIdempotent<V(!new)>(options: seq<SelectOption<V>>, values: seq<V>)
    ensures KeepSelected(options, Values(KeepSelected(options, values))) == KeepSelected(options, values)
  {
    var kept := Values(KeepSelected(options, values));
    forall o | o in options
      ensures o.value in kept <==> o.value in values
    {
      if o.value in values {
        var r := KeepSelected(options, values);
        assert o in r;
        var i :| 0 <= i < |r| && r[i] == o;
        assert kept[i] == o.value;
      }
    }
    KeepSameMembership(options, kept, values);
  }

  /** Two value lists that admit the same options keep the same options. */
  lemma {:induction false} KeepSameMembership<V(!new)>(options: seq<SelectOption<V>>, a: seq<V>, b: seq<V>)
    requires forall o :: o in options ==> (o.value in a <==> o.value in b)
    ensures KeepSelected(options, a) == KeepSelected(options, b)
  {
    if options != [] {
      assert options[0] in options;
      KeepSameMembership(options[1..], a, b);
    }
  }

  /** No two options carry the same value. */
  ghost predicate DistinctValues<V(!new)>(options: seq<SelectOption<V>>) {
    forall i, j :: 0 <= i < j < |options| ==> options[i].value != options[j].value
  }

  /** When option values are distinct, a selection made from the options
      survives being written as its values and selected again: the same
      options come back (in option order). */
  lemma SelectionRoundTrip<V(!new)>(options: seq<SelectOption<V>>, selection: seq<SelectOption<V>>)
    requires DistinctValues(options)
    requires forall o :: o in selection ==> o in options
    ensures forall o :: o in KeepSelected(options, Values(selection)) <==> o in selection
  {
    forall o | o in KeepSelected(options, Values(selection))
      ensures o in selection
    {
      var vs := Values(selection);
      var k :| 0 <= k < |vs| && vs[k] == o.value;
      var s := selection[k];
      assert s in options;
      var i :| 0 <= i < |options| && options[i] == o;
      var j :| 0 <= j < |options| && options[j] == s;
      assert i == j;
    }
    forall o | o in selection
      ensures o in KeepSelected(options, Values(selection))
    {
      var k :| 0 <= k < |selection| && selection[k] == o;
      assert Values(selection)[k] == o.value;
    }
  }

  /** `_.find(options, { value: v })`: the first option with that value. */
  function FindByValue<V(==, !new)>(options: seq<SelectOption<V>>, v: V): (r: Option<SelectOption<V>>)
    ensures r.Some? <==> exists i :: 0 <= i < |options| && options[i].value == v
    ensures r.Some? ==> r.value in options && r.value.value == v
    ensures r.Some? ==> exists i :: (0 <= i < |options| && options[i] == r.value
      && forall j :: 0 <= j < i ==> options[j].value != v)
  {
    if options == [] then None
    else if options[0].value == v then Some(options[0])
    else
      var r := FindByValue(options[1..], v);
      if r.Some? then
        assert exists i :: (0 <= i < |options| && options[i] == r.value
          && forall j :: 0 <= j < i ==> options[j].value != v) by {
          var i :| 0 <= i < |options[1..]| && options[1..][i] == r.value
            && forall j :: 0 <= j < i ==> options[1..][j].value != v;
          assert options[i + 1] == r.value;
          assert forall j :: 0 <= j < i + 1 ==> options[j].value != v by {
            forall j | 0 <= j < i + 1
              ensures options[j].value != v
            {
              if j > 0 { assert options[j] == options[1..][j - 1]; }
            }
          }
        }
        r
      else r
  }

  /** With distinct values, the option found is the unique one carrying the
      value. */
  lemma FindUnique<V(!new)>(options: seq<SelectOption<V>>, i: nat, v: V)
    requires DistinctValues(options)
    requires i < |options| && options[i].value == v
    ensures FindByValue(options, v) == Some(options[i])
  {
    var r := FindByValue(options, v);
    var k :| 0 <= k < |options| && options[k] == r.value;
  }
}

=== FILE: src/service_form.dfy ===
/** The service create and edit form: the category options from the static
    table, a stored category matched against them by strict equality, the
    payload with the category's value, and the five error slots. */
module ServiceForm {
  import opened Wrappers
  import opened Select
  import opened ErrorHandling
  import Http
  import Listing
  import Query
  import Constants
  import opened Forms

  const ListPath := "/dashboard/services/list?page=1&limit=10"
  const CreatePath := "/dashboard/services/create"
  const ServicePathPrefix := "/dashboard/services/"

  /** `formProperties`: both modes lead back to the list; the edit
      breadcrumb links to the service's page. */
  function ServiceFormProperties(mode: Mode, serviceId: Option<string>, name: string): (fp: FormProperties)
    ensures fp.successRedirect == ListPath
    ensures mode == Create ==> fp.breadcrumb.link == CreatePath && fp.successMessage == name + " service is created!"
    ensures mode == Edit ==>
      fp.breadcrumb.link == ServicePathPrefix + IdText(serviceId) && fp.successMessage == name + " service is updated!"
  {
    match mode
    case Create =>
      FormProperties("Create Service", "Create", name + " service is created!", ListPath, Breadcrumb("Create", CreatePath))
    case Edit =>
      FormProperties("Update Service", "Update", name + " service is updated!", ListPath,
        Breadcrumb("Update " + name, ServicePathPrefix + IdText(serviceId)))
  }

  /** The `service` of `GET /service/{id}`: the stored logo file name
      (`''` when none), the stored category as the reply holds it (`''`
      when missing) and the texts, each possibly missing. */
  datatype ServiceRecord = ServiceRecord(
    logo: string, name: Option<string>, category: Scalar, price: Option<string>, description: Option<string>)

  /** `_.find(options, { value: category })`: the option whose value is the
      stored category itself. A category stored as text matches no option,
      since option values are numbers and no conversion happens. */
  function CategoryFor(options: seq<SelectOption<int>>, category: Scalar): (r: Option<SelectOption<int>>)
    ensures r.Some? <==> category.Number? && exists i :: 0 <= i < |options| && options[i].value == category.n
    ensures r.Some? ==> r.value in options && Number(r.value.value) == category
  {
    match category
    case Number(n) => FindByValue(options, n)
    case Str(_) => None
  }

  /** A category stored as id `i + 1` hydrates the `i`-th category option,
      and a submit sends that id back. */
  lemma CategoryRoundTrip(i: nat)
    requires i < |Constants.ServiceCategories|
    ensures CategoryFor(Constants.CategoryOptions(), Number(i + 1)) == Some(Constants.CategoryOptions()[i])
    ensures PickedValue(Some(Pick(CategoryFor(Constants.CategoryOptions(), Number(i + 1))))) == Number(i + 1)
  {
    Constants.ServiceCategoriesShape();
    Constants.CategoryLookupUnique(i);
  }

  /** The keys a stored service overwrites. */
  const HydratedKeys: set<string> := {"logo", "name", "category", "price", "description"}

  /** The values a stored service restores: the logo as a preview of the
      fetched file (`null` for an empty name), the texts or `''`, and the
      category option `CategoryFor` finds among `options`. Every other
      value is kept. */
  function WithService(values: FormValues, service: ServiceRecord, options: seq<SelectOption<int>>, logoUrl: string): (r: FormValues)
    ensures r.Keys == values.Keys + HydratedKeys
    ensures r["logo"] == Image(StoredPhoto(service.logo, logoUrl, NullPhoto))
    ensures r["name"] == Text(OrEmpty(service.name))
    ensures r["category"] == Pick(CategoryFor(options, service.category))
    ensures r["price"] == Text(OrEmpty(service.price)) && r["description"] == Text(OrEmpty(service.description))
    ensures forall k :: k in values && k !in HydratedKeys ==> r[k] == values[k]
  {
    values["logo" := Image(StoredPhoto(service.logo, logoUrl, NullPhoto))]
      ["name" := Text(OrEmpty(service.name))]
      ["category" := Pick(CategoryFor(options, service.category))]
      ["price" := Text(OrEmpty(service.price))]["description" := Text(OrEmpty(service.description))]
  }

  /** What a submit hands over: the logo, name, description and price
      values as they are, and the chosen category's value or `''`. */
  datatype ServicePayload = ServicePayload(values: FormValues, category: Scalar)

  const PayloadKeys: set<string> := {"logo", "name", "description", "price"}

  /** The keys a 400 reply fills in `formErrors`. */
  const ErrorKeys: set<string> := {"logo", "name", "category", "description", "price"}

  const InitialValues: FormValues := map[
    "logo" := Image(EmptyPhoto), "name" := Text(""), "category" := Text(""), "description" := Text(""), "price" := Text("")]

  class ServiceFormState {
    const mode: Mode
    const serviceId: Option<string>
    var formValues: FormValues
    var optionCategories: seq<SelectOption<int>>
    var formErrors: map<string, ErrorSlot>
    var loading: bool
    var requests: seq<Http.Request>
    var notices: seq<Listing.Notice>
    var navigations: seq<Query.Navigation>
    var submissions: seq<ServicePayload>

    constructor (mode: Mode, serviceId: Option<string>)
      ensures this.mode == mode && this.serviceId == serviceId
      ensures formValues == InitialValues && optionCategories == [] && formErrors == map[] && !loading
      ensures requests == [] && notices == [] && navigations == [] && submissions == []
    {
      this.mode := mode;
      this.serviceId := serviceId;
      formValues := InitialValues;
      optionCategories := [];
      formErrors := map[];
      loading := false;
      requests := [];
      notices := [];
      navigations := [];
      submissions := [];
    }

    /** `formProperties` on the current name (`''` when not text). */
    function Properties(): (fp: FormProperties)
      reads this
      ensures fp.successRedirect == ListPath
      ensures fp.successMessage == TextOf(formValues, "name") + (if mode == Create then " service is created!" else " service is updated!")
    {
      ServiceFormProperties(mode, serviceId, TextOf(formValues, "name"))
    }

    function Payload(): (p: ServicePayload)
      reads this
      ensures p.values.Keys == PayloadKeys * formValues.Keys
      ensures p.category.Number? <==> "category" in formValues && formValues["category"].Pick? && formValues["category"].option.Some?
    {
      ServicePayload(Fields(formValues, PayloadKeys), PickedValue(Lookup(formValues, "category")))
    }

    /** The service is fetched only in edit mode, with a truthy
        `serviceId`, once category options exist. */
    predicate ShouldFetchService()
      reads this
    {
      mode == Edit && IdTruthy(serviceId) && |optionCategories| > 0
    }

    /** The first effect: every category as an option, in table order. */
    method FetchCategories()
      modifies this`optionCategories
      ensures optionCategories == Constants.CategoryOptions()
    {
      optionCategories := Constants.CategoryOptions();
    }

    /** `handleValueChange`: exactly one value replaced. */
    method HandleValueChange(field: string, value: FieldValue)
      modifies this`formValues
      ensures formValues == WithValue(old(formValues), field, value)
    {
      formValues := WithValue(formValues, field, value);
    }

    /** `fetchServiceData`: a stored service overwrites the logo, name,
        category, price and description as `WithService` states, the
        category looked up among the current options. */
    method FetchServiceData(reply: Result<Option<ServiceRecord>, HttpError>, logoUrl: string)
      modifies this`requests, this`formValues
      ensures requests == old(requests) + [Http.Get(RecordUrl("/service/", serviceId))]
      ensures reply.Success? && reply.value.Some? ==>
        formValues == WithService(old(formValues), reply.value.value, optionCategories, logoUrl)
      ensures !(reply.Success? && reply.value.Some?) ==> formValues == old(formValues)
    {
      requests := requests + [Http.Get(RecordUrl("/service/", serviceId))];
      if reply.Success? && reply.value.Some? {
        formValues := WithService(formValues, reply.value.value, optionCategories, logoUrl);
      }
    }

    /** The effect on the options, `mode` and `serviceId`: loading while
        the service is fetched when it should be; a failed fetch leaves the
        form loading. */
    method GetData(reply: Result<Option<ServiceRecord>, HttpError>, logoUrl: string)
      modifies this`requests, this`formValues, this`loading
      ensures ShouldFetchService() ==> requests == old(requests) + [Http.Get(RecordUrl("/service/", serviceId))]
      ensures !ShouldFetchService() ==> requests == old(requests)
      ensures formValues ==
        if ShouldFetchService() && reply.Success? && reply.value.Some?
        then WithService(old(formValues), reply.value.value, optionCategories, logoUrl)
        else old(formValues)
      ensures loading <==> ShouldFetchService() && reply.Failure?
    {
      loading := true;
      if ShouldFetchService() {
        FetchServiceData(reply, logoUrl);
        if reply.Failure? {
          return;
        }
      }
      loading := false;
    }

    /** `_handleOnformSubmit`: the payload is handed over. When the handler
        resolves, the errors are emptied, the notice shown and the form
        leaves for the list; when it throws, a 400 reply replaces the
        errors with exactly the five keys, each the server's message or
        `null`, and a network failure or an unexpected status shows the
        handler's notice. */
    method Submit(thrown: Option<HttpError>)
      modifies this`submissions, this`formErrors, this`notices, this`navigations
      ensures submissions == old(submissions) + [Payload()]
      ensures thrown.None? ==>
        formErrors == map[]
        && notices == old(notices) + [Listing.SuccessNotice(Properties().successMessage)]
        && navigations == old(navigations) + [Query.PushPath(ListPath)]
      ensures thrown.Some? ==>
        var o := HandleHttpRequestError(thrown.value, SubmitCallbacks);
        navigations == old(navigations) && notices == old(notices) + SubmitFailureNotices(thrown.value)
        && (o.BadRequestCallback? ==> formErrors == ErrorsFor(o.validationErrors, ErrorKeys))
        && (!o.BadRequestCallback? ==> formErrors == old(formErrors))
    {
      submissions := submissions + [Payload()];
      match thrown {
        case None =>
          formErrors := map[];
          notices := notices + [Listing.SuccessNotice(Properties().successMessage)];
          navigations := navigations + [Query.PushPath(Properties().successRedirect)];
        case Some(e) =>
          match HandleHttpRequestError(e, SubmitCallbacks) {
            case BadRequestCallback(validationErrors, _) =>
              formErrors := ErrorsFor(validationErrors, ErrorKeys);
            case Toast(text) =>
              notices := notices + [Listing.ErrorNotice(text)];
            case _ =>
          }
      }
    }
  }
}

=== FILE: src/services_list.dfy ===
/** The services list page: like the user lists, with a name search and a
    single category filter whose options are the fixed service categories,
    and whose rows show the label of their category. */
module ServicesList {
  import opened Wrappers
  import Text
  import Http
  import opened Query
  import opened Select
  import opened ErrorHandling
  import Tables
  import Listing
  import Constants

  const Pathname := "/dashboard/services/list"

  /** A listed service, as far as the page reads it: its id and the category
      text the row converts with unary `+`. */
  datatype ServiceRow = ServiceRow(id: int, category: string)

  /** What `selectedCategory` holds: `null` after clearing the filter, `''`
      when the query has no category, the options the query matched, or
      the option picked in the filter modal. */
  datatype CategorySelection =
    | NullSelection
    | Blank
    | Matches(options: seq<SelectOption<int>>)
    | Chosen(option: SelectOption<int>)

  /** The URL of a service-list request: page and limit, then name and
      category when truthy. */
  function ServiceListUrl(page: Num, limit: Num, name: QueryValue, category: QueryValue): string {
    Listing.ListUrl("service", Listing.ListParams(page, limit, [("name", name), ("category", category)], []))
  }

  /** The text the service-list builder starts from. */
  function ServiceListBase(page: Num, limit: Num): string {
    "/service?page=" + NumText(page) + "&limit=" + NumText(limit)
  }

  /** Building from that text gives the service-list URL. */
  lemma ServiceListBuilt(page: Num, limit: Num, fields: seq<Listing.SearchField>)
    ensures Listing.BuiltUrl(ServiceListBase(page, limit), fields, [])
         == Listing.ListUrl("service", Listing.ListParams(page, limit, fields, []))
  {
    assert "/" + "service" + "?page=" == "/service?page=";
    assert ServiceListBase(page, limit) == Listing.BaseText("service", page, limit);
    Listing.BuiltUrlIsListUrl("service", page, limit, fields, []);
  }

  /** The request URL the page builds: page and limit, then the name and the
      category, each when truthy. */
  method BuildRequestUrl(page: Num, limit: Num, name: QueryValue, category: QueryValue) returns (requestUrl: string)
    ensures requestUrl == ServiceListUrl(page, limit, name, category)
  {
    requestUrl := "/service?page=" + NumText(page) + "&limit=" + NumText(limit);
    assert requestUrl == ServiceListBase(page, limit);
    requestUrl := Listing.AppendIfTruthy(requestUrl, "name", name);
    requestUrl := Listing.AppendIfTruthy(requestUrl, "category", category);
    ghost var fields := [("name", name), ("category", category)];
    assert requestUrl == Listing.BuiltUrl(ServiceListBase(page, limit), fields, []) by {
      Listing.AppendTwo(ServiceListBase(page, limit), fields[0], fields[1]);
    }
    ServiceListBuilt(page, limit, fields);
  }

  /** The category a refetch passes from the `filterCategory` state: a
      missing state takes the parameter's default, the empty array, which
      is truthy and prints as nothing, so the URL gets `&category=`. */
  function CategoryArgument(filterCategory: Option<QueryValue>): (r: QueryValue)
    ensures filterCategory.None? ==> Truthy(Some(r)) && AsText(r) == ""
    ensures filterCategory.Some? ==> r == filterCategory.value
  {
    match filterCategory
    case None => Multi([])
    case Some(v) => v
  }

  /** `_.includes(queryValue, optionValue)` with a numeric option value:
      on a string it is a substring test on the number's text, on an array
      a strict comparison that a number never passes against a string. */
  predicate Includes(v: QueryValue, n: int) {
    match v
    case Single(s) => Text.Contains(s, Text.IntToString(n))
    case Multi(_) => false
  }

  /** The options the effect selects for a category query value. */
  function MatchingCategories(options: seq<SelectOption<int>>, v: QueryValue): (r: seq<SelectOption<int>>)
    ensures |r| <= |options|
    ensures forall o :: o in r <==> o in options && Includes(v, o.value)
  {
    if options == [] then []
    else if Includes(v, options[0].value) then [options[0]] + MatchingCategories(options[1..], v)
    else MatchingCategories(options[1..], v)
  }

  /** An array-valued category (the key repeated in the URL) selects no
      option at all. */
  lemma ArraySelectsNothing(options: seq<SelectOption<int>>, xs: seq<string>)
    ensures MatchingCategories(options, Multi(xs)) == []
  {
  }

  /** When the value includes no option's value, nothing is selected. */
  lemma {:induction false} MatchingNone(options: seq<SelectOption<int>>, v: QueryValue)
    requires forall k :: 0 <= k < |options| ==> !Includes(v, options[k].value)
    ensures MatchingCategories(options, v) == []
  {
    if options != [] {
      MatchingNone(options[1..], v);
    }
  }

  /** When the value includes exactly the `i`-th option's value, exactly
      that option is selected. */
  lemma {:induction false} MatchingExactlyOne(options: seq<SelectOption<int>>, v: QueryValue, i: nat)
    requires i < |options|
    requires forall k :: 0 <= k < |options| ==> (Includes(v, options[k].value) <==> k == i)
    ensures MatchingCategories(options, v) == [options[i]]
  {
    if i == 0 {
      MatchingNone(options[1..], v);
    } else {
      MatchingExactlyOne(options[1..], v, i - 1);
    }
  }

  /** The text of a one-digit number is that digit. */
  lemma OneDigitText(n: int)
    requires 0 <= n < 10
    ensures Text.IntToString(n) == [Text.DigitChar(n)]
  {
  }

  /** A one-digit text contains exactly its own digit. */
  lemma OneDigitContains(m: int, n: int)
    requires 0 <= m < 10 && 0 <= n < 10
    ensures Text.Contains(Text.IntToString(m), Text.IntToString(n)) <==> m == n
  {
    OneDigitText(m);
    OneDigitText(n);
    var s := Text.IntToString(m);
    if m == n {
      assert Text.OccursAt(s, s, 0);
    }
  }

  /** A filter for one service category, pushed as its id and read back by
      the effect, selects exactly that category's option (all ids have a
      single digit, so the substring test is exact). */
  lemma CategoryFilterRoundTrip(i: nat)
    requires i < 5
    ensures MatchingCategories(Constants.CategoryOptions(), FilterValue(Chosen(Constants.CategoryOptions()[i])).value)
         == [Constants.CategoryOptions()[i]]
  {
    var opts := Constants.CategoryOptions();
    Constants.ServiceCategoriesShape();
    var v := Single(Text.IntToString(i + 1));
    assert FilterValue(Chosen(opts[i])) == Some(v);
    forall k | 0 <= k < 5
      ensures Includes(v, opts[k].value) <==> k == i
    {
      OneDigitContains(i + 1, k + 1);
    }
    MatchingExactlyOne(opts, v, i);
  }

  /** The category value a filter pushes: the picked option's id; the
      `value` of a non-option selection is undefined, which the query
      prints as empty; a null selection throws before anything is pushed. */
  function FilterValue(selection: CategorySelection): (r: Option<QueryValue>)
    ensures r.None? <==> selection.NullSelection?
    ensures selection.Chosen? ==> r == Some(Single(Text.IntToString(selection.option.value)))
    ensures selection.Blank? || selection.Matches? ==> r == Some(Single(""))
  {
    match selection
    case NullSelection => None
    case Blank => Some(Single(""))
    case Matches(_) => Some(Single(""))
    case Chosen(o) => Some(Single(Text.IntToString(o.value)))
  }

  /** The label a row shows for its category: the caption of the option
      whose value equals the category converted to a number, if any. */
  function CategoryLabel(options: seq<SelectOption<int>>, category: string): (r: Option<string>)
    ensures r.Some? <==> ParseNumber(category).Finite? && exists i :: 0 <= i < |options| && options[i].value == ParseNumber(category).i
    ensures r.Some? ==> exists i :: 0 <= i < |options| && options[i].value == ParseNumber(category).i && options[i].caption == r.value
  {
    match ParseNumber(category)
    case NaN => None
    case Finite(n) =>
      match FindByValue(options, n)
      case None => None
      case Some(o) => Some(o.caption)
  }

  /** A row whose category is the id of service category `i` shows that
      category's name. */
  lemma CategoryLabelOfId(i: nat)
    requires i < 5
    ensures CategoryLabel(Constants.CategoryOptions(), Text.IntToString(i + 1)) == Some(Constants.ServiceCategories[i].name)
  {
    ParsePrinted(i + 1);
    Constants.CategoryLookupUnique(i);
  }

  /** The query a search pushes as an encoded path: page 1 and the name
      draft, and the filter's category only when it is truthy. */
  function SearchEncodedQuery(q: RouterQuery, name: QueryValue, filterCategory: Option<QueryValue>): (r: RouterQuery)
    ensures Get(r, "page") == Some(Single("1")) && Get(r, "name") == Some(name)
    ensures Truthy(filterCategory) ==> Get(r, "category") == filterCategory
    ensures !Truthy(filterCategory) ==> Get(r, "category") == Get(q, "category")
    ensures AgreeExcept(q, r, {"page", "name", "category"})
  {
    var set1 := SetKeys(q, map["page" := Single("1"), "name" := name]);
    if Truthy(filterCategory) then SetKeys(set1, map["category" := filterCategory.value]) else set1
  }

  /** The query a search then pushes as an object: page 1, the name draft
      and the filter's category, an undefined one printing as empty. */
  function SearchQuery(q: RouterQuery, name: QueryValue, filterCategory: Option<QueryValue>): (r: RouterQuery)
    ensures Get(r, "page") == Some(Single("1")) && Get(r, "name") == Some(name)
    ensures Get(r, "category") == Some(filterCategory.GetOr(Single("")))
    ensures AgreeExcept(q, r, {"page", "name", "category"})
  {
    SetKeys(q, map["page" := Single("1"), "name" := name, "category" := filterCategory.GetOr(Single(""))])
  }

  class ServicesListPage {
    var services: seq<ServiceRow>
    var isLoading: bool
    var qName: QueryValue
    var optionCategories: seq<SelectOption<int>>
    var filterCategory: Option<QueryValue>
    var selectedCategory: CategorySelection
    var pagination: Tables.Pagination
    var requests: seq<Http.Request>
    var navigations: seq<Navigation>
    var notices: seq<Listing.Notice>

    /** The initial state, read from the router query of the first render;
        the selection starts as an empty array. */
    constructor (query: RouterQuery)
      ensures services == [] && isLoading
      ensures qName == Get(query, "name").GetOr(Single(""))
      ensures optionCategories == [] && filterCategory == Get(query, "category") && selectedCategory == Matches([])
      ensures pagination == Listing.InitialPagination
      ensures requests == [] && navigations == [] && notices == []
    {
      services := [];
      isLoading := true;
      qName := Get(query, "name").GetOr(Single(""));
      optionCategories := [];
      filterCategory := Get(query, "category");
      selectedCategory := Matches([]);
      pagination := Listing.InitialPagination;
      requests := [];
      navigations := [];
      notices := [];
    }

    /** `fetchCategories`: the options are the service categories, value id
        and caption name; nothing is requested. */
    method FetchCategories()
      modifies this`optionCategories
      ensures optionCategories == Constants.CategoryOptions()
    {
      optionCategories := Constants.CategoryOptions();
    }

    /** `fetchServices`: builds the URL, sends it and stores the reply; a
        failure is handed to the error handler. */
    method FetchServices(page: Num, limit: Num, name: QueryValue, category: QueryValue,
                         reply: Result<Listing.ListReply<ServiceRow>, HttpError>)
      modifies this`requests, this`notices, this`pagination, this`services
      ensures requests == old(requests) + [Http.Get(ServiceListUrl(page, limit, name, category))]
      ensures reply.Success? ==>
        pagination == reply.value.pagination && services == reply.value.rows && notices == old(notices)
      ensures reply.Failure? ==>
        notices == old(notices) + Listing.FetchFailureNotices(reply.error)
        && pagination == old(pagination) && services == old(services)
    {
      var requestUrl := BuildRequestUrl(page, limit, name, category);
      requests := requests + [Http.Get(requestUrl)];
      match reply {
        case Success(data) =>
          pagination := data.pagination;
          services := data.rows;
        case Failure(e) =>
          notices := notices + Listing.FetchFailureNotices(e);
      }
    }

    /** The effect's reading of the query: a truthy name becomes the draft;
        a truthy category becomes the filter and selects the options it
        includes, otherwise the selection becomes `''` and the filter is
        left as it was. */
    method ReadQuery(query: RouterQuery)
      modifies this`qName, this`filterCategory, this`selectedCategory
      ensures qName == (if Truthy(Get(query, "name")) then query["name"] else old(qName))
      ensures Truthy(Get(query, "category")) ==>
        filterCategory == Some(query["category"])
        && selectedCategory == Matches(MatchingCategories(optionCategories, query["category"]))
      ensures !Truthy(Get(query, "category")) ==> filterCategory == old(filterCategory) && selectedCategory == Blank
    {
      if Truthy(Get(query, "name")) {
        qName := query["name"];
      }
      if Truthy(Get(query, "category")) {
        var queryFilterCategory := query["category"];
        filterCategory := Some(queryFilterCategory);
        selectedCategory := Matches(MatchingCategories(optionCategories, queryFilterCategory));
      } else {
        selectedCategory := Blank;
      }
    }

    /** The effect's fetch: only when both page and limit are present is
        the list fetched, and then the loading flag is cleared. */
    method FetchForQuery(query: RouterQuery, reply: Result<Listing.ListReply<ServiceRow>, HttpError>)
      modifies this`requests, this`notices, this`pagination, this`services, this`isLoading
      ensures Truthy(Get(query, "page")) && Truthy(Get(query, "limit")) ==>
        requests == old(requests) + [Http.Get(ServiceListUrl(ToNumber(query["page"]), ToNumber(query["limit"]),
          Listing.SearchArg(Get(query, "name")), Listing.SearchArg(Get(query, "category"))))]
        && !isLoading
        && (reply.Success? ==> pagination == reply.value.pagination && services == reply.value.rows)
        && notices == old(notices) + (if reply.Failure? then Listing.FetchFailureNotices(reply.error) else [])
      ensures !(Truthy(Get(query, "page")) && Truthy(Get(query, "limit"))) ==>
        requests == old(requests) && isLoading == old(isLoading) && notices == old(notices)
        && pagination == old(pagination) && services == old(services)
    {
      var page := Get(query, "page");
      var limit := Get(query, "limit");
      if Truthy(page) && Truthy(limit) {
        FetchServices(ToNumber(page.value), ToNumber(limit.value), Listing.SearchArg(Get(query, "name")),
          Listing.SearchArg(Get(query, "category")), reply);
        isLoading := false;
      }
    }

    /** The effect on a new router query (or new options): nothing until
        the options are loaded; then the query is read and the list
        fetched. */
    method OnQueryChange(query: RouterQuery, reply: Result<Listing.ListReply<ServiceRow>, HttpError>)
      modifies this`qName, this`filterCategory, this`selectedCategory
      modifies this`requests, this`notices, this`pagination, this`services, this`isLoading
      ensures old(optionCategories) == [] ==>
        qName == old(qName) && filterCategory == old(filterCategory) && selectedCategory == old(selectedCategory)
        && requests == old(requests) && isLoading == old(isLoading) && notices == old(notices)
        && pagination == old(pagination) && services == old(services)
      ensures old(optionCategories) != [] ==>
        qName == (if Truthy(Get(query, "name")) then query["name"] else old(qName))
        && (Truthy(Get(query, "category")) ==>
              filterCategory == Some(query["category"])
              && selectedCategory == Matches(MatchingCategories(optionCategories, query["category"])))
        && (!Truthy(Get(query, "category")) ==> filterCategory == old(filterCategory) && selectedCategory == Blank)
      ensures old(optionCategories) != [] && Truthy(Get(query, "page")) && Truthy(Get(query, "limit")) ==>
        requests == old(requests) + [Http.Get(ServiceListUrl(ToNumber(query["page"]), ToNumber(query["limit"]),
          Listing.SearchArg(Get(query, "name")), Listing.SearchArg(Get(query, "category"))))]
        && !isLoading
      ensures old(optionCategories) != [] && !(Truthy(Get(query, "page")) && Truthy(Get(query, "limit"))) ==>
        requests == old(requests) && isLoading == old(isLoading)
    {
      if |optionCategories| > 0 {
        ReadQuery(query);
        FetchForQuery(query, reply);
      }
    }

    /** `sendDeleteRequest`: deletes the service; on success shows the
        notice and refetches with the current pagination, name draft and
        filter (a missing filter sending `&category=`); on failure shows
        the delete's failure notices.
        The services and pagination become the refetch's when it succeeds,
        and are kept otherwise. */
    method SendDeleteRequest(serviceId: int, deleteReply: Result<bool, HttpError>,
                             refetchReply: Result<Listing.ListReply<ServiceRow>, HttpError>)
      modifies this`requests, this`notices, this`pagination, this`services
      ensures deleteReply.Failure? ==>
        requests == old(requests) + [Http.Delete("/service/" + Text.IntToString(serviceId))]
        && notices == old(notices) + Listing.DeleteFailureNotices(deleteReply.error)
        && pagination == old(pagination) && services == old(services)
      ensures deleteReply.Success? ==>
        requests == old(requests) + [Http.Delete("/service/" + Text.IntToString(serviceId)),
          Http.Get(ServiceListUrl(Finite(old(pagination).page), Finite(old(pagination).limit),
            qName, CategoryArgument(filterCategory)))]
        && notices == old(notices) + [Listing.SuccessNotice("Service successfully deleted!")]
           + (if refetchReply.Failure? then Listing.FetchFailureNotices(refetchReply.error) else [])
      ensures deleteReply.Success? && refetchReply.Success? ==>
        pagination == refetchReply.value.pagination && services == refetchReply.value.rows
      ensures !(deleteReply.Success? && refetchReply.Success?) ==> pagination == old(pagination) && services == old(services)
    {
      requests := requests + [Http.Delete("/service/" + Text.IntToString(serviceId))];
      match deleteReply {
        case Success(_) =>
          notices := notices + [Listing.SuccessNotice("Service successfully deleted!")];
          FetchServices(Finite(pagination.page), Finite(pagination.limit), qName, CategoryArgument(filterCategory), refetchReply);
        case Failure(e) =>
          notices := notices + Listing.DeleteFailureNotices(e);
      }
    }

    /** `goToPage`: pushes the current query with only the page replaced. */
    method GoToPage(query: RouterQuery, page: int)
      modifies this`navigations
      ensures navigations == old(navigations) + [Push(Pathname, GoToPageQuery(query, page))]
    {
      navigations := navigations + [Push(Pathname, GoToPageQuery(query, page))];
    }

    /** `handleOnSearch`: the encoded path (with the category only when the
        filter is truthy), then the object form (with it always). */
    method HandleOnSearch(query: RouterQuery)
      modifies this`navigations
      ensures navigations == old(navigations) + [
        PushEncoded(Pathname, SearchEncodedQuery(query, qName, filterCategory)),
        Push(Pathname, SearchQuery(query, qName, filterCategory))]
    {
      var encoded := SetKeys(query, map["page" := Single("1"), "name" := qName]);
      if Truthy(filterCategory) {
        encoded := SetKeys(encoded, map["category" := filterCategory.value]);
      }
      navigations := navigations + [PushEncoded(Pathname, encoded)];
      navigations := navigations + [Push(Pathname, SearchQuery(query, qName, filterCategory))];
    }

    /** `handleOnClearSearch`: empties the name draft and pushes page 1
        without `name`. */
    method HandleOnClearSearch(query: RouterQuery)
      modifies this`navigations, this`qName
      ensures qName == Single("")
      ensures navigations == old(navigations) + [Push(Pathname, ClearKeysQuery(query, {"name"}))]
    {
      qName := Single("");
      var cleared := query["page" := Single("1")] - {"name"};
      navigations := navigations + [Push(Pathname, cleared)];
    }

    /** The filter modal's change handler: the picked option, or `null`
        when the select is cleared. */
    method HandleOnChange(option: Option<SelectOption<int>>)
      modifies this`selectedCategory
      ensures selectedCategory == (if option.Some? then Chosen(option.value) else NullSelection)
    {
      if option.Some? {
        selectedCategory := Chosen(option.value);
      } else {
        selectedCategory := NullSelection;
      }
    }

    /** `handleOnFilter`: pushes page 1 and the selection's value; with a
        null selection reading `.value` throws and nothing is pushed. */
    method HandleOnFilter(query: RouterQuery)
      modifies this`navigations
      ensures selectedCategory.NullSelection? ==> navigations == old(navigations)
      ensures !selectedCategory.NullSelection? ==>
        navigations == old(navigations) + [PushEncoded(Pathname,
          SetKeys(query, map["page" := Single("1"), "category" := FilterValue(selectedCategory).value]))]
    {
      var category := FilterValue(selectedCategory);
      if category.Some? {
        navigations := navigations + [PushEncoded(Pathname, SetKeys(query, map["page" := Single("1"), "category" := category.value]))];
      }
    }

    /** `handleOnClearFilter`: sets the selection to `null` and pushes the
        query without `category`, the page unchanged. */
    method HandleOnClearFilter(query: RouterQuery)
      modifies this`navigations, this`selectedCategory
      ensures selectedCategory == NullSelection
      ensures navigations == old(navigations) + [PushEncoded(Pathname, query - {"category"})]
    {
      selectedCategory := NullSelection;
      navigations := navigations + [PushEncoded(Pathname, query - {"category"})];
    }
  }
}

=== FILE: src/store_settings.dfy ===
/** The health-service details page: the store record hydrates the form
    and the address selects, and an update sends the form as multipart data
    and maps a 400 reply onto the name, contact number and email errors. */
module StoreSettings {
  import opened Wrappers
  import Http
  import opened Select
  import opened ErrorHandling
  import Listing
  import Query
  import opened Forms
  import Address

  const PagePath := "/dashboard/settings/health-service-details"
  const UpdatedText := "Store successfully updated."

  /** The `store` of `GET /store`; a missing text field reads as `''`. */
  datatype StoreRecord = StoreRecord(
    logo: string, address1: string, address2: string, address: Address.StoredAddress,
    name: string, contactNo: string, email: string)

  /** What an update reads from the page. */
  datatype StoreDraft = StoreDraft(
    name: string, contactNo: string, email: string, address1: string, address2: string,
    province: Option<SelectOption<string>>, municipality: Option<SelectOption<string>>,
    baranggay: Option<SelectOption<string>>, logo: Photo)

  type Entry = (string, Http.FormValue)

  /** The update's `FormData` up to the logo: the five texts and the three
      selected values, in that order. `None` when a select is empty, because
      reading `.value` of `null` throws. */
  function TextEntries(d: StoreDraft): (r: Option<seq<Entry>>)
    ensures r.Some? <==> d.province.Some? && d.municipality.Some? && d.baranggay.Some?
    ensures r.Some? ==> |r.value| == 8
  {
    if d.province.Some? && d.municipality.Some? && d.baranggay.Some? then
      Some([("name", Http.TextValue(d.name)), ("contactNo", Http.TextValue(d.contactNo)),
            ("email", Http.TextValue(d.email)), ("address1", Http.TextValue(d.address1)),
            ("address2", Http.TextValue(d.address2)), ("province", Http.TextValue(d.province.value.value)),
            ("municipality", Http.TextValue(d.municipality.value.value)), ("baranggay", Http.TextValue(d.baranggay.value.value))])
    else None
  }

  /** Whether `logo.path` is set: only a chosen file has a path. */
  predicate HasPath(logo: Photo) {
    logo.Upload? && logo.path != ""
  }

  /** The update form as written: reading `logo.path` of a `null` logo
      throws as well. */
  function UpdateFormAsWritten(d: StoreDraft): (r: Option<seq<Entry>>)
    ensures r.Some? ==> TextEntries(d).Some? && !d.logo.NullPhoto?
  {
    match TextEntries(d)
    case None => None
    case Some(es) =>
      if d.logo.NullPhoto? then None
      else if HasPath(d.logo) then Some(es + [("logo", Http.FileValue(d.logo.path))])
      else Some(es)
  }

  /** The update form with the logo guarded against `null`: the logo entry
      is added after the others exactly when a file was chosen. */
  function UpdateForm(d: StoreDraft): (r: Option<seq<Entry>>)
    ensures r.Some? <==> TextEntries(d).Some?
    ensures r.Some? ==> |r.value| == (if HasPath(d.logo) then 9 else 8) && r.value[..8] == TextEntries(d).value
    ensures r.Some? && HasPath(d.logo) ==> r.value[8] == ("logo", PhotoValue(d.logo))
  {
    match TextEntries(d)
    case None => None
    case Some(es) =>
      if HasPath(d.logo) then Some(es + [("logo", Http.FileValue(d.logo.path))]) else Some(es)
  }

  /** The two agree on every draft whose logo is not `null`. */
  lemma AsWrittenAgrees(d: StoreDraft)
    requires !d.logo.NullPhoto?
    ensures UpdateFormAsWritten(d) == UpdateForm(d)
  {
  }

  /** A store saved without a logo, and whose admin does not pick one, can
      never be updated as written: the guard throws before the request is
      built, and the handler swallows the error. The corrected form is sent,
      without a logo entry. */
  lemma NullLogoBlocksUpdate(d: StoreDraft)
    requires d.province.Some? && d.municipality.Some? && d.baranggay.Some?
    requires d.logo == NullPhoto
    ensures UpdateFormAsWritten(d).None?
    ensures UpdateForm(d).Some? && Http.FormGet(UpdateForm(d).value, "logo").None?
  {
    var es := UpdateForm(d).value;
    assert es == TextEntries(d).value;
    forall e | e in es
      ensures e.0 != "logo"
    {
      var i :| 0 <= i < |es| && es[i] == e;
    }
  }

  /** Reading the sent form back gives each field of the draft: the five
      texts, the three selected values, and the chosen logo file exactly
      when one was chosen. */
  lemma UpdateFormReadBack(d: StoreDraft)
    requires UpdateForm(d).Some?
    ensures var es := UpdateForm(d).value;
      Http.FormGet(es, "name") == Some(Http.TextValue(d.name))
      && Http.FormGet(es, "contactNo") == Some(Http.TextValue(d.contactNo))
      && Http.FormGet(es, "email") == Some(Http.TextValue(d.email))
      && Http.FormGet(es, "address1") == Some(Http.TextValue(d.address1))
      && Http.FormGet(es, "address2") == Some(Http.TextValue(d.address2))
    ensures var es := UpdateForm(d).value;
      Http.FormGet(es, "province") == Some(Http.TextValue(Address.SelectedValue(d.province)))
      && Http.FormGet(es, "municipality") == Some(Http.TextValue(Address.SelectedValue(d.municipality)))
      && Http.FormGet(es, "baranggay") == Some(Http.TextValue(Address.SelectedValue(d.baranggay)))
    ensures Http.FormGet(UpdateForm(d).value, "logo") == (if HasPath(d.logo) then Some(PhotoValue(d.logo)) else None)
  {
    var es := UpdateForm(d).value;
    TextKeys(d, es);
    TextsReadBack(es, d.name, d.contactNo, d.email, d.address1, d.address2);
    SelectsReadBack(es, d.province.value.value, d.municipality.value.value, d.baranggay.value.value);
    if HasPath(d.logo) {
      LogoReadBack(es, es[8]);
    } else {
      NoLogo(es);
    }
  }

  /** Without a logo entry, `get` finds no logo. */
  lemma NoLogo(es: seq<Entry>)
    requires |es| == 8
    requires es[0].0 == "name" && es[1].0 == "contactNo" && es[2].0 == "email" && es[3].0 == "address1" && es[4].0 == "address2"
    requires es[5].0 == "province" && es[6].0 == "municipality" && es[7].0 == "baranggay"
    ensures Http.FormGet(es, "logo").None?
  {
    forall e | e in es
      ensures e.0 != "logo"
    {
      var i :| 0 <= i < 8 && es[i] == e;
      assert e.0[0] != 'l';
    }
  }

  /** The first eight entries, one by one. */
  lemma TextKeys(d: StoreDraft, es: seq<Entry>)
    requires TextEntries(d).Some? && |es| >= 8 && es[..8] == TextEntries(d).value
    ensures es[0] == ("name", Http.TextValue(d.name)) && es[1] == ("contactNo", Http.TextValue(d.contactNo))
    ensures es[2] == ("email", Http.TextValue(d.email)) && es[3] == ("address1", Http.TextValue(d.address1))
    ensures es[4] == ("address2", Http.TextValue(d.address2))
    ensures es[5] == ("province", Http.TextValue(d.province.value.value))
    ensures es[6] == ("municipality", Http.TextValue(d.municipality.value.value))
    ensures es[7] == ("baranggay", Http.TextValue(d.baranggay.value.value))
  {
    var t := TextEntries(d).value;
    assert es[0] == t[0] && es[1] == t[1] && es[2] == t[2] && es[3] == t[3];
    assert es[4] == t[4] && es[5] == t[5] && es[6] == t[6] && es[7] == t[7];
  }

  lemma TextsReadBack(es: seq<Entry>, name: string, contactNo: string, email: string, address1: string, address2: string)
    requires |es| >= 5
    requires es[0] == ("name", Http.TextValue(name)) && es[1] == ("contactNo", Http.TextValue(contactNo))
    requires es[2] == ("email", Http.TextValue(email)) && es[3] == ("address1", Http.TextValue(address1))
    requires es[4] == ("address2", Http.TextValue(address2))
    ensures Http.FormGet(es, "name") == Some(Http.TextValue(name))
    ensures Http.FormGet(es, "contactNo") == Some(Http.TextValue(contactNo))
    ensures Http.FormGet(es, "email") == Some(Http.TextValue(email))
    ensures Http.FormGet(es, "address1") == Some(Http.TextValue(address1))
    ensures Http.FormGet(es, "address2") == Some(Http.TextValue(address2))
  {
    Http.FormGetAt(es, 0);
    Http.FormGetAt(es, 1);
    assert "name" != "email" && "contactNo" != "email";
    Http.FormGetAt(es, 2);
    assert "name" != "address1" && "contactNo" != "address1" && "email" != "address1";
    Http.FormGetAt(es, 3);
    assert "name" != "address2" && "contactNo" != "address2" && "email" != "address2" && "address1" != "address2";
    Http.FormGetAt(es, 4);
  }

  lemma SelectsReadBack(es: seq<Entry>, province: string, municipality: string, baranggay: string)
    requires |es| >= 8
    requires es[0].0 == "name" && es[1].0 == "contactNo" && es[2].0 == "email" && es[3].0 == "address1" && es[4].0 == "address2"
    requires es[5] == ("province", Http.TextValue(province))
    requires es[6] == ("municipality", Http.TextValue(municipality))
    requires es[7] == ("baranggay", Http.TextValue(baranggay))
    ensures Http.FormGet(es, "province") == Some(Http.TextValue(province))
    ensures Http.FormGet(es, "municipality") == Some(Http.TextValue(municipality))
    ensures Http.FormGet(es, "baranggay") == Some(Http.TextValue(baranggay))
  {
    ProvinceReadBack(es);
    MunicipalityReadBack(es);
    BaranggayReadBack(es);
  }

  lemma ProvinceReadBack(es: seq<Entry>)
    requires |es| >= 8
    requires es[0].0 == "name" && es[1].0 == "contactNo" && es[2].0 == "email" && es[3].0 == "address1" && es[4].0 == "address2"
    requires es[5].0 == "province"
    ensures Http.FormGet(es, "province") == Some(es[5].1)
  {
    assert "name" != "province" && "contactNo" != "province" && "email" != "province";
    assert "address1" != "province" && "address2" != "province";
    Http.FormGetAt(es, 5);
  }

  lemma MunicipalityReadBack(es: seq<Entry>)
    requires |es| >= 8
    requires es[0].0 == "name" && es[1].0 == "contactNo" && es[2].0 == "email" && es[3].0 == "address1" && es[4].0 == "address2"
    requires es[5].0 == "province" && es[6].0 == "municipality"
    ensures Http.FormGet(es, "municipality") == Some(es[6].1)
  {
    assert "name" != "municipality" && "contactNo" != "municipality" && "email" != "municipality";
    assert "address1" != "municipality" && "address2" != "municipality" && "province" != "municipality";
    Http.FormGetAt(es, 6);
  }

  lemma BaranggayReadBack(es: seq<Entry>)
    requires |es| >= 8
    requires es[0].0 == "name" && es[1].0 == "contactNo" && es[2].0 == "email" && es[3].0 == "address1" && es[4].0 == "address2"
    requires es[5].0 == "province" && es[6].0 == "municipality" && es[7].0 == "baranggay"
    ensures Http.FormGet(es, "baranggay") == Some(es[7].1)
  {
    assert "name" != "baranggay" && "contactNo" != "baranggay" && "email" != "baranggay";
    assert "address1" != "baranggay" && "address2" != "baranggay" && "province" != "baranggay";
    assert "municipality" != "baranggay";
    Http.FormGetAt(es, 7);
  }

  /** The logo entry after the eight others is what `get` reads. */
  lemma LogoReadBack(es: seq<Entry>, logo: Entry)
    requires |es| == 9 && es[8] == logo && logo.0 == "logo"
    requires es[0].0 == "name" && es[1].0 == "contactNo" && es[2].0 == "email" && es[3].0 == "address1" && es[4].0 == "address2"
    requires es[5].0 == "province" && es[6].0 == "municipality" && es[7].0 == "baranggay"
    ensures Http.FormGet(es, "logo") == Some(logo.1)
  {
    assert "name" != "logo" && "contactNo" != "logo" && "email" != "logo" && "address1" != "logo";
    assert "address2" != "logo" && "province" != "logo" && "municipality" != "logo" && "baranggay" != "logo";
    Http.FormGetAt(es, 8);
  }

  /** The page's state. */
  class StoreSettingsPage {
    const address: Address.AddressSelector
    var address1: string
    var address2: string
    var logo: Photo
    var name: string
    var nameError: ErrorSlot
    var contactNo: string
    var contactNoError: ErrorSlot
    var email: string
    var emailError: ErrorSlot
    var isLoading: bool
    var requests: seq<Http.Request>
    var navigations: seq<Query.Navigation>
    var notices: seq<Listing.Notice>

    /** Empty texts and selects, a `null` logo, cleared errors, loading. */
    constructor (g: Address.Gazetteer)
      ensures fresh(address) && address.gazetteer == g
      ensures address.province.None? && address.municipality.None? && address.baranggay.None?
      ensures address.provinceOptions == [] && address.municipalityOptions == [] && address.baranggayOptions == []
      ensures address1 == "" && address2 == "" && name == "" && contactNo == "" && email == ""
      ensures logo == NullPhoto
      ensures nameError == Cleared && contactNoError == Cleared && emailError == Cleared
      ensures isLoading && requests == [] && navigations == [] && notices == []
    {
      address := new Address.AddressSelector(g);
      address1 := "";
      address2 := "";
      logo := NullPhoto;
      name := "";
      nameError := Cleared;
      contactNo := "";
      contactNoError := Cleared;
      email := "";
      emailError := Cleared;
      isLoading := true;
      requests := [];
      navigations := [];
      notices := [];
    }

    /** What an update reads: the page's texts and logo, and the address
        selector's three selections. */
    function Draft(): (d: StoreDraft)
      reads this, address
      ensures d.name == name && d.contactNo == contactNo && d.email == email
      ensures d.address1 == address1 && d.address2 == address2 && d.logo == logo
      ensures d.province == address.province && d.municipality == address.municipality && d.baranggay == address.baranggay
    {
      StoreDraft(name, contactNo, email, address1, address2,
        address.province, address.municipality, address.baranggay, logo)
    }

    /** `fetchStoreData`: `GET /store`; a stored logo becomes a preview of
        the fetched file (`logoUrl`); the texts and the address are restored
        from the record. A `null` store changes nothing; a failed request is
        not caught. */
    method FetchStoreData(reply: Result<Option<StoreRecord>, HttpError>, logoUrl: string)
      modifies this`requests, this`logo, this`address1, this`address2, this`name, this`contactNo, this`email, address
      ensures requests == old(requests) + [Http.Get("/store")]
      ensures reply.Success? && reply.value.Some? ==>
        var store := reply.value.value;
        logo == StoredPhoto(store.logo, logoUrl, old(logo))
        && address1 == store.address1 && address2 == store.address2
        && name == store.name && contactNo == store.contactNo && email == store.email
        && address.province ==
             (if store.address.province.Some?
              then Some(SelectOption(store.address.province.value.provinceId, store.address.province.value.name))
              else old(address.province))
        && address.municipality ==
             (if store.address.municipality.Some?
              then Some(SelectOption(store.address.municipality.value.municipalityId, store.address.municipality.value.name))
              else old(address.municipality))
        && address.baranggay ==
             (if store.address.baranggay.Some?
              then Some(SelectOption(store.address.baranggay.value.baranggayId, store.address.baranggay.value.name))
              else old(address.baranggay))
        && (old(address.province).None? && old(address.municipality).None? && Address.Nested(store.address) ==> address.Cascaded())
      ensures !(reply.Success? && reply.value.Some?) ==>
        logo == old(logo) && address1 == old(address1) && address2 == old(address2)
        && name == old(name) && contactNo == old(contactNo) && email == old(email)
        && address.province == old(address.province) && address.municipality == old(address.municipality)
        && address.baranggay == old(address.baranggay)
        && address.municipalityOptions == old(address.municipalityOptions)
        && address.baranggayOptions == old(address.baranggayOptions)
      ensures reply.Success? && reply.value.Some? && reply.value.value.address.province.Some? ==>
        address.municipalityOptions ==
          Address.MunicipalityOptions(address.gazetteer, reply.value.value.address.province.value.provinceId)
      ensures reply.Success? && reply.value.Some? && reply.value.value.address.municipality.Some? ==>
        var m := reply.value.value.address.municipality.value;
        address.baranggayOptions == Address.BaranggayOptions(address.gazetteer, m.provinceId, m.municipalityId)
      ensures !(reply.Success? && reply.value.Some? && reply.value.value.address.province.Some?) ==>
        address.municipalityOptions == old(address.municipalityOptions)
      ensures !(reply.Success? && reply.value.Some? && reply.value.value.address.municipality.Some?) ==>
        address.baranggayOptions == old(address.baranggayOptions)
      ensures address.provinceOptions == old(address.provinceOptions)
    {
      requests := requests + [Http.Get("/store")];
      if reply.Success? && reply.value.Some? {
        var store := reply.value.value;
        logo := StoredPhoto(store.logo, logoUrl, logo);
        address1 := store.address1;
        address2 := store.address2;
        address.Hydrate(store.address);
        name := store.name;
        contactNo := store.contactNo;
        email := store.email;
      }
    }

    /** The mount effect: fetch the store, then offer every province and
        stop loading. A failed fetch ends the effect before either. The
        municipality and baranggay options are those of the stored levels,
        and are kept where no level is stored. */
    method GetData(reply: Result<Option<StoreRecord>, HttpError>, logoUrl: string)
      modifies this`requests, this`logo, this`address1, this`address2, this`name, this`contactNo, this`email, this`isLoading, address
      ensures requests == old(requests) + [Http.Get("/store")]
      ensures reply.Success? && reply.value.Some? ==>
        var store := reply.value.value;
        logo == StoredPhoto(store.logo, logoUrl, old(logo))
        && address1 == store.address1 && address2 == store.address2
        && name == store.name && contactNo == store.contactNo && email == store.email
        && address.province ==
             (if store.address.province.Some?
              then Some(SelectOption(store.address.province.value.provinceId, store.address.province.value.name))
              else old(address.province))
        && address.municipality ==
             (if store.address.municipality.Some?
              then Some(SelectOption(store.address.municipality.value.municipalityId, store.address.municipality.value.name))
              else old(address.municipality))
        && address.baranggay ==
             (if store.address.baranggay.Some?
              then Some(SelectOption(store.address.baranggay.value.baranggayId, store.address.baranggay.value.name))
              else old(address.baranggay))
      ensures !(reply.Success? && reply.value.Some?) ==>
        logo == old(logo) && address1 == old(address1) && address2 == old(address2)
        && name == old(name) && contactNo == old(contactNo) && email == old(email)
        && address.province == old(address.province) && address.municipality == old(address.municipality)
        && address.baranggay == old(address.baranggay)
      ensures reply.Success? && reply.value.Some? && reply.value.value.address.province.Some? ==>
        address.municipalityOptions ==
          Address.MunicipalityOptions(address.gazetteer, reply.value.value.address.province.value.provinceId)
      ensures reply.Success? && reply.value.Some? && reply.value.value.address.municipality.Some? ==>
        var m := reply.value.value.address.municipality.value;
        address.baranggayOptions == Address.BaranggayOptions(address.gazetteer, m.provinceId, m.municipalityId)
      ensures !(reply.Success? && reply.value.Some? && reply.value.value.address.province.Some?) ==>
        address.municipalityOptions == old(address.municipalityOptions)
      ensures !(reply.Success? && reply.value.Some? && reply.value.value.address.municipality.Some?) ==>
        address.baranggayOptions == old(address.baranggayOptions)
      ensures reply.Success? && reply.value.Some? ==>
        (old(address.province).None? && old(address.municipality).None? && Address.Nested(reply.value.value.address) ==> address.Cascaded())
      ensures reply.Success? ==> address.provinceOptions == Address.ProvinceOptions(address.gazetteer) && !isLoading
      ensures reply.Failure? ==> address.provinceOptions == old(address.provinceOptions) && isLoading == old(isLoading)
    {
      FetchStoreData(reply, logoUrl);
      if reply.Success? {
        address.LoadProvinceOptions();
        isLoading := false;
      }
    }

    /** `resetErrors`: exactly the name, contact number and email errors are
        cleared. */
    method ResetErrors()
      modifies this`nameError, this`contactNoError, this`emailError
      ensures nameError == Cleared && contactNoError == Cleared && emailError == Cleared
    {
      nameError := Cleared;
      contactNoError := Cleared;
      emailError := Cleared;
    }

    /** The update's `FormData`, appended field by field as written: an
        empty select or a `null` logo throws before the form is complete. */
    method BuildUpdateForm() returns (form: Option<seq<Entry>>)
      ensures form == UpdateFormAsWritten(Draft())
    {
      var entries: seq<Entry> := [];
      entries := entries + [("name", Http.TextValue(name))];
      entries := entries + [("contactNo", Http.TextValue(contactNo))];
      entries := entries + [("email", Http.TextValue(email))];
      entries := entries + [("address1", Http.TextValue(address1))];
      entries := entries + [("address2", Http.TextValue(address2))];
      if address.province.None? || address.municipality.None? || address.baranggay.None? {
        return None;
      }
      entries := entries + [("province", Http.TextValue(address.province.value.value))];
      entries := entries + [("municipality", Http.TextValue(address.municipality.value.value))];
      entries := entries + [("baranggay", Http.TextValue(address.baranggay.value.value))];
      assert entries == TextEntries(Draft()).value;
      if logo.NullPhoto? {
        return None;
      }
      if HasPath(logo) {
        entries := entries + [("logo", Http.FileValue(logo.path))];
      }
      return Some(entries);
    }

    /** The error handler's side of a failed update: a 400 reply sets the
        name, email and contact number errors (each the server's message or
        `null`); the handler's notice is shown. */
    method HandleUpdateFailure(e: HttpError)
      modifies this`nameError, this`contactNoError, this`emailError, this`notices
      ensures var o := HandleHttpRequestError(e, SubmitCallbacks);
        (o.BadRequestCallback? ==>
          nameError == ErrorFor(o.validationErrors, "name")
          && emailError == ErrorFor(o.validationErrors, "email")
          && contactNoError == ErrorFor(o.validationErrors, "contactNo"))
        && (!o.BadRequestCallback? ==>
          nameError == old(nameError) && emailError == old(emailError) && contactNoError == old(contactNoError))
      ensures notices == old(notices) + SubmitFailureNotices(e)
    {
      match HandleHttpRequestError(e, SubmitCallbacks) {
        case BadRequestCallback(validationErrors, _) =>
          nameError := ErrorFor(validationErrors, "name");
          emailError := ErrorFor(validationErrors, "email");
          contactNoError := ErrorFor(validationErrors, "contactNo");
        case Toast(text) =>
          notices := notices + [Listing.ErrorNotice(text)];
        case _ =>
      }
    }

    /** Sending a built form: `PATCH /store` carries it; a reply with
        status true clears the errors, shows the notice and reloads the
        page; a reply with status false throws an ordinary error, which the
        handler ignores; a failed request goes to the handler. Loading stops
        at the end, except when the handler itself throws (a 400 reply
        without a body). */
    method SendUpdate(entries: seq<Entry>, reply: Result<StatusReply, HttpError>)
      modifies this`isLoading, this`requests, this`navigations, this`notices, this`nameError, this`contactNoError, this`emailError
      ensures requests == old(requests) + [Http.Request(Http.PATCH, "/store", Http.Multipart(entries))]
      ensures reply.Success? && reply.value.status ==>
        nameError == Cleared && contactNoError == Cleared && emailError == Cleared
        && notices == old(notices) + [Listing.SuccessNotice(UpdatedText)]
        && navigations == old(navigations) + [Query.PushPath(PagePath)]
        && !isLoading
      ensures reply.Success? && !reply.value.status ==>
        notices == old(notices) && navigations == old(navigations) && !isLoading
        && nameError == old(nameError) && contactNoError == old(contactNoError) && emailError == old(emailError)
      ensures reply.Failure? ==>
        var o := HandleHttpRequestError(reply.error, SubmitCallbacks);
        navigations == old(navigations) && notices == old(notices) + SubmitFailureNotices(reply.error)
        && (o.BadRequestCallback? ==>
              nameError == ErrorFor(o.validationErrors, "name")
              && emailError == ErrorFor(o.validationErrors, "email")
              && contactNoError == ErrorFor(o.validationErrors, "contactNo"))
        && (!o.BadRequestCallback? ==>
              nameError == old(nameError) && emailError == old(emailError) && contactNoError == old(contactNoError))
        && (isLoading <==> o.Throws?)
    {
      requests := requests + [Http.Request(Http.PATCH, "/store", Http.Multipart(entries))];
      match reply {
        case Success(r) =>
          if r.status {
            ResetErrors();
            notices := notices + [Listing.SuccessNotice(UpdatedText)];
            navigations := navigations + [Query.PushPath(PagePath)];
          }
          isLoading := false;
        case Failure(e) =>
          HandleUpdateFailure(e);
          isLoading := HandleHttpRequestError(e, SubmitCallbacks).Throws?;
      }
    }

    /** `handleUpdateStore`: loading starts; when building the form throws
        (an empty select, or a `null` logo) the error is swallowed, nothing
        is sent and loading stops; otherwise the form of
        `UpdateFormAsWritten` is sent, with the outcome of `SendUpdate`. */
    method HandleUpdateStore(reply: Result<StatusReply, HttpError>)
      modifies this`isLoading, this`requests, this`navigations, this`notices, this`nameError, this`contactNoError, this`emailError
      ensures UpdateFormAsWritten(Draft()).None? ==>
        requests == old(requests) && notices == old(notices) && navigations == old(navigations) && !isLoading
        && nameError == old(nameError) && contactNoError == old(contactNoError) && emailError == old(emailError)
      ensures UpdateFormAsWritten(Draft()).Some? ==>
        requests == old(requests) + [Http.Request(Http.PATCH, "/store", Http.Multipart(UpdateFormAsWritten(Draft()).value))]
      ensures UpdateFormAsWritten(Draft()).Some? && reply.Success? && reply.value.status ==>
        nameError == Cleared && contactNoError == Cleared && emailError == Cleared
        && notices == old(notices) + [Listing.SuccessNotice(UpdatedText)]
        && navigations == old(navigations) + [Query.PushPath(PagePath)]
        && !isLoading
      ensures UpdateFormAsWritten(Draft()).Some? && reply.Success? && !reply.value.status ==>
        notices == old(notices) && navigations == old(navigations) && !isLoading
        && nameError == old(nameError) && contactNoError == old(contactNoError) && emailError == old(emailError)
      ensures UpdateFormAsWritten(Draft()).Some? && reply.Failure? ==>
        var o := HandleHttpRequestError(reply.error, SubmitCallbacks);
        navigations == old(navigations) && notices == old(notices) + SubmitFailureNotices(reply.error)
        && (o.BadRequestCallback? ==>
              nameError == ErrorFor(o.validationErrors, "name")
              && emailError == ErrorFor(o.validationErrors, "email")
              && contactNoError == ErrorFor(o.validationErrors, "contactNo"))
        && (!o.BadRequestCallback? ==>
              nameError == old(nameError) && emailError == old(emailError) && contactNoError == old(contactNoError))
        && (isLoading <==> o.Throws?)
    {
      isLoading := true;
      var form := BuildUpdateForm();
      match form {
        case None =>
          isLoading := false;
        case Some(entries) =>
          SendUpdate(entries, reply);
      }
    }

    /** A store with a complete address but no logo, stored or chosen, is
        never sent: the page's update throws at `logo.path`, although the
        corrected `UpdateForm` would send it. */
    method UpdateWithoutLogo(reply: Result<StatusReply, HttpError>)
      requires address.province.Some? && address.municipality.Some? && address.baranggay.Some?
      requires logo == NullPhoto
      modifies this`isLoading, this`requests, this`navigations, this`notices, this`nameError, this`contactNoError, this`emailError
      ensures requests == old(requests) && notices == old(notices) && !isLoading
      ensures UpdateForm(Draft()).Some?
    {
      NullLogoBlocksUpdate(Draft());
      HandleUpdateStore(reply);
    }

    /** The address selects' handlers, on the page's selector. */
    method OnProvinceChange(selected: SelectOption<string>)
      modifies address
      ensures address.province == Some(selected)
      ensures address.municipalityOptions == Address.MunicipalityOptions(address.gazetteer, selected.value)
      ensures address.municipality.None? && address.baranggay.None?
      ensures address.baranggayOptions == old(address.baranggayOptions) && address.provinceOptions == old(address.provinceOptions)
    {
      address.OnProvinceChange(selected);
    }

    method OnMunicipalityChange(selected: SelectOption<string>)
      modifies address
      ensures address.municipality == Some(selected) && address.province == old(address.province)
      ensures address.province.Some? ==>
        address.baranggayOptions == Address.BaranggayOptions(address.gazetteer, address.province.value.value, selected.value)
        && address.baranggay.None?
      ensures address.municipalityOptions == old(address.municipalityOptions)
    {
      address.OnMunicipalityChange(selected);
    }

    method OnBaranggayChange(selected: SelectOption<string>)
      modifies address
      ensures address.baranggay == Some(selected)
      ensures address.province == old(address.province) && address.municipality == old(address.municipality)
      ensures address.municipalityOptions == old(address.municipalityOptions)
      ensures address.baranggayOptions == old(address.baranggayOptions)
    {
      address.OnBaranggayChange(selected);
    }
  }
}

=== FILE: src/system_user_form.dfy ===
/** The system-user edit form: one record of form values, one record of
    form errors, the role options, and the labels and targets derived from
    the mode. The owning page's submit handler is modelled by what it
    throws, if anything. */
module SystemUserForm {
  import opened Wrappers
  import opened Select
  import opened ErrorHandling
  import Http
  import Listing
  import Query
  import opened Forms

  const ListPath := "/dashboard/users/system-users/list?page=1&limit=10"
  const CreatePath := "/dashboard/users/system-users/create"
  const UserPathPrefix := "/dashboard/users/system-users/"
  const CheckFormText := "Check your form for errors."

  /** The edit breadcrumb's link as written: `{$userId}` inside the
      template literal is plain text, not an interpolation. */
  const LiteralUserLink := UserPathPrefix + "{$userId}"

  function Labels(mode: Mode, userId: Option<string>, firstName: string, lastName: string): (fp: FormProperties)
  {
    match mode
    case Create =>
      FormProperties("Create System User", "Create", firstName + " " + lastName + " user is created!",
        ListPath, Breadcrumb("Create", CreatePath))
    case Edit =>
      FormProperties("Update System User", "Update", firstName + " " + lastName + " user is updated!",
        UserPathPrefix + IdText(userId), Breadcrumb("Update " + firstName + " " + lastName, UserPathPrefix + IdText(userId)))
  }

  /** `formProperties` as written: the edit breadcrumb links to the same
      literal path whatever the user. */
  function UserFormPropertiesAsWritten(mode: Mode, userId: Option<string>, firstName: string, lastName: string): (fp: FormProperties)
    ensures mode == Edit ==> fp.breadcrumb.link == LiteralUserLink
    ensures mode == Create ==> fp == UserFormProperties(mode, userId, firstName, lastName)
    ensures fp.successRedirect == UserFormProperties(mode, userId, firstName, lastName).successRedirect
  {
    var fp := Labels(mode, userId, firstName, lastName);
    if mode == Edit then fp.(breadcrumb := fp.breadcrumb.(link := LiteralUserLink)) else fp
  }

  /** `formProperties` with the user interpolated into the edit breadcrumb:
      create leads back to the list, edit to the user's own page, and the
      breadcrumb of an edit points where its success redirect does. */
  function UserFormProperties(mode: Mode, userId: Option<string>, firstName: string, lastName: string): (fp: FormProperties)
    ensures mode == Create ==> fp.successRedirect == ListPath && fp.breadcrumb.link == CreatePath
    ensures mode == Edit ==> fp.successRedirect == UserPathPrefix + IdText(userId) && fp.breadcrumb.link == fp.successRedirect
    ensures fp.successMessage == firstName + " " + lastName + (if mode == Create then " user is created!" else " user is updated!")
  {
    Labels(mode, userId, firstName, lastName)
  }

  /** As written, the edit breadcrumb misses the user's page: for user 7 it
      differs from where a successful update leads. */
  lemma BreadcrumbMissesUser(firstName: string, lastName: string)
    ensures var fp := UserFormPropertiesAsWritten(Edit, Some("7"), firstName, lastName);
      fp.breadcrumb.link != fp.successRedirect
  {
    var fp := UserFormPropertiesAsWritten(Edit, Some("7"), firstName, lastName);
    assert |fp.breadcrumb.link| != |fp.successRedirect|;
  }

  /** The keys of `formValues`, which are also what a submit passes on. */
  const ValueKeys: set<string> := {"profilePhoto", "firstName", "lastName", "email", "roles", "password", "confirmPassword"}

  /** The keys a 400 reply fills in `formErrors`. */
  const ErrorKeys: set<string> := {"profilePhoto", "firstName", "lastName", "email", "role", "password", "confirmPassword"}

  /** The keys a fetched user overwrites. */
  const HydratedKeys: set<string> := {"profilePhoto", "firstName", "lastName", "email", "roles"}

  /** Roles as select options: value the role's id, caption its name, in
      order. Both the role options and a user's stored roles map this
      way. */
  function RoleChoices(roles: seq<Listing.RoleRecord>): (opts: seq<SelectOption<int>>)
    ensures |opts| == |roles|
    ensures forall i :: 0 <= i < |roles| ==> opts[i] == SelectOption(roles[i].id, roles[i].name)
  {
    if roles == [] then [] else [SelectOption(roles[0].id, roles[0].name)] + RoleChoices(roles[1..])
  }

  /** The `user` of `GET /user/{id}`: the stored photo file name (`''`
      when none), the texts (each possibly missing) and the roles. */
  datatype UserRecord = UserRecord(
    profilePhoto: string, firstName: Option<string>, lastName: Option<string>, email: Option<string>,
    roles: seq<Listing.RoleRecord>)

  /** The values a stored user restores: the photo as a preview of the
      fetched file (`null` for an empty name), the three texts or `''`, and
      the stored roles as options. Every other value, the passwords
      included, is kept. */
  function WithUser(values: FormValues, user: UserRecord, photoUrl: string): (r: FormValues)
    ensures r.Keys == values.Keys + HydratedKeys
    ensures r["profilePhoto"] == Image(StoredPhoto(user.profilePhoto, photoUrl, NullPhoto))
    ensures r["firstName"] == Text(OrEmpty(user.firstName)) && r["lastName"] == Text(OrEmpty(user.lastName))
    ensures r["email"] == Text(OrEmpty(user.email))
    ensures r["roles"] == Picks(RoleChoices(user.roles))
    ensures forall k :: k in values && k !in HydratedKeys ==> r[k] == values[k]
  {
    values["profilePhoto" := Image(StoredPhoto(user.profilePhoto, photoUrl, NullPhoto))]
      ["firstName" := Text(OrEmpty(user.firstName))]["lastName" := Text(OrEmpty(user.lastName))]
      ["email" := Text(OrEmpty(user.email))]["roles" := Picks(RoleChoices(user.roles))]
  }

  const InitialValues: FormValues := map[
    "profilePhoto" := Image(EmptyPhoto), "firstName" := Text(""), "lastName" := Text(""), "email" := Text(""),
    "roles" := Picks([]), "password" := Text(""), "confirmPassword" := Text("")]

  class SystemUserFormState {
    const mode: Mode
    const userId: Option<string>
    var formValues: FormValues
    var formErrors: map<string, ErrorSlot>
    var loading: bool
    var optionRoles: seq<SelectOption<int>>
    var requests: seq<Http.Request>
    var notices: seq<Listing.Notice>
    var navigations: seq<Query.Navigation>
    var submissions: seq<FormValues>

    constructor (mode: Mode, userId: Option<string>)
      ensures this.mode == mode && this.userId == userId
      ensures formValues == InitialValues && formValues.Keys == ValueKeys
      ensures formErrors == map[] && !loading && optionRoles == []
      ensures requests == [] && notices == [] && navigations == [] && submissions == []
    {
      this.mode := mode;
      this.userId := userId;
      formValues := InitialValues;
      formErrors := map[];
      loading := false;
      optionRoles := [];
      requests := [];
      notices := [];
      navigations := [];
      submissions := [];
    }

    /** `formProperties` as written, on the current names (`''` when not
        text): the edit breadcrumb is the literal `{$userId}` path. */
    function Properties(): (fp: FormProperties)
      reads this
      ensures mode == Edit ==> fp.breadcrumb.link == LiteralUserLink
      ensures fp.successRedirect == (if mode == Create then ListPath else UserPathPrefix + IdText(userId))
      ensures fp.successMessage ==
        TextOf(formValues, "firstName") + " " + TextOf(formValues, "lastName")
        + (if mode == Create then " user is created!" else " user is updated!")
    {
      UserFormPropertiesAsWritten(mode, userId, TextOf(formValues, "firstName"), TextOf(formValues, "lastName"))
    }

    /** The user record is fetched only in edit mode, with a truthy
        `userId`, once role options exist. */
    predicate ShouldFetchUser()
      reads this
    {
      mode == Edit && IdTruthy(userId) && |optionRoles| > 0
    }

    /** `handleValueChange`: exactly one value replaced. */
    method HandleValueChange(field: string, value: FieldValue)
      modifies this`formValues
      ensures formValues == WithValue(old(formValues), field, value)
    {
      formValues := WithValue(formValues, field, value);
    }

    /** `fetchRoles`: the role options, value the id, in reply order. A
        failed request leaves them as they were. */
    method FetchRoles(reply: Result<seq<Listing.RoleRecord>, HttpError>)
      modifies this`requests, this`optionRoles
      ensures requests == old(requests) + [Listing.RoleOptionsRequest]
      ensures reply.Success? ==> optionRoles == RoleChoices(reply.value)
      ensures reply.Failure? ==> optionRoles == old(optionRoles)
    {
      requests := requests + [Listing.RoleOptionsRequest];
      if reply.Success? {
        optionRoles := RoleChoices(reply.value);
      }
    }

    /** `fetchUserData`: a stored user overwrites the photo, the three
        texts and the roles as `WithUser` states; the passwords are kept. */
    method FetchUserData(reply: Result<Option<UserRecord>, HttpError>, photoUrl: string)
      modifies this`requests, this`formValues
      ensures requests == old(requests) + [Http.Get(RecordUrl("/user/", userId))]
      ensures reply.Success? && reply.value.Some? ==> formValues == WithUser(old(formValues), reply.value.value, photoUrl)
      ensures !(reply.Success? && reply.value.Some?) ==> formValues == old(formValues)
    {
      requests := requests + [Http.Get(RecordUrl("/user/", userId))];
      if reply.Success? && reply.value.Some? {
        formValues := WithUser(formValues, reply.value.value, photoUrl);
      }
    }

    /** The effect on `mode`, `userId` and the role options: loading while
        the user record is fetched when it should be; a failed fetch leaves
        the form loading. */
    method GetData(reply: Result<Option<UserRecord>, HttpError>, photoUrl: string)
      modifies this`requests, this`formValues, this`loading
      ensures ShouldFetchUser() ==> requests == old(requests) + [Http.Get(RecordUrl("/user/", userId))]
      ensures !ShouldFetchUser() ==> requests == old(requests)
      ensures formValues ==
        if ShouldFetchUser() && reply.Success? && reply.value.Some?
        then WithUser(old(formValues), reply.value.value, photoUrl)
        else old(formValues)
      ensures loading <==> ShouldFetchUser() && reply.Failure?
    {
      loading := true;
      if ShouldFetchUser() {
        FetchUserData(reply, photoUrl);
        if reply.Failure? {
          return;
        }
      }
      loading := false;
    }

    /** `resetErrors`. */
    method ResetErrors()
      modifies this`formErrors
      ensures formErrors == map[]
    {
      formErrors := map[];
    }

    /** `_handleOnformSubmit`: the values are handed over. When the handler
        resolves, the errors are emptied, the success notice shown and the
        form leaves for its success redirect. When it throws, a 400 reply
        shows a notice and replaces the errors with exactly the seven keys,
        each the server's message or `null`; a network failure or an
        unexpected status shows the handler's notice. Loading ends either
        way. */
    method Submit(thrown: Option<HttpError>)
      modifies this`loading, this`submissions, this`formErrors, this`notices, this`navigations
      ensures submissions == old(submissions) + [Fields(formValues, ValueKeys)]
      ensures thrown.None? ==>
        formErrors == map[]
        && notices == old(notices) + [Listing.SuccessNotice(old(Properties()).successMessage)]
        && navigations == old(navigations) + [Query.PushPath(old(Properties()).successRedirect)]
      ensures thrown.Some? ==>
        var o := HandleHttpRequestError(thrown.value, SubmitCallbacks);
        navigations == old(navigations)
        && (o.BadRequestCallback? ==>
              formErrors == ErrorsFor(o.validationErrors, ErrorKeys)
              && notices == old(notices) + [Listing.ErrorNotice(CheckFormText)])
        && (!o.BadRequestCallback? ==>
              formErrors == old(formErrors) && notices == old(notices) + SubmitFailureNotices(thrown.value))
      ensures !loading
    {
      var props := Properties();
      loading := true;
      submissions := submissions + [Fields(formValues, ValueKeys)];
      match thrown {
        case None =>
          ResetErrors();
          notices := notices + [Listing.SuccessNotice(props.successMessage)];
          navigations := navigations + [Query.PushPath(props.successRedirect)];
        case Some(e) =>
          match HandleHttpRequestError(e, SubmitCallbacks) {
            case BadRequestCallback(validationErrors, _) =>
              notices := notices + [Listing.ErrorNotice(CheckFormText)];
              formErrors := ErrorsFor(validationErrors, ErrorKeys);
            case Toast(text) =>
              notices := notices + [Listing.ErrorNotice(text)];
            case _ =>
          }
      }
      loading := false;
    }
  }
}

=== FILE: src/system_users_list.dfy ===
/** The system users list page: its state, the effect that reads the router
    query and fetches, the delete-and-refetch, and the query edits of
    paging, searching and filtering. Router navigations, requests and
    toasts are recorded in logs; network replies are parameters. */
module SystemUsersList {
  import opened Wrappers
  import Http
  import opened Query
  import opened Select
  import opened ErrorHandling
  import Tables
  import Listing
  import UserService
  import Text

  const Pathname := "/dashboard/users/system-users/list"

  /** The query a search pushes as an encoded path: page 1, the three
      search drafts and the selected role values; other keys kept. */
  function SearchEncodedQuery(q: RouterQuery, firstName: QueryValue, lastName: QueryValue, email: QueryValue, roles: seq<string>): (r: RouterQuery)
    ensures Get(r, "page") == Some(Single("1")) && Get(r, "role") == Some(Multi(roles))
    ensures Get(r, "firstName") == Some(firstName) && Get(r, "lastName") == Some(lastName) && Get(r, "email") == Some(email)
    ensures AgreeExcept(q, r, {"page", "firstName", "lastName", "email", "role"})
  {
    SetKeys(q, map["page" := Single("1"), "firstName" := firstName, "lastName" := lastName, "email" := email, "role" := Multi(roles)])
  }

  /** The query a search then pushes as an object: page 1 and the three
      search drafts; other keys kept. */
  function SearchQuery(q: RouterQuery, firstName: QueryValue, lastName: QueryValue, email: QueryValue): (r: RouterQuery)
    ensures Get(r, "page") == Some(Single("1"))
    ensures Get(r, "firstName") == Some(firstName) && Get(r, "lastName") == Some(lastName) && Get(r, "email") == Some(email)
    ensures AgreeExcept(q, r, {"page", "firstName", "lastName", "email"})
  {
    SetKeys(q, map["page" := Single("1"), "firstName" := firstName, "lastName" := lastName, "email" := email])
  }

  /** The query a filter pushes: page 1 and the selected role values. */
  function FilterQuery(q: RouterQuery, roles: seq<string>): (r: RouterQuery)
    ensures Get(r, "page") == Some(Single("1")) && Get(r, "role") == Some(Multi(roles))
    ensures AgreeExcept(q, r, {"page", "role"})
  {
    SetKeys(q, map["page" := Single("1"), "role" := Multi(roles)])
  }

  /** The query clearing the filter pushes: `role` deleted, everything else,
      the page included, kept. */
  function ClearFilterQuery(q: RouterQuery): (r: RouterQuery)
    ensures "role" !in r
    ensures AgreeExcept(q, r, {"role"})
  {
    q - {"role"}
  }

  /** The request URL the page builds itself: page and limit, then,
      when any search value is truthy, each truthy one in order, then one
      `role` pair per filter role. */
  method BuildRequestUrl(page: Num, limit: Num, firstName: QueryValue, lastName: QueryValue, email: QueryValue, roles: seq<string>)
    returns (requestUrl: string)
    ensures requestUrl == UserService.UserListUrl(page, limit, firstName, lastName, email, roles)
  {
    requestUrl := "/user?page=" + NumText(page) + "&limit=" + NumText(limit);
    assert requestUrl == UserService.UserListBase(page, limit);
    if Truthy(Some(firstName)) || Truthy(Some(lastName)) || Truthy(Some(email)) {
      requestUrl := Listing.AppendIfTruthy(requestUrl, "firstName", firstName);
      requestUrl := Listing.AppendIfTruthy(requestUrl, "lastName", lastName);
      requestUrl := Listing.AppendIfTruthy(requestUrl, "email", email);
    }
    ghost var fields := [("firstName", firstName), ("lastName", lastName), ("email", email)];
    assert requestUrl == Listing.AppendFields(UserService.UserListBase(page, limit), fields) by {
      Listing.AppendThree(UserService.UserListBase(page, limit), fields[0], fields[1], fields[2]);
    }
    if |roles| > 0 {
      var filterRoleQueryParams := Text.Join(Http.RoleTexts(roles), "&");
      requestUrl := requestUrl + "&" + filterRoleQueryParams;
    }
    UserService.UserListBuilt(page, limit, fields, roles);
  }

  /** The list request the effect sends for a query holding a page and a
      limit: those two as numbers, the search keys as given (absent ones
      printing empty, hence dropped) and the normalised role list. */
  function QueryListRequest(query: RouterQuery): (r: Http.Request)
    requires Truthy(Get(query, "page")) && Truthy(Get(query, "limit"))
    ensures r.verb == Http.GET && r.body == Http.NoBody
  {
    Http.Get(UserService.UserListUrl(ToNumber(query["page"]), ToNumber(query["limit"]),
      Listing.SearchArg(Get(query, "firstName")), Listing.SearchArg(Get(query, "lastName")),
      Listing.SearchArg(Get(query, "email")), NormaliseList(Get(query, "role"))))
  }

  class SystemUsersListPage {
    var systemUsers: seq<Listing.Row>
    var isLoading: bool
    var qFirstName: QueryValue
    var qLastName: QueryValue
    var qEmail: QueryValue
    var optionRoles: seq<SelectOption<string>>
    var filterRole: Option<QueryValue>
    var selectedRoles: seq<SelectOption<string>>
    var pagination: Tables.Pagination
    var requests: seq<Http.Request>
    var navigations: seq<Navigation>
    var notices: seq<Listing.Notice>

    /** The initial state, read from the router query of the first render. */
    constructor (query: RouterQuery)
      ensures systemUsers == [] && isLoading
      ensures qFirstName == Get(query, "firstName").GetOr(Single(""))
      ensures qLastName == Get(query, "lastName").GetOr(Single(""))
      ensures qEmail == Get(query, "email").GetOr(Single(""))
      ensures optionRoles == [] && filterRole == Get(query, "role") && selectedRoles == []
      ensures pagination == Listing.InitialPagination
      ensures requests == [] && navigations == [] && notices == []
    {
      systemUsers := [];
      isLoading := true;
      qFirstName := Get(query, "firstName").GetOr(Single(""));
      qLastName := Get(query, "lastName").GetOr(Single(""));
      qEmail := Get(query, "email").GetOr(Single(""));
      optionRoles := [];
      filterRole := Get(query, "role");
      selectedRoles := [];
      pagination := Listing.InitialPagination;
      requests := [];
      navigations := [];
      notices := [];
    }

    /** `fetchRoles`: the role options, keyed by role key. A failed request
        is not caught and changes nothing. */
    method FetchRoles(reply: Result<Option<seq<Listing.RoleRecord>>, HttpError>)
      modifies this`requests, this`optionRoles
      ensures requests == old(requests) + [Listing.RoleOptionsRequest]
      ensures optionRoles == (if reply.Success? then Listing.RoleOptions(reply.value.GetOr([])) else old(optionRoles))
    {
      requests := requests + [Http.Get("/role?page=1&limit=1000")];
      if reply.Success? {
        var roles := reply.value.GetOr([]);
        optionRoles := Listing.RoleOptions(roles);
      }
    }

    /** `fetchSystemUsers`: builds the request URL, sends it and stores the
        reply; a failure is handed to the error handler. `roles` is `None`
        when building the role part throws (the refetch's string case),
        which the same handler swallows. */
    method FetchSystemUsers(page: Num, limit: Num, firstName: QueryValue, lastName: QueryValue, email: QueryValue,
                            roles: Option<seq<string>>, reply: Result<Listing.ListReply<Listing.Row>, HttpError>)
      modifies this`requests, this`notices, this`pagination, this`systemUsers
      ensures roles.None? ==> requests == old(requests) && notices == old(notices)
      ensures roles.Some? ==>
        requests == old(requests) + [Http.Get(UserService.UserListUrl(page, limit, firstName, lastName, email, roles.value))]
      ensures roles.Some? && reply.Success? ==>
        pagination == reply.value.pagination && systemUsers == reply.value.rows && notices == old(notices)
      ensures roles.Some? && reply.Failure? ==>
        notices == old(notices) + Listing.FetchFailureNotices(reply.error)
      ensures !(roles.Some? && reply.Success?) ==> pagination == old(pagination) && systemUsers == old(systemUsers)
    {
      match roles {
        case None =>
          var handled := Listing.FetchFailureNotices(NonAxiosError);
          notices := notices + handled;
        case Some(queryFilterRole) =>
          var requestUrl := BuildRequestUrl(page, limit, firstName, lastName, email, queryFilterRole);
          requests := requests + [Http.Get(requestUrl)];
          match reply {
            case Success(data) =>
              pagination := data.pagination;
              systemUsers := data.rows;
            case Failure(e) =>
              notices := notices + Listing.FetchFailureNotices(e);
          }
      }
    }

    /** The effect's first half: each truthy search key of the query
        becomes its draft; the others keep theirs. */
    method ReadSearchDrafts(query: RouterQuery)
      modifies this`qFirstName, this`qLastName, this`qEmail
      ensures qFirstName == (if Truthy(Get(query, "firstName")) then query["firstName"] else old(qFirstName))
      ensures qLastName == (if Truthy(Get(query, "lastName")) then query["lastName"] else old(qLastName))
      ensures qEmail == (if Truthy(Get(query, "email")) then query["email"] else old(qEmail))
    {
      if Truthy(Get(query, "firstName")) {
        qFirstName := Listing.SearchArg(Get(query, "firstName"));
      }
      if Truthy(Get(query, "lastName")) {
        qLastName := Listing.SearchArg(Get(query, "lastName"));
      }
      if Truthy(Get(query, "email")) {
        qEmail := Listing.SearchArg(Get(query, "email"));
      }
    }

    /** The effect's second half: a non-empty normalised `role` value
        becomes the filter; the selection is the options it names (none
        when it is empty, while the filter is then left as it was). */
    method ReadRoleFilter(query: RouterQuery)
      modifies this`filterRole, this`selectedRoles
      ensures selectedRoles == Listing.SelectedRoles(optionRoles, Get(query, "role"))
      ensures filterRole == (if NormaliseList(Get(query, "role")) != [] then Some(Multi(NormaliseList(Get(query, "role")))) else old(filterRole))
    {
      var queryFilterRole := NormaliseList(Get(query, "role"));
      if |queryFilterRole| > 0 {
        filterRole := Some(Multi(queryFilterRole));
        selectedRoles := KeepSelected(optionRoles, queryFilterRole);
      } else {
        selectedRoles := [];
        Listing.KeepNothing(optionRoles);
      }
    }

    /** The effect's fetch: only when both page and limit are present is
        the list fetched, and then the loading flag is cleared. */
    method FetchForQuery(query: RouterQuery, reply: Result<Listing.ListReply<Listing.Row>, HttpError>)
      modifies this`requests, this`notices, this`pagination, this`systemUsers, this`isLoading
      ensures Truthy(Get(query, "page")) && Truthy(Get(query, "limit")) ==>
        requests == old(requests) + [QueryListRequest(query)]
        && !isLoading
        && (reply.Success? ==> pagination == reply.value.pagination && systemUsers == reply.value.rows)
        && notices == old(notices) + (if reply.Failure? then Listing.FetchFailureNotices(reply.error) else [])
      ensures !(Truthy(Get(query, "page")) && Truthy(Get(query, "limit"))) ==>
        requests == old(requests) && isLoading == old(isLoading) && notices == old(notices)
        && pagination == old(pagination) && systemUsers == old(systemUsers)
    {
      var page := Get(query, "page");
      var limit := Get(query, "limit");
      if Truthy(page) && Truthy(limit) {
        FetchSystemUsers(ToNumber(page.value), ToNumber(limit.value), Listing.SearchArg(Get(query, "firstName")),
          Listing.SearchArg(Get(query, "lastName")), Listing.SearchArg(Get(query, "email")),
          Some(NormaliseList(Get(query, "role"))), reply);
        isLoading := false;
      }
    }

    /** The effect on a new router query (or new role options): nothing
        at all until the role options are loaded; then the drafts and the
        filter are read from the query and the list fetched. */
    method OnQueryChange(query: RouterQuery, reply: Result<Listing.ListReply<Listing.Row>, HttpError>)
      modifies this`qFirstName, this`qLastName, this`qEmail, this`filterRole, this`selectedRoles
      modifies this`requests, this`notices, this`pagination, this`systemUsers, this`isLoading
      ensures old(optionRoles) == [] ==>
        requests == old(requests) && isLoading == old(isLoading) && selectedRoles == old(selectedRoles)
        && qFirstName == old(qFirstName) && qLastName == old(qLastName) && qEmail == old(qEmail)
        && filterRole == old(filterRole) && pagination == old(pagination) && systemUsers == old(systemUsers)
        && notices == old(notices)
      ensures old(optionRoles) != [] ==>
        qFirstName == (if Truthy(Get(query, "firstName")) then query["firstName"] else old(qFirstName))
        && qLastName == (if Truthy(Get(query, "lastName")) then query["lastName"] else old(qLastName))
        && qEmail == (if Truthy(Get(query, "email")) then query["email"] else old(qEmail))
        && selectedRoles == Listing.SelectedRoles(optionRoles, Get(query, "role"))
        && filterRole == (if NormaliseList(Get(query, "role")) != [] then Some(Multi(NormaliseList(Get(query, "role")))) else old(filterRole))
      ensures old(optionRoles) != [] && Truthy(Get(query, "page")) && Truthy(Get(query, "limit")) ==>
        requests == old(requests) + [QueryListRequest(query)]
        && !isLoading
        && (reply.Success? ==> pagination == reply.value.pagination && systemUsers == reply.value.rows)
        && notices == old(notices) + (if reply.Failure? then Listing.FetchFailureNotices(reply.error) else [])
      ensures old(optionRoles) != [] && !(Truthy(Get(query, "page")) && Truthy(Get(query, "limit"))) ==>
        requests == old(requests) && isLoading == old(isLoading) && notices == old(notices)
        && pagination == old(pagination) && systemUsers == old(systemUsers)
    {
      if |optionRoles| > 0 {
        ReadSearchDrafts(query);
        ReadRoleFilter(query);
        FetchForQuery(query, reply);
      }
    }

    /** `sendDeleteRequest`: deletes the user; on success shows the notice
        and refetches with the current pagination, search drafts and
        filter state (a filter held as a non-empty string makes the refetch
        throw inside the fetch, which swallows it); on failure shows the
        delete's failure notices.
        The users and pagination become the refetch's when it is sent and succeeds,
        and are kept otherwise. */
    method SendDeleteRequest(userId: int, deleteReply: Result<bool, HttpError>, refetchReply: Result<Listing.ListReply<Listing.Row>, HttpError>)
      modifies this`requests, this`notices, this`pagination, this`systemUsers
      ensures deleteReply.Failure? ==>
        requests == old(requests) + [UserService.DeleteUserRequest(userId)]
        && notices == old(notices) + Listing.DeleteFailureNotices(deleteReply.error)
        && pagination == old(pagination) && systemUsers == old(systemUsers)
      ensures deleteReply.Success? && Listing.RolesArgument(old(filterRole)).Some? ==>
        requests == old(requests) + [UserService.DeleteUserRequest(userId),
          Http.Get(UserService.UserListUrl(Finite(old(pagination).page), Finite(old(pagination).limit),
            old(qFirstName), old(qLastName), old(qEmail), Listing.RolesArgument(old(filterRole)).value))]
        && notices == old(notices) + [Listing.SuccessNotice("User successfully deleted!")]
           + (if refetchReply.Failure? then Listing.FetchFailureNotices(refetchReply.error) else [])
      ensures deleteReply.Success? && Listing.RolesArgument(old(filterRole)).None? ==>
        requests == old(requests) + [UserService.DeleteUserRequest(userId)]
        && notices == old(notices) + [Listing.SuccessNotice("User successfully deleted!")]
      ensures deleteReply.Success? && Listing.RolesArgument(old(filterRole)).Some? && refetchReply.Success? ==>
        pagination == refetchReply.value.pagination && systemUsers == refetchReply.value.rows
      ensures !(deleteReply.Success? && Listing.RolesArgument(old(filterRole)).Some? && refetchReply.Success?) ==> pagination == old(pagination) && systemUsers == old(systemUsers)
    {
      requests := requests + [Http.Delete("/user/" + Text.IntToString(userId))];
      match deleteReply {
        case Success(_) =>
          notices := notices + [Listing.SuccessNotice("User successfully deleted!")];
          FetchSystemUsers(Finite(pagination.page), Finite(pagination.limit), qFirstName, qLastName, qEmail,
            Listing.RolesArgument(filterRole), refetchReply);
        case Failure(e) =>
          notices := notices + Listing.DeleteFailureNotices(e);
      }
    }

    /** `goToPage`: pushes the current query with only the page replaced. */
    method GoToPage(query: RouterQuery, page: int)
      modifies this`navigations
      ensures navigations == old(navigations) + [Push(Pathname, GoToPageQuery(query, page))]
    {
      navigations := navigations + [Push(Pathname, GoToPageQuery(query, page))];
    }

    /** `handleOnSearch`: two navigations, first the encoded path carrying
        the drafts and the selected roles, then the object form carrying
        the drafts only. */
    method HandleOnSearch(query: RouterQuery)
      modifies this`navigations
      ensures navigations == old(navigations) + [
        PushEncoded(Pathname, SearchEncodedQuery(query, qFirstName, qLastName, qEmail, Values(selectedRoles))),
        Push(Pathname, SearchQuery(query, qFirstName, qLastName, qEmail))]
    {
      var encoded := SetKeys(query, map["page" := Single("1"), "firstName" := qFirstName, "lastName" := qLastName,
        "email" := qEmail, "role" := Multi(Values(selectedRoles))]);
      navigations := navigations + [PushEncoded(Pathname, encoded)];
      navigations := navigations + [Push(Pathname, SetKeys(query, map["page" := Single("1"), "firstName" := qFirstName,
        "lastName" := qLastName, "email" := qEmail]))];
    }

    /** `handleOnClearSearch`: empties the drafts and pushes the query with
        the three search keys deleted and page 1. */
    method HandleOnClearSearch(query: RouterQuery)
      modifies this`navigations, this`qFirstName, this`qLastName, this`qEmail
      ensures qFirstName == Single("") && qLastName == Single("") && qEmail == Single("")
      ensures navigations == old(navigations) + [Push(Pathname, ClearKeysQuery(query, {"firstName", "lastName", "email"}))]
    {
      qFirstName := Single("");
      qLastName := Single("");
      qEmail := Single("");
      var cleared := query["page" := Single("1")];
      cleared := cleared - {"firstName", "lastName", "email"};
      navigations := navigations + [Push(Pathname, cleared)];
    }

    /** `handleOnFilter`: pushes page 1 and the selected role values. */
    method HandleOnFilter(query: RouterQuery)
      modifies this`navigations
      ensures navigations == old(navigations) + [PushEncoded(Pathname, FilterQuery(query, Values(selectedRoles)))]
    {
      navigations := navigations + [PushEncoded(Pathname, SetKeys(query, map["page" := Single("1"), "role" := Multi(Values(selectedRoles))]))];
    }

    /** `handleOnClearFilter`: empties the selection and pushes the query
        without `role`, the page unchanged. */
    method HandleOnClearFilter(query: RouterQuery)
      modifies this`navigations, this`selectedRoles
      ensures selectedRoles == []
      ensures navigations == old(navigations) + [PushEncoded(Pathname, ClearFilterQuery(query))]
    {
      selectedRoles := [];
      var cleared := query - {"role"};
      navigations := navigations + [PushEncoded(Pathname, cleared)];
    }
  }
}

=== FILE: src/tables.dfy ===
/** `TablePagination` and `Table` of the shared table component. The older
    copy of the component has the same `TablePagination` logic, so the
    pagination members below model both copies; only its `Table` differs
    (`LegacyTable`). */
module Tables {
  import opened Wrappers

  /** The pagination record the backend returns with every list. */
  datatype Pagination = Pagination(page: int, limit: int, total: int, totalNumberOfPages: int)

  /** The page the Previous button goes to. */
  function PreviousPage(page: int): int {
    if page == 1 then 1 else page - 1
  }

  /** The page the Next button goes to (no clamping beyond the equality test). */
  function NextPage(page: int, totalNumberOfPages: int): int {
    if page == totalNumberOfPages then totalNumberOfPages else page + 1
  }

  /** The last page of the window: three pages ahead, cut at the total. */
  function LastPage(page: int, totalNumberOfPages: int): int {
    if page + 3 > totalNumberOfPages then totalNumberOfPages else page + 3
  }

  /** The window of numbered pages: the consecutive integers from `page` up
      to `LastPage`, empty when that is below `page`. */
  function Window(page: int, totalNumberOfPages: int): (w: seq<int>)
  {
    var last := LastPage(page, totalNumberOfPages);
    seq(if last < page then 0 else last - page + 1, k => page + k)
  }

  /** What the window holds: at most four consecutive pages from `page`,
      all within `page .. totalNumberOfPages`, empty exactly when `page`
      exceeds the total, and holding `page` itself exactly when it does not. */
  lemma WindowFacts(page: int, totalNumberOfPages: int)
    ensures var w := Window(page, totalNumberOfPages);
      && |w| <= 4
      && (forall k :: 0 <= k < |w| ==> w[k] == page + k)
      && (forall k :: 0 <= k < |w| ==> page <= w[k] <= totalNumberOfPages)
      && (w == [] <==> page > totalNumberOfPages)
      && (page in w <==> page <= totalNumberOfPages)
      && (page <= totalNumberOfPages ==> w[|w| - 1] == if page + 3 < totalNumberOfPages then page + 3 else totalNumberOfPages)
  {
    var w := Window(page, totalNumberOfPages);
    if page <= totalNumberOfPages {
      assert w[0] == page;
    }
  }

  /** The `pagesToDisplay` loop: push `i` for `i` from `page` to the last page. */
  method PagesToDisplay(page: int, totalNumberOfPages: int) returns (arr: seq<int>)
    ensures arr == Window(page, totalNumberOfPages)
  {
    var lastPage := page + 3;
    if lastPage > totalNumberOfPages {
      lastPage := totalNumberOfPages;
    }
    arr := [];
    var i := page;
    while i <= lastPage
      invariant page <= i
      invariant i <= lastPage + 1 || i == page
      invariant |arr| == i - page
      invariant forall k :: 0 <= k < |arr| ==> arr[k] == page + k
    {
      arr := arr + [i];
      i := i + 1;
    }
  }

  /** A pagination button and the page it goes to. */
  datatype Button = Previous(target: int) | Numbered(target: int, active: bool) | Next(target: int)

  function NumberedButtons(w: seq<int>, page: int): seq<Button> {
    seq(|w|, k requires 0 <= k < |w| => Numbered(w[k], w[k] == page))
  }

  /** The buttons `TablePagination` renders, in order: Previous when the page
      is not 1, the numbered window when it has more than one entry, Next
      when the page is not the total. */
  function Buttons(p: Pagination): seq<Button> {
    var w := Window(p.page, p.totalNumberOfPages);
    (if p.page != 1 then [Previous(PreviousPage(p.page))] else [])
    + (if |w| > 1 then NumberedButtons(w, p.page) else [])
    + (if p.page != p.totalNumberOfPages then [Next(NextPage(p.page, p.totalNumberOfPages))] else [])
  }

  predicate HasPrevious(bs: seq<Button>) {
    exists i :: 0 <= i < |bs| && bs[i].Previous?
  }

  predicate HasNext(bs: seq<Button>) {
    exists i :: 0 <= i < |bs| && bs[i].Next?
  }

  /** Which buttons appear: Previous iff the page is not 1, Next iff the page
      is not the total, numbered buttons iff the window is longer than one;
      exactly the numbered button equal to the page is active. */
  lemma ButtonsShown(p: Pagination)
    ensures var bs := Buttons(p);
      && (HasPrevious(bs) <==> p.page != 1)
      && (HasNext(bs) <==> p.page != p.totalNumberOfPages)
      && ((exists i :: 0 <= i < |bs| && bs[i].Numbered?) <==> |Window(p.page, p.totalNumberOfPages)| > 1)
      && (forall i :: 0 <= i < |bs| && bs[i].Numbered? ==> (bs[i].active <==> bs[i].target == p.page))
      && (forall i :: 0 <= i < |bs| && bs[i].Previous? ==> bs[i].target == p.page - 1)
      && (forall i :: 0 <= i < |bs| && bs[i].Next? ==> bs[i].target == p.page + 1)
  {
    ButtonsSplit(p);
    ButtonsOffered(p);
  }

  /** The buttons by position: Previous first when the page is not 1, then
      one numbered button per page of the window (when it is longer than
      one), active exactly on the current page, then Next last when the
      page is not the total; nothing else. */
  lemma ButtonsSplit(p: Pagination)
    ensures var w := Window(p.page, p.totalNumberOfPages);
      var k := if p.page != 1 then 1 else 0;
      var m := if |w| > 1 then |w| else 0;
      var bs := Buttons(p);
      |bs| == k + m + (if p.page != p.totalNumberOfPages then 1 else 0)
      && (p.page != 1 ==> bs[0] == Previous(p.page - 1))
      && (forall j :: 0 <= j < m ==> bs[k + j] == Numbered(w[j], w[j] == p.page))
      && (p.page != p.totalNumberOfPages ==> bs[|bs| - 1] == Next(p.page + 1))
      && (forall i :: 0 <= i < |bs| && bs[i].Numbered? ==> (bs[i].active <==> bs[i].target == p.page))
      && (forall i :: 0 <= i < |bs| && bs[i].Previous? ==> bs[i].target == p.page - 1)
      && (forall i :: 0 <= i < |bs| && bs[i].Next? ==> bs[i].target == p.page + 1)
  {
    var w := Window(p.page, p.totalNumberOfPages);
    var bs := Buttons(p);
    var pre := if p.page != 1 then [Previous(PreviousPage(p.page))] else [];
    var mid := if |w| > 1 then NumberedButtons(w, p.page) else [];
    var post := if p.page != p.totalNumberOfPages then [Next(NextPage(p.page, p.totalNumberOfPages))] else [];
    assert bs == pre + mid + post;
    assert forall i :: 0 <= i < |bs| ==> bs[i] == if i < |pre| then pre[i] else if i < |pre| + |mid| then mid[i - |pre|] else post[i - |pre| - |mid|];
  }

  lemma ButtonsOffered(p: Pagination)
    ensures var bs := Buttons(p);
      && (HasPrevious(bs) <==> p.page != 1)
      && (HasNext(bs) <==> p.page != p.totalNumberOfPages)
      && ((exists i :: 0 <= i < |bs| && bs[i].Numbered?) <==> |Window(p.page, p.totalNumberOfPages)| > 1)
  {
    var w := Window(p.page, p.totalNumberOfPages);
    var bs := Buttons(p);
    var pre := if p.page != 1 then [Previous(PreviousPage(p.page))] else [];
    var mid := if |w| > 1 then NumberedButtons(w, p.page) else [];
    var post := if p.page != p.totalNumberOfPages then [Next(NextPage(p.page, p.totalNumberOfPages))] else [];
    assert bs == pre + mid + post;
    assert forall i :: 0 <= i < |bs| ==> bs[i] == if i < |pre| then pre[i] else if i < |pre| + |mid| then mid[i - |pre|] else post[i - |pre| - |mid|];
    if p.page != 1 {
      assert bs[0].Previous?;
    }
    if p.page != p.totalNumberOfPages {
      assert bs[|bs| - 1].Next?;
    }
    if |w| > 1 {
      assert bs[|pre|].Numbered?;
    }
  }

  /** On a consistent pagination (1 <= page <= totalNumberOfPages) every
      button goes to a page within 1 .. totalNumberOfPages. */
  lemma ButtonTargetsInRange(p: Pagination)
    requires 1 <= p.page <= p.totalNumberOfPages
    ensures forall b :: b in Buttons(p) ==> 1 <= b.target <= p.totalNumberOfPages
  {
    WindowFacts(p.page, p.totalNumberOfPages);
  }

  /** With no pages at all (the pages' initial pagination, or an empty list)
      the component still offers Next, to page 2. */
  lemma EmptyListOffersNext()
    ensures Next(2) in Buttons(Pagination(1, 10, 0, 0))
  {
    var bs := Buttons(Pagination(1, 10, 0, 0));
    assert Window(1, 0) == [];
    assert bs == [Next(2)];
  }

  /** The evidently intended buttons: Previous only above page 1 and Next
      only below the last page. */
  function IntendedButtons(p: Pagination): seq<Button> {
    var w := Window(p.page, p.totalNumberOfPages);
    (if p.page > 1 then [Previous(PreviousPage(p.page))] else [])
    + (if |w| > 1 then NumberedButtons(w, p.page) else [])
    + (if p.page < p.totalNumberOfPages then [Next(NextPage(p.page, p.totalNumberOfPages))] else [])
  }

  /** For every page from 1 on, whatever the total, the intended buttons
      never go below page 1, and Next and numbered buttons never go past the
      total. */
  lemma IntendedButtonsInRange(p: Pagination)
    requires p.page >= 1
    ensures forall b :: b in IntendedButtons(p) ==> 1 <= b.target
    ensures forall b :: b in IntendedButtons(p) && !b.Previous? ==> b.target <= p.totalNumberOfPages
  {
    WindowFacts(p.page, p.totalNumberOfPages);
  }

  /** The kinds of child the table recognises by component type. */
  datatype ChildKind = HeaderChild | BodyChild | PaginationChild | OtherChild

  /** A rendered child element; `key` tells two elements of one kind apart. */
  datatype Child = Child(kind: ChildKind, key: nat)

  /** The `children` prop: absent, a single element, or an array of them. */
  datatype Children = NoChildren | OneChild(child: Child) | ChildArray(items: seq<Child>)

  /** The last child of kind `k`, if any. */
  function LastOfKind(cs: seq<Child>, k: ChildKind): (r: Option<Child>)
    ensures r.Some? <==> exists i :: 0 <= i < |cs| && cs[i].kind == k
    ensures r.Some? ==> r.value.kind == k
    ensures r.Some? ==>
      exists i :: 0 <= i < |cs| && cs[i] == r.value && forall j :: i < j < |cs| ==> cs[j].kind != k
  {
    if cs == [] then None
    else if cs[|cs| - 1].kind == k then Some(cs[|cs| - 1])
    else LastOfKind(cs[..|cs| - 1], k)
  }

  datatype Slots = Slots(header: Option<Child>, body: Option<Child>, pagination: Option<Child>)

  /** The `forEach` over the children: each slot keeps the last child of its
      kind; other children are ignored. */
  method CollectSlots(cs: seq<Child>) returns (s: Slots)
    ensures s.header == LastOfKind(cs, HeaderChild)
    ensures s.body == LastOfKind(cs, BodyChild)
    ensures s.pagination == LastOfKind(cs, PaginationChild)
  {
    s := Slots(None, None, None);
    for i := 0 to |cs|
      invariant s.header == LastOfKind(cs[..i], HeaderChild)
      invariant s.body == LastOfKind(cs[..i], BodyChild)
      invariant s.pagination == LastOfKind(cs[..i], PaginationChild)
    {
      assert cs[..i + 1][..i] == cs[..i];
      var child := cs[i];
      if child.kind == HeaderChild {
        s := s.(header := Some(child));
      } else if child.kind == BodyChild {
        s := s.(body := Some(child));
      } else if child.kind == PaginationChild {
        s := s.(pagination := Some(child));
      }
    }
    assert cs[..|cs|] == cs;
  }

  /** The card body: the placeholder table while loading, else the data table. */
  datatype CardContent = PlaceholderTable | DataTable(body: Option<Child>)

  datatype Card = Card(header: Option<Child>, content: CardContent, footer: Option<Child>)

  /** True when `children` is a non-empty array, the only case `Table` renders. */
  predicate Renders(children: Children)
    ensures children.OneChild? || children.NoChildren? ==> !Renders(children)
    ensures children.ChildArray? ==> (Renders(children) <==> children.items != [])
  {
    children.ChildArray? && |children.items| > 0
  }

  /** The shared `Table`: nothing unless the children are a non-empty array;
      otherwise the header and footer slots, and the placeholder table
      instead of the data table while loading. */
  method Table(children: Children, isLoading: bool) returns (view: Option<Card>)
    ensures view.Some? <==> Renders(children)
    ensures view.Some? ==> view.value.header == LastOfKind(children.items, HeaderChild)
    ensures view.Some? ==> view.value.footer == LastOfKind(children.items, PaginationChild)
    ensures view.Some? ==> (view.value.content.PlaceholderTable? <==> isLoading)
    ensures view.Some? && !isLoading ==> view.value.content.body == LastOfKind(children.items, BodyChild)
  {
    if !children.ChildArray? || |children.items| == 0 {
      return None;
    }
    var s := CollectSlots(children.items);
    var content := if isLoading then PlaceholderTable else DataTable(s.body);
    view := Some(Card(s.header, content, s.pagination));
  }

  /** The older copy's card: a spinner alone while loading, else all slots. */
  datatype LegacyCard = Spinner | FullCard(header: Option<Child>, body: Option<Child>, footer: Option<Child>)

  /** The older `Table`: nothing unless the children are a non-empty array;
      while loading only the spinner, with no header, body or pagination. */
  method LegacyTable(children: Children, isLoading: bool) returns (view: Option<LegacyCard>)
    ensures view.Some? <==> Renders(children)
    ensures view.Some? ==> (view.value.Spinner? <==> isLoading)
    ensures view.Some? && !isLoading ==>
      view.value == FullCard(LastOfKind(children.items, HeaderChild),
                             LastOfKind(children.items, BodyChild),
                             LastOfKind(children.items, PaginationChild))
  {
    if !children.ChildArray? || |children.items| == 0 {
      return None;
    }
    var s := CollectSlots(children.items);
    if isLoading {
      view := Some(Spinner);
    } else {
      view := Some(FullCard(s.header, s.body, s.pagination));
    }
  }
}

=== FILE: src/text.dfy ===
/** String helpers that stand for JavaScript built-ins: number-to-text
    conversion in template literals, `String.prototype.indexOf`, `Array.join`. */
module Text {

  predicate IsDigit(c: char) {
    '0' <= c <= '9'
  }

  predicate AllDigits(s: string) {
    forall i :: 0 <= i < |s| ==> IsDigit(s[i])
  }

  function DigitChar(d: nat): (c: char)
    requires d < 10
    ensures IsDigit(c) && c as int - '0' as int == d
  {
    (d + '0' as int) as char
  }

  /** The decimal text of a natural number, as a template literal prints it. */
  function NatToString(n: nat): (s: string)
    ensures |s| > 0 && AllDigits(s)
    ensures s[0] == '0' ==> n == 0
    decreases n
  {
    if n < 10 then [DigitChar(n)] else NatToString(n / 10) + [DigitChar(n % 10)]
  }

  /** The number a string of decimal digits denotes. */
  function DigitsValue(s: string): nat
    requires AllDigits(s)
  {
    if s == [] then 0 else DigitsValue(s[..|s| - 1]) * 10 + (s[|s| - 1] as int - '0' as int)
  }

  /** Reading back the printed text gives the number again. */
  lemma {:induction false} DigitsValueOfNatToString(n: nat)
    ensures DigitsValue(NatToString(n)) == n
  {
    if n >= 10 {
      var s := NatToString(n);
      DigitsValueOfNatToString(n / 10);
      assert s[..|s| - 1] == NatToString(n / 10);
    }
  }

  /** Distinct numbers print as distinct texts. */
  lemma NatToStringInjective(m: nat, n: nat)
    requires NatToString(m) == NatToString(n)
    ensures m == n
  {
    DigitsValueOfNatToString(m);
    DigitsValueOfNatToString(n);
  }

  /** The text of an integer as a template literal prints it. */
  function IntToString(i: int): (s: string)
    ensures |s| > 0
    ensures i >= 0 ==> s == NatToString(i)
    ensures i < 0 ==> s[0] == '-'
  {
    if i < 0 then "-" + NatToString(-i) else NatToString(i)
  }

  lemma IntToStringInjective(i: int, j: int)
    requires IntToString(i) == IntToString(j)
    ensures i == j
  {
    if i < 0 && j < 0 {
      assert IntToString(i)[1..] == NatToString(-i);
      assert IntToString(j)[1..] == NatToString(-j);
      NatToStringInjective(-i, -j);
    } else if i >= 0 && j >= 0 {
      NatToStringInjective(i, j);
    }
  }

  /** `needle` occurs in `hay` starting at index `i`. */
  predicate OccursAt(hay: string, needle: string, i: nat) {
    i + |needle| <= |hay| && hay[i..i + |needle|] == needle
  }

  /** `needle` occurs somewhere in `hay`. */
  predicate Contains(hay: string, needle: string) {
    exists i :: 0 <= i <= |hay| && OccursAt(hay, needle, i)
  }

  /** The first index at or after `from` where `needle` occurs in `hay`, or -1. */
  function IndexOfFrom(hay: string, needle: string, from: nat): (r: int)
    requires from <= |hay|
    ensures r == -1 || from <= r <= |hay|
    ensures r >= 0 ==> OccursAt(hay, needle, r)
    ensures r >= 0 ==> forall j :: from <= j < r ==> !OccursAt(hay, needle, j)
    ensures r == -1 ==> forall j :: from <= j <= |hay| ==> !OccursAt(hay, needle, j)
    decreases |hay| - from
  {
    if OccursAt(hay, needle, from) then from
    else if from == |hay| then -1
    else IndexOfFrom(hay, needle, from + 1)
  }

  /** `hay.indexOf(needle)`: the first index where `needle` occurs, or -1. */
  function IndexOf(hay: string, needle: string): (r: int)
    ensures r == -1 || 0 <= r <= |hay|
    ensures r >= 0 ==> OccursAt(hay, needle, r)
    ensures r >= 0 ==> forall j :: 0 <= j < r ==> !OccursAt(hay, needle, j)
    ensures r > -1 <==> Contains(hay, needle)
  {
    IndexOfFrom(hay, needle, 0)
  }

  /** A one-character needle occurs exactly where that character is. */
  lemma OccursAtChar(s: string, c: char, i: nat)
    ensures OccursAt(s, [c], i) <==> i < |s| && s[i] == c
  {
    if i < |s| && s[i] == c {
      assert s[i..i + 1] == [c];
    }
  }

  /** The first `c` in `k + [c] + rest` is the one after `k` when `k` has none. */
  lemma IndexOfAfterPrefix(k: string, c: char, rest: string)
    requires c !in k
    ensures IndexOf(k + [c] + rest, [c]) == |k|
  {
    var s := k + [c] + rest;
    OccursAtChar(s, c, |k|);
    forall j | 0 <= j < |k|
      ensures !OccursAt(s, [c], j)
    {
      OccursAtChar(s, c, j);
      assert s[j] == k[j];
    }
  }

  /** Without `c`, the text holds no occurrence of it. */
  lemma IndexOfAbsent(s: string, c: char)
    requires c !in s
    ensures IndexOf(s, [c]) == -1
  {
    var r := IndexOf(s, [c]);
    if r >= 0 {
      OccursAtChar(s, c, r);
    }
  }

  /** `xs.join(sep)`. */
  function Join(xs: seq<string>, sep: string): string {
    if xs == [] then ""
    else if |xs| == 1 then xs[0]
    else xs[0] + sep + Join(xs[1..], sep)
  }

  /** Joining one more element appends the separator and the element. */
  lemma {:induction false} JoinSnoc(xs: seq<string>, x: string, sep: string)
    requires xs != []
    ensures Join(xs + [x], sep) == Join(xs, sep) + sep + x
  {
    if |xs| > 1 {
      JoinSnoc(xs[1..], x, sep);
      assert (xs + [x])[1..] == xs[1..] + [x];
    }
  }

  /** `p` is a prefix of `s`. */
  predicate IsPrefix(p: string, s: string) {
    |p| <= |s| && s[..|p|] == p
  }
}

=== FILE: src/user_service.dfy ===
/** `UserService`: the user-list request and the user delete. */
module UserService {
  import opened Wrappers
  import Text
  import Http
  import opened Query
  import Listing
  import opened ErrorHandling

  /** The search fields `getUserList` accepts; each may be absent. */
  datatype UserSearch = UserSearch(firstName: Option<string>, lastName: Option<string>, email: Option<string>)

  /** The URL of a user-list request, shared by the service and by the
      system users page: page and limit, then first name, last name and
      email when truthy, then one `role` pair per filter value. */
  function UserListUrl(page: Num, limit: Num, firstName: QueryValue, lastName: QueryValue, email: QueryValue, roles: seq<string>): string {
    Listing.ListUrl("user", Listing.ListParams(page, limit, [("firstName", firstName), ("lastName", lastName), ("email", email)], roles))
  }

  /** The text the user-list builders start from. */
  function UserListBase(page: Num, limit: Num): string {
    "/user?page=" + NumText(page) + "&limit=" + NumText(limit)
  }

  /** Building from that text gives the user-list URL. */
  lemma UserListBuilt(page: Num, limit: Num, fields: seq<Listing.SearchField>, roles: seq<string>)
    ensures Listing.BuiltUrl(UserListBase(page, limit), fields, roles)
         == Listing.ListUrl("user", Listing.ListParams(page, limit, fields, roles))
  {
    assert "/" + "user" + "?page=" == "/user?page=";
    assert UserListBase(page, limit) == Listing.BaseText("user", page, limit);
    Listing.BuiltUrlIsListUrl("user", page, limit, fields, roles);
  }

  /** `getUserList`: builds the URL by successive appends (absent search
      fields count as empty, an absent role list as empty) and sends it. */
  method GetUserList(page: Num, limit: Num, search: UserSearch, role: Option<seq<string>>) returns (request: Http.Request)
    ensures request == Http.Get(UserListUrl(page, limit,
      Single(search.firstName.GetOr("")), Single(search.lastName.GetOr("")), Single(search.email.GetOr("")), role.GetOr([])))
  {
    var firstName := search.firstName.GetOr("");
    var lastName := search.lastName.GetOr("");
    var email := search.email.GetOr("");
    var roles := role.GetOr([]);
    var requestUrl := "/user?page=" + NumText(page) + "&limit=" + NumText(limit);
    assert requestUrl == UserListBase(page, limit);
    requestUrl := Listing.AppendIfTruthy(requestUrl, "firstName", Single(firstName));
    requestUrl := Listing.AppendIfTruthy(requestUrl, "lastName", Single(lastName));
    requestUrl := Listing.AppendIfTruthy(requestUrl, "email", Single(email));
    if |roles| > 0 {
      var filterRoleQueryParams := Text.Join(Http.RoleTexts(roles), "&");
      requestUrl := requestUrl + "&" + filterRoleQueryParams;
    }
    ghost var fields := [("firstName", Single(firstName)), ("lastName", Single(lastName)), ("email", Single(email))];
    assert requestUrl == Listing.BuiltUrl(UserListBase(page, limit), fields, roles) by {
      Listing.AppendThree(UserListBase(page, limit), fields[0], fields[1], fields[2]);
    }
    UserListBuilt(page, limit, fields, roles);
    request := Http.Get(requestUrl);
  }

  /** With every search field empty and no roles, the URL is the bare
      `/user?page=..&limit=..`. */
  lemma EmptySearchIsBase(page: Num, limit: Num)
    ensures UserListUrl(page, limit, Single(""), Single(""), Single(""), [])
         == "/user?page=" + NumText(page) + "&limit=" + NumText(limit)
  {
    var fields := [("firstName", Single("")), ("lastName", Single("")), ("email", Single(""))];
    Listing.AppendThree(UserListBase(page, limit), fields[0], fields[1], fields[2]);
    UserListBuilt(page, limit, fields, []);
  }

  /** The request `deleteUser` sends. */
  function DeleteUserRequest(userId: int): (r: Http.Request)
    ensures r.verb == Http.DELETE && Text.IsPrefix("/user/", r.url)
    ensures r.url[|"/user/"|..] == Text.IntToString(userId)
  {
    Http.Delete("/user/" + Text.IntToString(userId))
  }

  /** `deleteUser`: sends the delete and passes the backend's `status` on
      unchanged; a failed request propagates. */
  method DeleteUser(userId: int, reply: Result<bool, HttpError>) returns (request: Http.Request, status: Result<bool, HttpError>)
    ensures request == DeleteUserRequest(userId)
    ensures status == reply
  {
    request := DeleteUserRequest(userId);
    status := reply;
  }
}

=== FILE: src/utils.dfy ===
/** `removeQueryParams`: the replacement of the first match of the regular
    expression `\?.*` by the empty string. */
module Utils {
  import Text

  /** The characters a regular expression `.` does not match. */
  predicate IsLineTerminator(c: char) {
    c == '\n' || c == '\r' || c == '\U{2028}' || c == '\U{2029}'
  }

  /** The first line terminator at or after `i`, or the length. */
  function LineEnd(s: string, i: nat): (j: nat)
    requires i <= |s|
    ensures i <= j <= |s|
    ensures j == |s| || IsLineTerminator(s[j])
    ensures forall k :: i <= k < j ==> !IsLineTerminator(s[k])
    decreases |s| - i
  {
    if i == |s| || IsLineTerminator(s[i]) then i else LineEnd(s, i + 1)
  }

  /** The first match of `\?.*` (from the first `?` up to, not including,
      the next line terminator) is removed; without a `?` the text is
      returned as it is. */
  function RemoveQueryParams(url: string): (r: string)
    ensures |r| <= |url|
  {
    var q := Text.IndexOf(url, "?");
    if q < 0 then url
    else url[..q] + url[LineEnd(url, q + 1)..]
  }

  predicate SingleLine(s: string) {
    forall k :: 0 <= k < |s| ==> !IsLineTerminator(s[k])
  }

  /** A URL without `?` is returned unchanged. */
  lemma NoQueryUnchanged(url: string)
    requires '?' !in url
    ensures RemoveQueryParams(url) == url
  {
    Text.IndexOfAbsent(url, '?');
  }

  /** On one line, the result is the text before the first `?`: a prefix of
      the input holding no `?`, and the input is that prefix followed by
      a `?` and the query. */
  lemma SingleLineStripsQuery(url: string)
    requires SingleLine(url)
    ensures var r := RemoveQueryParams(url);
      && Text.IsPrefix(r, url)
      && '?' !in r
      && (r == url || url[|r|] == '?')
  {
    var q := Text.IndexOf(url, "?");
    var r := RemoveQueryParams(url);
    if q >= 0 {
      Text.OccursAtChar(url, '?', q);
      assert r == url[..q];
      forall k | 0 <= k < q
        ensures r[k] != '?'
      {
        Text.OccursAtChar(url, '?', k);
      }
    } else {
      forall k | 0 <= k < |url|
        ensures url[k] != '?'
      {
        Text.OccursAtChar(url, '?', k);
      }
    }
  }

  /** On one line, removing the query a second time changes nothing. */
  lemma SingleLineIdempotent(url: string)
    requires SingleLine(url)
    ensures RemoveQueryParams(RemoveQueryParams(url)) == RemoveQueryParams(url)
  {
    SingleLineStripsQuery(url);
    NoQueryUnchanged(RemoveQueryParams(url));
  }

  /** A path followed by any one-line query string loses exactly the query. */
  lemma StripsAppendedQuery(path: string, query: string)
    requires '?' !in path && SingleLine(query)
    ensures RemoveQueryParams(path + "?" + query) == path
  {
    var url := path + "?" + query;
    Text.IndexOfAfterPrefix(path, '?', query);
    assert url[..|path|] == path;
    assert LineEnd(url, |path| + 1) == |url| by {
      forall k | |path| + 1 <= k < |url|
        ensures !IsLineTerminator(url[k])
      {
        assert url[k] == query[k - |path| - 1];
      }
    }
  }

  /** Across lines only the rest of the first line goes: the regular
      expression's `.` stops at the line break. */
  lemma StopsAtLineBreak()
    ensures RemoveQueryParams("/a?b\nc") == "/a\nc"
  {
    Text.IndexOfAfterPrefix("/a", '?', "b\nc");
    assert "/a" + "?" + "b\nc" == "/a?b\nc";
    assert LineEnd("/a?b\nc", 3) == 4;
  }
}

=== FILE: src/wrappers.dfy ===
/** Optional values and results, used wherever the source reads a possibly
    missing value (`undefined`/`null`) or an awaited call that may throw. */
module Wrappers {

  datatype Option<+T> = None | Some(value: T) {
    /** The value, or `default` when absent (lodash `_.get(obj, key, default)`). */
    function GetOr(default: T): T {
      match this
      case Some(v) => v
      case None => default
    }
  }

  /** The outcome of an awaited call: its value, or the error it threw. */
  datatype Result<+T, +E> = Success(value: T) | Failure(error: E)
}
